=== FILE: README.md ===
# AcademyScope back end: a Dafny model

AcademyScope is a desktop tool for browsing Turkish university programmes and their placement statistics. This project models the sequential core of its back end, together with proofs about it:

- **Column catalog** (`ColumnDefinitions`). This covers:
  - the `ProgramTableColumn` enumeration and its integer layout;
  - the `ColumnTypes` quota categories;
  - the three static catalog maps (`columnMap`, `baseColumnMap`, `optionalColumnMap`) and their accessors.
- **Request record** (`DataTypes`). This covers `AcademyScopeParameters` and its enumerations, together with the default values a freshly constructed request carries, and the `DataWindow` bookkeeping record.
- **Filter-to-SQL compiler** (`QueryBuilder`). `buildFilteredSql` turns a request into `FROM <table>[ WHERE c1 AND … AND cn] ORDER BY <expr> <dir>`. The ORDER BY part is the format ` ORDER BY %1 %2` filled by two chained `arg` calls, as in the program.
  - The WHERE list is a list of structured clauses: one slot per conditional append in the program, compacted in append order.
  - A separate render function produces the text.
  - `getDbColumnNameFromProgramTableColumnIndex` is the sort-column mapping.
- **`QString` formatting** (`QtArg`, `ClauseFormats`).
  - `QtArg` models the decimal text of an integer and the `%n` place-marker substitution of `QString::arg`, including its rescanning when calls are chained.
  - `ClauseFormats` connects every format text the compiler uses to the clause text the renderer produces.
- **Column visibility** (`ColumnVisibility`).
  - `hideUnnecessaryColumnsOnTheProgramTable` and `hideUnusedColumnsOnTheProgramTable` emit `(column, visible)` notifications.
  - A request is modelled as the list of notifications it emits, and the view's state as "the last notification for a column wins".
- **Windowed row cache** (`RowCache`), i.e. `AcademyScopeModel`.
  - State: one slot per result row, each either empty (not loaded) or a full row, plus the window record and the query texts.
  - Operations: `setBaseQuery`, `loadCurrentWindow`/`loadRows`, `data`, `rowCount`, `columnCount` and `clear`.
  - `LoadRowsSpec` is a functional reference definition of a load. `LoadRows` is the program's write loop and its two clearing loops, proved equal to it.
  - Both fetch with the text the program builds: three chained `arg` calls on `%1 LIMIT %2 OFFSET %3` (`RowCache.FetchQueryAsWritten`). The plain `<base> LIMIT <n> OFFSET <k>` text (`RowCache.FetchQuery`) is kept beside it, and the two are proved equal when the base query has no low place marker.
- **Back end** (`BackEnd`). `populateProgramTable` composes the compiler, the cache and the visibility notifications.

The database is a set of plain inputs:

- whether it is open;
- what the `COUNT` query returns;
- what the one-row probe returns;
- what a row fetch returns for a given SQL text (`None` when the query fails).

Code the compiler calls but that is not part of this model is a record of functions passed as a parameter (`QueryBuilder.Collaborators`):

- Turkish upper and title casing;
- the Turkish-collation ORDER BY wrapper;
- the decimal text of a score.

In the following points the program behaves differently from what its names and comments suggest; the model follows the program:

- **Empty selections.** An empty quota or tuition selection omits that OR-group. It does not produce a predicate no row meets.
- **Score clause.** The score interval constrains only the `Genel*` columns. An absent maximum reads as 0 and so yields `< 0`.
- **Visibility toggles.** Column visibility is driven by five category toggles. The regular, TRNC and MTOK toggles share the general columns.
- **Failed COUNT.** A failed `COUNT` sets the row count to 0.
- **Enumerators missing from the header.** The sort mapping names enumerators `Universite`, `Kampus` and `Program`, which the header's enumeration does not declare. They are read as the columns at positions 1 to 3: `UniversiteAdi`, `FakulteYuksekOkulAdi` and `ProgramAdi`.
- **Rank columns are never hidden.** `hideUnusedColumnsOnTheProgramTable` (Src/BackEnd.cpp:194-200) hides the five success-rank columns, but it is private (Src/BackEnd.hpp:52) and nothing calls it: the constructor (Src/BackEnd.cpp:26-28) only opens the database. It is modelled as a function, but `populateProgramTable` never touches those columns (`BackEnd.PopulateLeavesRankColumns`).
- **Visibility and fetch as written.** `populateProgramTable` emits the written visibility events and the row cache sends the chained-`arg` fetch text, both with the defects listed under "## Findings". The corrected versions are separate members.
- **Bounds in `loadRows`.** `loadRows` indexes its slot list without checking the clamped range. The model states what it needs as a precondition (`RowCache.LoadInBounds`): a start of at most the row count and an end of at least -1 whenever the fetch succeeds.

## Model

| member | source | states |
|---|---|---|
| ColumnDefinitions.EnumeratorsAreConsecutive | Src/ProgramTableColumnDefinitions.hpp:25-51 | `ProgramKodu` is 0 and the 25 enumerators take the values 0..24 in declaration order, so the integer value is a bijection onto [0, 25) |
| ColumnDefinitions.ColumnLayout | Src/ProgramTableColumnDefinitions.hpp:26-50 | the base columns are exactly those with values 0..4; every other column sits in its category's group at its metric's offset; the rank columns are exactly the `BasariSirasi` member of each group |
| ColumnDefinitions.QuotaGroupsAreFourConsecutive | Src/ProgramTableColumnDefinitions.hpp:16-50 | each of the five non-base categories owns four consecutive columns (Kontenjan, Yerlesen, BasariSirasi, EnKucukPuan) starting at 5, 9, 13, 17 or 21 |
| ColumnDefinitions.MetricOf | Src/ProgramTableColumnDefinitions.hpp:31-50 | a column reports a metric exactly when it is not a base column, and the category and metric together identify the column again |
| ColumnDefinitions.ColumnMapIsTotal | Src/ProgramTableColumnDefinitions.cpp:17-45 | `columnMap` has exactly one entry for each of the 25 columns, namely the initializer's entry |
| ColumnDefinitions.PartialEntriesAgree | Src/ProgramTableColumnDefinitions.cpp:47-78 | the separately written base and optional initializers cover exactly the base and the quota columns, and each of their entries equals `columnMap`'s |
| ColumnDefinitions.CatalogPartition | Src/ProgramTableColumnDefinitions.cpp:17-78 | `baseColumnMap` and `optionalColumnMap` are disjoint, agree with `columnMap` entry for entry, and together are `columnMap` |
| ColumnDefinitions.Lookup | Src/ProgramTableColumnDefinitions.cpp:80-82 | `operator[]` always finds the column in `columnMap` and returns its entry, never a default-constructed one |
| ColumnDefinitions.GetColumnMap | Src/ProgramTableColumnDefinitions.cpp:89-92 | the returned map has 25 entries, each the one `operator[]` returns |
| ColumnDefinitions.GetColumns | Src/ProgramTableColumnDefinitions.cpp:84-87 | the returned list has 25 entries and holds each column's catalog entry at the column's integer value, i.e. in ascending key order |
| ColumnDefinitions.InDeclarationOrder | Src/ProgramTableColumnDefinitions.cpp:84-87 | a list holding the entries in declaration order holds each column's entry at the column's value |
| ColumnDefinitions.CatalogDbNamesAreInjective | Src/ProgramTableColumnDefinitions.cpp:19-44 | no two columns share a physical name in the catalog |
| ColumnDefinitions.CatalogDisplayNamesCollide | Src/ProgramTableColumnDefinitions.cpp:29-31 | two different columns share the label "Okul Birincisi Kontenjan" |
| QueryBuilder.QuotaMembers | Src/BackEnd.cpp:297-306 | the quota OR-group holds `X IS NOT NULL` for each selected counted quota and `= TRUE` for each selected flag quota, and is empty exactly when no toggle is on |
| QueryBuilder.CountedMembers | Src/BackEnd.cpp:298-302 | one `IS NOT NULL` member per selected counted quota, each present iff its toggle is on |
| QueryBuilder.FrontCountedMembers | Src/BackEnd.cpp:298-300 | the regular, valedictorian and martyrs-and-veterans members, each present iff its toggle is on |
| QueryBuilder.BackCountedMembers | Src/BackEnd.cpp:301-302 | the earthquake-victims and women-over-34 members, each present iff its toggle is on |
| QueryBuilder.FlagMembers | Src/BackEnd.cpp:303-306 | one `= TRUE` member for TRNC and one for MTOK, each present iff its toggle is on |
| QueryBuilder.TuitionFees | Src/BackEnd.cpp:312-315 | the tuition values 0, 50 and 100 appear iff free, discounted and paid are selected, and the list is empty iff none is |
| QueryBuilder.Slot | Src/BackEnd.cpp:245-316 | what the i-th conditional append contributes always has rank i, so rank order is append order |
| QueryBuilder.WhereClausesInSourceOrder | Src/BackEnd.cpp:245-316 | ranks strictly increase along the WHERE list: clauses keep insertion order and each kind appears at most once |
| QueryBuilder.WhereClauseOfRank | Src/BackEnd.cpp:245-316 | the clause of a given rank in the WHERE list is exactly what that conditional append decided, and no other rank occurs |
| QueryBuilder.SimpleFilterClauses | Src/BackEnd.cpp:245-280 | name, department, country, degree, university-type and track filters add no clause at their no-constraint value and one otherwise; names go through the Turkish case mapping; foreign countries are `NOT IN (90, 357)` |
| QueryBuilder.ScoreClause | Src/BackEnd.cpp:283-294 | a lower part iff the minimum (0 when absent) exceeds 100, an upper part iff the maximum (0 when absent) is below 560, both in one parenthesised clause AND-joined, and no clause otherwise |
| QueryBuilder.ScoreRangeText | Src/BackEnd.cpp:287-294 | a two-sided range renders as `(GenelEnKucukPuan > lo AND GenelEnBuyukPuan < hi)` |
| QueryBuilder.ScoreBoundaries | Src/BackEnd.cpp:283-292 | a present interval adds nothing exactly when min ≤ 100 and max ≥ 560; the default interval adds nothing; an absent maximum yields the upper bound 0 |
| QueryBuilder.FlagQuotasContributeOnce | Src/BackEnd.cpp:303-306 | TRNC and MTOK each contribute exactly one item: an OR-group member when selected, a top-level `= FALSE` clause when not |
| QueryBuilder.GroupClauses | Src/BackEnd.cpp:308-316 | the quota group is present iff some of the seven toggles is on and the tuition group iff some tuition kind is; an empty selection adds nothing |
| QueryBuilder.CategoryIntervalsAreIgnored | Src/BackEnd.cpp:236-333 | changing any of the six per-category intervals leaves the query text unchanged |
| QueryBuilder.DbColumnName | Src/BackEnd.cpp:335-358 | the sort mapping returns the empty string exactly for the five rank columns |
| QueryBuilder.SortNamesVersusCatalog | Src/BackEnd.cpp:335-358 | the sort mapping agrees with the catalog's physical names except for the rank columns, the campus column and the martyrs-and-veterans group |
| QueryBuilder.OrderClauseChoice | Src/BackEnd.cpp:322-330 | unordered requests sort by `ProgramKodu ASC`; ordered ones by the collation-wrapped mapped column, ASC iff ascending and DESC iff descending |
| QueryBuilder.RenderShape | Src/BackEnd.cpp:239-330 | the text opens with `FROM <table>`, continues with ` WHERE ` iff the clause list is non-empty (otherwise directly ` ORDER BY `), and, when the ordering expression carries no place marker numbered 2 or lower, ends with a space and the direction |
| QueryBuilder.BuildFilteredSql | Src/BackEnd.cpp:236-333 | the query opens with `FROM EkTercihDetayli` iff placement is additional and `FROM YKS` iff regular; ` WHERE ` follows iff some clause applies; without clauses ` ORDER BY ` follows the table directly; when the collation expression carries no place marker numbered 2 or lower, the text ends in ` DESC` only for an ordered descending request and in ` ASC` otherwise |
| QueryBuilder.SqlShape | Src/BackEnd.cpp:239-330 | rendering the compiled request gives the shape `BuildFilteredSql` promises: the right table, a WHERE part iff some clause applies, and, for a plain collation expression, the direction at the end |
| QueryBuilder.DefaultGroups | Src/DataTypeDefinitions.hpp:59-73 | the default selections keep the regular-quota group and the group of all three tuition kinds |
| QueryBuilder.DefaultWhereClauses | Src/BackEnd.cpp:296-316 | a default request for all countries filters only on TRNC and MTOK exclusion, the regular quota and the three tuition kinds, in that order |
| QueryBuilder.DefaultParametersQuery | Src/DataTypeDefinitions.hpp:88-99 | a default request for all countries compiles to the regular table, those four clauses, and `ProgramKodu ASC` |
| QueryBuilder.DefaultWhereText | Src/BackEnd.cpp:318-320 | the default WHERE text is `KKTCUyruklu = FALSE AND MTOK = FALSE AND (GenelKontenjan IS NOT NULL) AND (UcretDurumu = 0 OR UcretDurumu = 50 OR UcretDurumu = 100)` |
| ClauseFormats.LikeFormat | Src/BackEnd.cpp:247-253 | `arg` on `<column> LIKE '%%1%'` keeps the first `%` literal and puts the argument between the two wildcards |
| ClauseFormats.UniversityClauseFormat | Src/BackEnd.cpp:246-248 | the university clause's format, filled by `arg`, is the rendered university clause |
| ClauseFormats.DepartmentClauseFormat | Src/BackEnd.cpp:251-253 | the department clause's format, filled by `arg`, is the rendered department clause |
| ClauseFormats.ScoreClauseFormat | Src/BackEnd.cpp:287-294 | each score bound is its format filled with the formatted number, and the range is `(%1)` filled with the joined bounds |
| QtArg.ScanPlainFront | Src/BackEnd.cpp:325-327 | a front part without `%` is read as ordinary text, whatever follows it |
| QtArg.ArgKeepsPlainFront | Src/BackEnd.cpp:325-327 | `arg` leaves a front part without `%` in place, whatever the rest of the text holds |
| QtArg.FirstOfTwoMarkers | Src/BackEnd.cpp:325-327 | the first `arg` call on a format `x%1y%2` puts its argument in place of `%1` and leaves `%2` |
| QtArg.PlainAroundKeepsMarkersAbove | Src/BackEnd.cpp:325-327 | surrounding an argument with text without `%` adds no marker numbered `n` or lower |
| QtArg.TwoMarkersInOrder | Src/BackEnd.cpp:325-327 | two chained `arg` calls on a `x%1y%2` format fill the markers in order when the first argument brings no marker numbered 2 or lower |
| QueryBuilder.OrderFormat | Src/BackEnd.cpp:325-327 | ` ORDER BY %1 %2` filled with expression and then direction is ` ORDER BY <expr> <dir>` when the expression brings no marker numbered 2 or lower |
| QueryBuilder.OrderFormatOpens | Src/BackEnd.cpp:325-327 | whatever the expression holds, the filled ordering format opens with ` ORDER BY ` |
| QueryBuilder.OrderFormatFilled | Src/BackEnd.cpp:325-327 | the ordering text produced by the two chained calls opens with ` ORDER BY ` and, for an expression without a marker numbered 2 or lower, is ` ORDER BY <expr> <dir>` |
| QueryBuilder.OrderText | Src/BackEnd.cpp:322-330 | the ORDER BY part always opens with ` ORDER BY ` and is ` ORDER BY <expr> <dir>` when the expression carries no marker numbered 2 or lower; the unordered literal ` ORDER BY ProgramKodu ASC` is the same chain on `ProgramKodu` and `ASC`, which have no `%` |
| QtArg.IntText | Src/AcademyScopeModel.cpp:196-199 | the decimal text of an integer is non-empty, digits with an optional leading minus, and carries no `%` |
| QtArg.NatTextRoundTrip | Src/AcademyScopeModel.cpp:196-199 | reading the decimal text back gives the number written |
| QtArg.ScanText | Src/AcademyScopeModel.cpp:196-199 | splitting a text into literal characters and place markers loses nothing: the pieces spell the text again |
| QtArg.LowestMarkerSpec | Src/AcademyScopeModel.cpp:196-199 | the marker `arg` replaces is absent exactly when the text has no marker, and otherwise is one present and no higher than any other |
| QtArg.ArgSingleMarker | Src/BackEnd.cpp:247-248 | `arg` on a text with one marker and only higher ones around it replaces that marker by the argument |
| QtArg.ThreeMarkerChainInOrder | Src/AcademyScopeModel.cpp:196-199 | three chained `arg` calls on `%1 <p> %2 <q> %3` fill the markers in order when the first argument has no marker numbered 3 or lower and the second has no `%` |
| QtArg.ThreeMarkerChainStrandsLast | Src/AcademyScopeModel.cpp:196-199 | when the first argument carries a marker numbered 0 or 1, the chain's result still ends with `<q>%3` |
| ColumnVisibility.ApplyEventsLastWins | Src/AcademyScopeModel.cpp:148-156 | the view keeps its columns, and each ends as the last notification for it asks, or as it was |
| ColumnVisibility.LastEventConcat | Src/AcademyScopeModel.cpp:148-156 | a later notification overrides an earlier one for the same column |
| ColumnVisibility.CategoryBlocksLast | Src/BackEnd.cpp:115-170 | after the five category blocks, each quota, placed and minimum-score column follows its category's toggle (the general columns: regular, TRNC or MTOK); base and rank columns are untouched |
| ColumnVisibility.PlacedColumns | Src/ProgramTableColumnDefinitions.hpp:31-50 | the five `*Yerlesen` columns are exactly the columns whose metric is the placed count |
| ColumnVisibility.ShowPlacedLast | Src/BackEnd.cpp:173-184 | under the regular placement each placed column is re-shown iff its toggle is on, the martyrs-and-veterans one on the toggle given for it, and nothing is hidden |
| ColumnVisibility.HidePlacedLast | Src/BackEnd.cpp:185-191 | under the additional placement exactly the five placed columns are hidden |
| ColumnVisibility.HideUnnecessaryColumns | Src/BackEnd.cpp:114-192 | after the notifications as written, every column ends as `ExpectedVisibility` says: quota, placed and minimum-score columns on their category toggles (the martyrs-and-veterans placed column on the valedictorians toggle), placed columns hidden under the additional placement, base and rank columns untouched |
| ColumnVisibility.FinalVisibility | Src/BackEnd.cpp:114-192 | the five category blocks followed by the placed block leave every column as the reference table `ExpectedVisibility` says, which includes the martyrs-and-veterans quirk |
| ColumnVisibility.FinalVisibilityIntended | Src/BackEnd.cpp:114-192 | the corrected notifications leave every column as `IntendedVisibility` says |
| ColumnVisibility.IntendedPlacedFollowsQuota | Src/BackEnd.cpp:137-146 | with the corrected block, a category's placed column ends visible only if its quota column does |
| ColumnVisibility.MartyrsPlacedColumnQuirk | Src/BackEnd.cpp:176-179 | as written, a regular request for valedictorians but not martyrs shows the martyrs placed column while hiding its quota column; the corrected version hides it |
| ColumnVisibility.QuirkShowsPlaced | Src/BackEnd.cpp:178-179 | as written, the valedictorians toggle shows the martyrs-and-veterans placed column under the regular placement |
| ColumnVisibility.QuirkHidesQuota | Src/BackEnd.cpp:142-146 | without the martyrs-and-veterans toggle, that category's quota column ends hidden |
| ColumnVisibility.IntendedHidesPlaced | Src/BackEnd.cpp:142-146 | with the corrected block, the martyrs-and-veterans placed column ends hidden without its own toggle |
| ColumnVisibility.IntendedDiffersOnlyThere | Src/BackEnd.cpp:173-184 | the written and the corrected versions agree on every column except the martyrs-and-veterans placed column |
| ColumnVisibility.HideUnusedColumns | Src/BackEnd.cpp:194-200 | `hideUnusedColumnsOnTheProgramTable` leaves exactly the five rank columns hidden and sends no notification for any other column |
| ColumnVisibility.HideAllLast | Src/BackEnd.cpp:194-200 | hiding a list of columns one after another leaves exactly the listed columns hidden and touches nothing else |
| ColumnVisibility.RankColumnsStayHidden | Src/BackEnd.cpp:114-200 | a filter request never touches a rank column, so if `hideUnusedColumnsOnTheProgramTable` had hidden them first (nothing calls it) they would stay hidden |
| RowCache.NormalizedCell | Src/AcademyScopeModel.cpp:216-217 | a stored cell is never NULL, and it is the em dash exactly when the value was NULL, missing, or itself the em dash |
| RowCache.NormalizedRow | Src/AcademyScopeModel.cpp:214-217 | a stored row has exactly `columnCount` non-NULL cells |
| RowCache.BuildRow | Src/AcademyScopeModel.cpp:214-217 | the cell loop builds the normalized row |
| RowCache.FetchQuery | Src/AcademyScopeModel.cpp:195-199 | the intended fetch text starts with the base query |
| RowCache.FetchQueryEndsWithOffset | Src/AcademyScopeModel.cpp:195-199 | the intended fetch text ends with ` OFFSET ` and the offset's digits, which read back as the offset, and has no `%` before its last character |
| RowCache.FetchQueryAsWritten | Src/AcademyScopeModel.cpp:195-199 | the chained `arg` text equals the intended `<base> LIMIT <count> OFFSET <offset>` when the base query has no marker numbered 3 or lower; with a marker numbered 0 or 1 it ends in ` OFFSET %3` and is not the intended text |
| RowCache.ChainAgrees | Src/AcademyScopeModel.cpp:196-199 | the three chained `arg` calls build the intended text whenever the base query has no marker numbered 3 or lower |
| RowCache.ChainKeepsOffsetMarker | Src/AcademyScopeModel.cpp:196-199 | with a marker numbered 0 or 1 in the base query, the chained text ends in ` OFFSET %3` and is not the intended fetch |
| RowCache.Fetch | Src/AcademyScopeModel.cpp:187-202 | a closed database or an empty base query fetches nothing; otherwise, when the base query has no marker numbered 3 or lower, the rows come from `<base> LIMIT <count> OFFSET <start>` for the start raised to 0 and the end lowered to the last row |
| RowCache.LowMarkerStrandsLoad | Src/AcademyScopeModel.cpp:187-202 | with a marker numbered 0 or 1 in the base query, every load on an open database sends a text ending in ` OFFSET %3` that is not the intended fetch |
| RowCache.LoadRowsSpec | Src/AcademyScopeModel.cpp:187-226 | a load fetches with the chained-`arg` text the program sends; it keeps the model valid, never changes the query texts or the window, and leaves the model as it was when the fetch does not happen or fails |
| RowCache.LoadRows | Src/AcademyScopeModel.cpp:187-231 | the program's load (fetch with the chained-`arg` text, write loop, two clearing loops) yields exactly the reference load |
| RowCache.StoreRecords | Src/AcademyScopeModel.cpp:209-226 | after a successful fetch every slot ends as `SlotAfterLoad` says: the k-th record in slot start+k within the range, other range slots as before, all slots outside emptied |
| RowCache.WriteRecords | Src/AcademyScopeModel.cpp:212-220 | the write loop stores record k in slot start+k while both last, and changes no other slot |
| RowCache.EmptyOutside | Src/AcademyScopeModel.cpp:222-226 | the clearing loops empty every slot before the start and after the end and keep the others |
| RowCache.LoadCurrentWindow | Src/AcademyScopeModel.cpp:182-185 | loading the recorded window, with the program's fetch text, keeps the model valid |
| RowCache.ResetForQuery | Src/AcademyScopeModel.cpp:41-72 | the reset state is valid: one empty slot per counted row and a first window inside the slot list |
| RowCache.SetBaseQuery | Src/AcademyScopeModel.cpp:34-74 | on a closed database nothing changes; otherwise the reset model, loaded through the program's fetch text, is valid |
| RowCache.SetBaseQueryOutcome | Src/AcademyScopeModel.cpp:43-72 | after `setBaseQuery` the texts are `SELECT *`/`SELECT COUNT(*)` plus the given part, the row count is COUNT's result or 0, the column count is the probe's width or 0, there is one slot per row, and the window is rows 0..min(299, rows-1) |
| RowCache.SetBaseQueryLoadsFirstWindow | Src/AcademyScopeModel.cpp:70-73 | after `setBaseQuery` the records come from the chained-`arg` text for the first min(300, rows) rows at offset 0; they fill the first slots, every slot past the window is empty, and a failed fetch leaves every slot empty |
| RowCache.FirstWindowFetch | Src/AcademyScopeModel.cpp:70-73 | the first window ends at min(300, rows) - 1, and its fetch is the chained-`arg` text for that many rows at offset 0 on `SELECT * <query>` |
| RowCache.ProbeQuery | Src/AcademyScopeModel.cpp:58 | the probe text is the base query with ` LIMIT 1` appended, whatever the base query holds |
| RowCache.Data | Src/AcademyScopeModel.cpp:86-103 | `data` yields a value exactly for a valid index, the display role, a row inside the slot list and a column inside a loaded row, and that value is the cell's text with NULL shown as the em dash |
| RowCache.RowCount | Src/AcademyScopeModel.cpp:76-79 | in a valid model the row count is the number of slots |
| RowCache.ColumnCount | Src/AcademyScopeModel.cpp:81-84 | in a valid model the column count is non-negative and every loaded row has exactly that many cells |
| RowCache.Clear | Src/AcademyScopeModel.cpp:234-241 | `clear` leaves a valid model with no rows, no columns, no slots, no base query and the default window, and keeps the COUNT text |
| RowCache.InitialModelValid | Src/DataTypeDefinitions.hpp:108-114 | a new model, with the default window (size 300, all else 0), is valid with no rows and no columns |
| RowCache.LoadKeepsOneWindow | Src/AcademyScopeModel.cpp:222-226 | after a successful load only slots inside the clamped range can hold a row |
| RowCache.LoadPlacesRecords | Src/AcademyScopeModel.cpp:212-220 | the k-th fetched record sits in slot start+k, within the range, as a full row of `columnCount` cells |
| RowCache.LoadedSlot | Src/AcademyScopeModel.cpp:209-226 | each slot of a loaded model is what `SlotAfterLoad` gives for it |
| RowCache.LoadIdempotent | Src/AcademyScopeModel.cpp:187-226 | loading the same range again over the same database changes nothing |
| RowCache.DataAfterLoad | Src/AcademyScopeModel.cpp:212-220 | reading a cell of a freshly loaded row gives the fetched value, or the em dash for NULL or a missing value |
| RowCache.LoadKeepsShape | Src/AcademyScopeModel.cpp:76-84 | a load never changes the row count, the column count or the number of slots |
| RowCache.ClearThenLoadIsNoOp | Src/AcademyScopeModel.cpp:234-241 | after `clear` a load changes nothing and no cell can be read |
| BackEnd.PopulateProgramTable | Src/BackEnd.cpp:103-107 | populating only adds notifications (the written `hideUnnecessaryColumnsOnTheProgramTable` events); on a closed database the model is unchanged, otherwise it is valid |
| BackEnd.PopulateProgramTableOutcome | Src/BackEnd.cpp:103-107 | after populating, each metric column ends as `ExpectedVisibility` says (the martyrs-and-veterans placed column on the valedictorians toggle), untouched columns keep their visibility, and the model counts and fetches with `SELECT COUNT(*)`/`SELECT *` in front of the filtered query |
| BackEnd.PopulateLeavesRankColumns | Src/BackEnd.cpp:103-107 | populating never shows or hides a success-rank column, so without a call to `hideUnusedColumnsOnTheProgramTable` they keep their earlier visibility |
| BackEnd.UniversityClauseLeads | Src/BackEnd.cpp:245-248 | a non-blank university name puts its `LIKE` clause first in the WHERE list |
| BackEnd.UniversityClauseInSql | Src/BackEnd.cpp:245-248 | a non-blank university name makes the filtered query open with the table, ` WHERE ` and its `LIKE` clause |
| BackEnd.DigitUniversitySearchStrandsEveryLoad | Src/AcademyScopeModel.cpp:195-201 | with a university search for "0" or "1", every load of a model holding the filtered query sends a text ending in ` OFFSET %3` |
| BackEnd.DigitUniversitySearchBreaksFetch | Src/AcademyScopeModel.cpp:196-199 | a university search for "0" or "1" puts a low marker into the base query, and the fetch as written then ends in ` OFFSET %3` instead of the offset |
| BackEnd.DigitUniversitySearchLowMarker | Src/BackEnd.cpp:245-248 | a university search for "0" or "1" puts a place marker numbered 0 or 1 into `SELECT * <filtered query>` |

## Left out

- `getUniversities` and `getDepartments` (Src/BackEnd.cpp:30-101) are left out. They read the database and sort with Qt's Turkish-locale collator, which is library behaviour.
- Database plumbing is left out: `initDB`, the database path and query execution. Query results enter as the inputs of `RowCache.Database`. SQL evaluation (which rows a predicate matches, `LIMIT`/`OFFSET`, NULL logic) is not modelled; the model stops at the query text.
- Turkish upper and title casing, the collation wrapper `trOrderExprFor`, and the decimal text `QString::arg(double)` gives a score are parameters (`QueryBuilder.Collaborators`). Their code is not part of this model.
- Qt's model/view signalling is left out: `beginResetModel`/`endResetModel`, the signal emission itself, `qDebug`/`qWarning` logging and `getDataModel`. Visibility changes are kept as the list of notifications.
- The `canFetchMore`/`fetchMore`/`fetchMoreData` stubs (Src/AcademyScopeModel.cpp:158-171) have no behaviour and are left out.
- `headerData` (Src/AcademyScopeModel.cpp:105-146) only returns label strings and is left out.
- `initializeYKSTableColumnNames` (Src/BackEnd.cpp:202-234) fills a list nothing reads and is left out.
- `getDataWindow` (Src/AcademyScopeModel.cpp:173-176) hands out a pointer to the window record. Writes made through it from outside are not modelled; the window changes only through the modelled operations.
- Integers are unbounded. The program's `int` row counts, the fetch count `endRow - startRow + 1` and `toInt()` on the COUNT result could wrap at 32 bits; that is not modelled.
- Scores are reals: NaN and the rounding of `double` are not modelled.
- `QtArg` handles markers as `QString::arg` for a string or an integer does:
  - `%L` markers are read but their locale-aware formatting is not modelled;
  - only ASCII digits form markers;
  - field widths and fill characters are not used by the program and are left out.
- The header declares a map `table`, a `Column` enumeration and an `operator[]` returning by value. The implementation file defines `columnMap`, `baseColumnMap`, `optionalColumnMap` and `getColumnMap` instead. The model follows the implementation file. Its `operator[]` returns a `const ProgramTableColumnInfo &` bound to the temporary copy that `QMap::operator[] const` returns, so the reference dangles; `ColumnDefinitions.Lookup` returns by value, as the header's signature does.
- QueryBuilder.BuildFilteredSql: the ` ASC`/` DESC` ending is promised only when the collation expression brings no place marker numbered 2 or lower. Otherwise the second `arg` call fills a marker inside the expression instead of `%2`, and only the ` ORDER BY ` opening is promised. What the collation wrapper returns is not part of this model. `QueryBuilder.RenderShape`, `QueryBuilder.SqlShape` and `QueryBuilder.OrderText` carry the same condition.
- RowCache.FetchQueryAsWritten: its contract covers base queries with no marker numbered 3 or lower and those whose lowest marker is 0 or 1. A base query whose lowest marker is 2 or 3 is covered by neither.
- RowCache.LoadRows: requires `RowCache.LoadInBounds`. The program does not check this, and its clearing loops would index outside the slot list without it.

## Findings

| source | as written | input that shows it | evidently intended | confidence | as-written member | corrected member |
|---|---|---|---|---|---|---|
| Src/BackEnd.cpp:178-179 | under the regular placement the martyrs-and-veterans placed column is re-shown when the valedictorians toggle is on | regular placement, valedictorians selected, martyrs and veterans not: `SehitGaziYakiniYerlesen` ends visible while `SehitGaziYakiniKontenjan` ends hidden | the column is keyed on `martyrsAndVeteransQuota`, like the other four placed columns, so a placed column is visible only when its quota column is | not executed | ColumnVisibility.MartyrsPlacedColumnQuirk | ColumnVisibility.IntendedPlacedFollowsQuota |
| Src/AcademyScopeModel.cpp:196-199 | the fetch text is built by three chained `arg` calls, and each call rescans the text the previous one inserted, base query included | a university search for "1": the base query then holds `LIKE '%1%'`, the row count replaces that `%1`, the offset replaces `%2`, and the text sent ends in `OFFSET %3` | the base query, the row count and the offset are placed after `LIMIT` and `OFFSET` whatever the base query holds (for example a single multi-argument `arg` call) | not executed | BackEnd.DigitUniversitySearchBreaksFetch | RowCache.FetchQueryEndsWithOffset |

=== FILE: BackEnd.dfy ===
/**
 * `populateProgramTable`: the back end compiles the request into the
 * FROM/WHERE/ORDER part of a query, hands it to the row cache as the new
 * base query, and then emits the column-visibility notifications for the
 * request. The program table is modelled as the row cache plus the list
 * of notifications the view has received so far.
 */
module BackEnd {
  import opened Wrappers
  import opened Sequences
  import opened ColumnDefinitions
  import opened DataTypes
  import opened QueryBuilder
  import opened ColumnVisibility
  import opened RowCache
  import opened QtArg

  datatype ProgramTable = ProgramTable(model: TableModel, notifications: seq<VisibilityEvent>)

  /**
   * `populateProgramTable`: set the filtered query as base query, then show
   * or hide the metric columns with `hideUnnecessaryColumnsOnTheProgramTable`
   * as written, quirk included.
   */
  function PopulateProgramTable(t: ProgramTable, db: Database, p: AcademyScopeParameters, env: Collaborators): (r: ProgramTable)
    ensures |r.notifications| > |t.notifications| && r.notifications[..|t.notifications|] == t.notifications
    ensures !db.isOpen ==> r.model == t.model
    ensures db.isOpen ==> Valid(r.model)
  {
    ProgramTable(SetBaseQuery(t.model, db, BuildFilteredSql(p, env)),
      t.notifications + HideUnnecessaryColumns(p))
  }

  /**
   * After populating on an open database, the model counts and fetches with
   * `SELECT COUNT(*)` and `SELECT *` in front of the filtered query, and
   * every metric column ends up as `ExpectedVisibility` says (the
   * valedictorians toggle still re-showing the martyrs-and-veterans placed
   * column); columns the request does not touch keep their earlier
   * visibility.
   */
  lemma PopulateProgramTableOutcome(t: ProgramTable, db: Database, p: AcademyScopeParameters, env: Collaborators, c: ProgramTableColumn)
    ensures var r := PopulateProgramTable(t, db, p, env);
      LastEvent(r.notifications, c) ==
        if ExpectedVisibility(p, c).Some? then ExpectedVisibility(p, c) else LastEvent(t.notifications, c)
    ensures db.isOpen ==> var r := PopulateProgramTable(t, db, p, env);
      && r.model.baseQuery == "SELECT * " + BuildFilteredSql(p, env)
      && r.model.countQuery == "SELECT COUNT(*) " + BuildFilteredSql(p, env)
      && RowCount(r.model) == db.count("SELECT COUNT(*) " + BuildFilteredSql(p, env)).GetOr(0)
  {
    LastEventConcat(t.notifications, HideUnnecessaryColumns(p), c);
    FinalVisibility(p, c);
    if db.isOpen {
      SetBaseQueryOutcome(t.model, db, BuildFilteredSql(p, env));
    }
  }

  /**
   * Populating never shows or hides a success-rank column: the view keeps
   * whatever it last received for them. Since `hideUnusedColumnsOnTheProgramTable`
   * has no caller, a table that starts with them visible keeps them visible.
   */
  lemma PopulateLeavesRankColumns(t: ProgramTable, db: Database, p: AcademyScopeParameters, env: Collaborators, c: ProgramTableColumn)
    requires IsRankColumn(c)
    ensures LastEvent(PopulateProgramTable(t, db, p, env).notifications, c) == LastEvent(t.notifications, c)
  {
    PopulateProgramTableOutcome(t, db, p, env, c);
  }

  /** A non-blank university name puts its `LIKE` clause first in the WHERE list. */
  lemma UniversityClauseLeads(p: AcademyScopeParameters, env: Collaborators)
    requires !IsBlank(p.universityName)
    ensures |WhereClauses(p, env)| > 0
    ensures WhereClauses(p, env)[0] == UniversityNameLike(env.turkishUpperCase(p.universityName))
  {
    var os := Slots(p, env);
    assert os[0] == UniversitySlot(p.universityName, env);
  }

  /** A text whose middle part opens with `first` opens with its front part and `first`. */
  lemma OpensThroughMiddle(s: string, front: string, middle: string, first: string, back: string)
    requires s == front + middle + back
    requires |middle| >= |first| && middle[..|first|] == first
    ensures |s| >= |front + first| && s[..|front + first|] == front + first
  {
    assert s == front + (middle + back);
    assert (middle + back)[..|first|] == first;
  }

  /** When the WHERE list is not empty, the rendered query opens with the table and the first clause. */
  lemma RenderedLeadingClause(q: CompiledQuery, env: Collaborators)
    requires |q.where| > 0
    ensures var sql := Render(q, env);
      var head := "FROM " + q.table + " WHERE " + RenderClause(q.where[0], env);
      |sql| >= |head| && sql[..|head|] == head
  {
    var parts := RenderClauses(q.where, env);
    assert parts[0] == RenderClause(q.where[0], env);
    JoinEnds(parts, " AND ");
    var table := "FROM " + q.table + " WHERE ";
    var tail := OrderText(q.order);
    assert Render(q, env) == table + RenderWhere(q.where, env) + tail;
    OpensThroughMiddle(Render(q, env), table, RenderWhere(q.where, env), parts[0], tail);
  }

  /** A non-blank university name makes the filtered query open with its `LIKE` clause. */
  lemma UniversityClauseInSql(p: AcademyScopeParameters, env: Collaborators)
    requires !IsBlank(p.universityName)
    ensures var sql := BuildFilteredSql(p, env);
      var head := "FROM " + Compile(p, env).table + " WHERE "
        + RenderClause(UniversityNameLike(env.turkishUpperCase(p.universityName)), env);
      |sql| >= |head| && sql[..|head|] == head
  {
    UniversityClauseLeads(p, env);
    RenderedLeadingClause(Compile(p, env), env);
  }

  /**
   * A query that opens with `pre`, `%`, a digit of value at most 1 and
   * another `%` carries, whatever is put in front of it, a marker no higher
   * than 1.
   */
  lemma LowMarkerAfterPrefix(base: string, lead: string, sql: string, pre: string, d: char)
    requires base == lead + sql
    requires IsDigit(d) && DigitValue(d) <= 1
    requires |sql| >= |pre| + 3 && sql[..|pre| + 3] == pre + ['%', d, '%']
    ensures LowestMarker(Scan(base)).Some?
    ensures LowestMarker(Scan(base)).value <= 1
  {
    var y := sql[|pre| + 2..];
    assert sql == pre + ['%', d] + y;
    assert base == (lead + pre) + ['%', d] + y;
    LowDigitMarker(lead + pre, d, y);
  }

  /**
   * A text that carries `%` and a digit of value at most 1, followed by `%`,
   * holds a marker no higher than 1.
   */
  lemma LowDigitMarker(x: string, d: char, y: string)
    requires IsDigit(d) && DigitValue(d) <= 1
    requires |y| > 0 && y[0] == '%'
    ensures LowestMarker(Scan(x + ['%', d] + y)).Some?
    ensures LowestMarker(Scan(x + ['%', d] + y)).value <= 1
  {
    ScanAroundMarker(x, d, y);
    var ps := Scan(x + ['%', d] + y);
    assert ps[|Scan(x)|] == Marker(DigitValue(d), ['%', d]);
    LowestAtMost(ps, DigitValue(d));
  }

  /**
   * Searching for a university named "0" or "1" (after the Turkish upper-case
   * mapping) makes the base query contain `%0` or `%1`, and the row fetch as
   * the program builds it then leaves `%3` in place of the offset: the
   * fetch text is not the `LIMIT`/`OFFSET` query meant.
   */
  lemma DigitUniversitySearchBreaksFetch(p: AcademyScopeParameters, env: Collaborators, d: char, count: int, offset: int)
    requires !IsBlank(p.universityName)
    requires env.turkishUpperCase(p.universityName) == [d] && IsDigit(d) && DigitValue(d) <= 1
    ensures var base := "SELECT * " + BuildFilteredSql(p, env);
      && FetchQueryAsWritten(base, count, offset) != FetchQuery(base, count, offset)
      && var q := FetchQueryAsWritten(base, count, offset);
        |q| >= 10 && q[|q| - 10..] == " OFFSET %3"
  {
    DigitUniversitySearchLowMarker(p, env, d);
  }

  /** Such a search puts a place marker numbered 0 or 1 into the base query. */
  lemma DigitUniversitySearchLowMarker(p: AcademyScopeParameters, env: Collaborators, d: char)
    requires !IsBlank(p.universityName)
    requires env.turkishUpperCase(p.universityName) == [d] && IsDigit(d) && DigitValue(d) <= 1
    ensures var base := "SELECT * " + BuildFilteredSql(p, env);
      LowestMarker(Scan(base)).Some? && LowestMarker(Scan(base)).value <= 1
  {
    UniversityClauseInSql(p, env);
    LikeHeadLowMarker(BuildFilteredSql(p, env), "FROM " + Compile(p, env).table + " WHERE ", "UniversiteAdi", d);
  }

  /**
   * A query that opens with a substring match whose pattern is one digit of
   * value at most 1 carries, behind `SELECT * `, a marker no higher than 1.
   */
  lemma LikeHeadLowMarker(sql: string, front: string, column: string, d: char)
    requires IsDigit(d) && DigitValue(d) <= 1
    requires var head := front + LikeText(column, [d]); |sql| >= |head| && sql[..|head|] == head
    ensures LowestMarker(Scan("SELECT * " + sql)).Some? && LowestMarker(Scan("SELECT * " + sql)).value <= 1
  {
    var pre := front + (column + " LIKE '");
    var head := front + LikeText(column, [d]);
    assert head == pre + ['%', d, '%', '\''];
    assert sql[..|pre| + 3] == head[..|pre| + 3];
    LowMarkerAfterPrefix("SELECT * " + sql, "SELECT * ", sql, pre, d);
  }

  /**
   * With such a search, a model whose base query is the filtered one (as
   * populating leaves it, by `PopulateProgramTableOutcome`) sends, on every
   * load (the first window, a scroll), a text that ends in ` OFFSET %3`
   * instead of the requested offset.
   */
  lemma DigitUniversitySearchStrandsEveryLoad(m: TableModel, db: Database, p: AcademyScopeParameters, env: Collaborators,
                                              d: char, start: int, end: int)
    requires db.isOpen && m.baseQuery == "SELECT * " + BuildFilteredSql(p, env)
    requires !IsBlank(p.universityName)
    requires env.turkishUpperCase(p.universityName) == [d] && IsDigit(d) && DigitValue(d) <= 1
    ensures var q := FetchQueryAsWritten(m.baseQuery, LastRow(m, end) - FirstRow(start) + 1, FirstRow(start));
      && Fetch(m, db, start, end) == db.select(q)
      && |q| >= 10 && q[|q| - 10..] == " OFFSET %3"
  {
    DigitUniversitySearchLowMarker(p, env, d);
    LowMarkerStrandsLoad(m, db, start, end);
  }
}

=== FILE: ClauseFormats.dfy ===
/**
 * The filter clauses are written in the program as `QString::arg` format
 * texts. These lemmas connect each format, substituted as `arg` does it, to
 * the clause text the query builder renders, so the rendering is the
 * substitution and not a guess at it.
 */
module ClauseFormats {
  import opened Wrappers
  import opened Sequences
  import opened QueryBuilder
  import opened QtArg

  /** The format texts of the filter clauses. */
  const UniversityFormat := "UniversiteAdi LIKE '%%1%'"
  const DepartmentFormat := "ProgramAdi LIKE '%%1%'"
  /*
   * The score formats are `GenelEnKucukPuan > %1`, `GenelEnBuyukPuan < %1`
   * and `(%1)`, kept as the text before the marker plus the rest: as one
   * literal, the verifier evaluates the whole scan of each of them inside
   * every proof that mentions it.
   */
  const LowerBoundFormat := "GenelEnKucukPuan > " + "%1"
  const UpperBoundFormat := "GenelEnBuyukPuan < " + "%1"
  const GroupFormat := "(" + "%1)"

  /** A `%` with nothing after it is literal text, so a plain text ending in one carries no marker. */
  lemma PercentAtEndIsLiteral(x: string, n: nat)
    requires '%' !in x
    ensures MarkersAbove(Scan(x + ['%']), n)
  {
    ScanConcat(x, ['%']);
    NoMarkerWithoutPercent(x, n);
    assert LeadingMarker(['%']) == None;
    assert Scan(['%']) == [Literal('%')];
    MarkersAboveConcat(Scan(x), Scan(['%']), n);
  }

  /** `%1` between two plain texts: `arg` puts the argument in its place. */
  lemma PlainAroundFirstMarker(format: string, x: string, y: string, a: string)
    requires format == x + ['%', '1'] + y
    requires '%' !in x && '%' !in y
    requires |y| == 0 || EndsMarker(y[0])
    ensures Arg(format, a) == x + a + y
  {
    NoMarkerWithoutPercent(x, 1);
    NoMarkerWithoutPercent(y, 1);
    ArgSingleMarker(x, '1', y, a);
  }

  /**
   * The `LIKE` pattern `<column> LIKE '%%1%'`: the first `%` is followed by
   * another `%`, so it stays literal, and the argument lands between the two
   * wildcards.
   */
  lemma LikeFormat(format: string, column: string, a: string)
    requires format == column + " LIKE '%%1%'"
    requires '%' !in column
    ensures Arg(format, a) == LikeText(column, a)
  {
    var x1 := column + " LIKE '";
    var x := x1 + ['%'];
    var y := ['%', '\''];
    assert column + " LIKE '%%1%'" == x + ['%', '1'] + y;
    PercentAtEndIsLiteral(x1, 1);
    assert LeadingMarker(y) == None;
    assert LeadingMarker(y[1..]) == None;
    assert Scan(y) == [Literal('%'), Literal('\'')];
    ArgSingleMarker(x, '1', y, a);
  }

  /** The university clause is the `LIKE` format filled with the upper-cased name. */
  lemma UniversityClauseFormat(x: string, env: Collaborators)
    ensures Arg(UniversityFormat, x) == RenderClause(UniversityNameLike(x), env)
  {
    LikeFormat(UniversityFormat, "UniversiteAdi", x);
  }

  /** The department clause is the `LIKE` format filled with the title-cased name. */
  lemma DepartmentClauseFormat(x: string, env: Collaborators)
    ensures Arg(DepartmentFormat, x) == RenderClause(DepartmentNameLike(x), env)
  {
    LikeFormat(DepartmentFormat, "ProgramAdi", x);
  }

  /**
   * The score bounds are `GenelEnKucukPuan > %1` and `GenelEnBuyukPuan < %1`
   * filled with the formatted numbers, and the range is `(%1)` filled with
   * the bounds joined by ` AND `.
   */
  lemma ScoreClauseFormat(lower: Option<real>, upper: Option<real>, env: Collaborators)
    ensures lower.Some? ==>
      ScoreParts(lower, upper, env)[0] == Arg(LowerBoundFormat, env.numberText(lower.value))
    ensures upper.Some? ==>
      var parts := ScoreParts(lower, upper, env);
      parts[|parts| - 1] == Arg(UpperBoundFormat, env.numberText(upper.value))
    ensures RenderClause(ScoreRange(lower, upper), env)
      == Arg(GroupFormat, Join(ScoreParts(lower, upper, env), " AND "))
  {
    if lower.Some? {
      PlainAroundFirstMarker(LowerBoundFormat, "GenelEnKucukPuan > ", [], env.numberText(lower.value));
    }
    if upper.Some? {
      PlainAroundFirstMarker(UpperBoundFormat, "GenelEnBuyukPuan < ", [], env.numberText(upper.value));
    }
    PlainAroundFirstMarker(GroupFormat, "(", ")", Join(ScoreParts(lower, upper, env), " AND "));
  }
}

=== FILE: ColumnDefinitions.dfy ===
/**
 * The program table's column layout and its static column catalog: the
 * `ProgramTableColumn` enumeration with its integer values, the `ColumnTypes`
 * quota categories, and the three catalog maps from a column to its physical
 * field name and its display label.
 */
module ColumnDefinitions {
  import opened Wrappers
  import opened Sequences

  /** The 25 program-table columns, in declaration order. */
  datatype ProgramTableColumn =
    | ProgramKodu
    | UniversiteAdi
    | FakulteYuksekOkulAdi
    | ProgramAdi
    | PuanTuru
    | GenelKontenjan
    | GenelYerlesen
    | GenelBasariSirasi
    | GenelEnKucukPuan
    | OkulBirincisiKontenjan
    | OkulBirincisiYerlesen
    | OkulBirincisiBasariSirasi
    | OkulBirincisiEnKucukPuan
    | SehitGaziYakiniKontenjan
    | SehitGaziYakiniYerlesen
    | SehitGaziYakiniBasariSirasi
    | SehitGaziYakiniEnKucukPuan
    | DepremzedeKontenjan
    | DepremzedeYerlesen
    | DepremzedeBasariSirasi
    | DepremzedeEnKucukPuan
    | Kadin34PlusKontenjan
    | Kadin34PlusYerlesen
    | Kadin34PlusBasariSirasi
    | Kadin34PlusEnKucukPuan

  /** The column groups: the base columns and one group per quota category. */
  datatype ColumnTypes =
    | Base
    | Regular
    | MartyrsAndVeterans
    | EarthquakeVictims
    | HighSchoolValedictorians
    | Women34Plus

  /** What a quota column reports about its category, in the order the columns of a group are laid out. */
  datatype Metric = Kontenjan | Yerlesen | BasariSirasi | EnKucukPuan

  /** One catalog entry: physical field name and human-readable label. */
  datatype ProgramTableColumnInfo = ProgramTableColumnInfo(dbName: string, displayName: string)

  /** A default-constructed entry, as a missing key would yield. */
  const EmptyInfo := ProgramTableColumnInfo("", "")

  /** The enumerators in declaration order. */
  const Declared: seq<ProgramTableColumn> := [
    ProgramKodu, UniversiteAdi, FakulteYuksekOkulAdi, ProgramAdi, PuanTuru,
    GenelKontenjan, GenelYerlesen, GenelBasariSirasi, GenelEnKucukPuan,
    OkulBirincisiKontenjan, OkulBirincisiYerlesen, OkulBirincisiBasariSirasi, OkulBirincisiEnKucukPuan,
    SehitGaziYakiniKontenjan, SehitGaziYakiniYerlesen, SehitGaziYakiniBasariSirasi, SehitGaziYakiniEnKucukPuan,
    DepremzedeKontenjan, DepremzedeYerlesen, DepremzedeBasariSirasi, DepremzedeEnKucukPuan,
    Kadin34PlusKontenjan, Kadin34PlusYerlesen, Kadin34PlusBasariSirasi, Kadin34PlusEnKucukPuan
  ]

  const ColumnCount: nat := 25

  /** The integer value of an enumerator (`int(column)`). */
  function Value(c: ProgramTableColumn): int {
    match c
    case ProgramKodu => 0
    case UniversiteAdi => 1
    case FakulteYuksekOkulAdi => 2
    case ProgramAdi => 3
    case PuanTuru => 4
    case GenelKontenjan => 5
    case GenelYerlesen => 6
    case GenelBasariSirasi => 7
    case GenelEnKucukPuan => 8
    case OkulBirincisiKontenjan => 9
    case OkulBirincisiYerlesen => 10
    case OkulBirincisiBasariSirasi => 11
    case OkulBirincisiEnKucukPuan => 12
    case SehitGaziYakiniKontenjan => 13
    case SehitGaziYakiniYerlesen => 14
    case SehitGaziYakiniBasariSirasi => 15
    case SehitGaziYakiniEnKucukPuan => 16
    case DepremzedeKontenjan => 17
    case DepremzedeYerlesen => 18
    case DepremzedeBasariSirasi => 19
    case DepremzedeEnKucukPuan => 20
    case Kadin34PlusKontenjan => 21
    case Kadin34PlusYerlesen => 22
    case Kadin34PlusBasariSirasi => 23
    case Kadin34PlusEnKucukPuan => 24
  }

  /** The group a column belongs to. */
  function Category(c: ProgramTableColumn): ColumnTypes {
    match c
    case ProgramKodu | UniversiteAdi | FakulteYuksekOkulAdi | ProgramAdi | PuanTuru => Base
    case GenelKontenjan | GenelYerlesen | GenelBasariSirasi | GenelEnKucukPuan => Regular
    case OkulBirincisiKontenjan | OkulBirincisiYerlesen | OkulBirincisiBasariSirasi | OkulBirincisiEnKucukPuan =>
      HighSchoolValedictorians
    case SehitGaziYakiniKontenjan | SehitGaziYakiniYerlesen | SehitGaziYakiniBasariSirasi | SehitGaziYakiniEnKucukPuan =>
      MartyrsAndVeterans
    case DepremzedeKontenjan | DepremzedeYerlesen | DepremzedeBasariSirasi | DepremzedeEnKucukPuan =>
      EarthquakeVictims
    case Kadin34PlusKontenjan | Kadin34PlusYerlesen | Kadin34PlusBasariSirasi | Kadin34PlusEnKucukPuan =>
      Women34Plus
  }

  /** The quota column of category `t` that reports `m`. */
  function QuotaColumn(t: ColumnTypes, m: Metric): ProgramTableColumn
    requires t != Base
  {
    match (t, m)
    case (Regular, Kontenjan) => GenelKontenjan
    case (Regular, Yerlesen) => GenelYerlesen
    case (Regular, BasariSirasi) => GenelBasariSirasi
    case (Regular, EnKucukPuan) => GenelEnKucukPuan
    case (HighSchoolValedictorians, Kontenjan) => OkulBirincisiKontenjan
    case (HighSchoolValedictorians, Yerlesen) => OkulBirincisiYerlesen
    case (HighSchoolValedictorians, BasariSirasi) => OkulBirincisiBasariSirasi
    case (HighSchoolValedictorians, EnKucukPuan) => OkulBirincisiEnKucukPuan
    case (MartyrsAndVeterans, Kontenjan) => SehitGaziYakiniKontenjan
    case (MartyrsAndVeterans, Yerlesen) => SehitGaziYakiniYerlesen
    case (MartyrsAndVeterans, BasariSirasi) => SehitGaziYakiniBasariSirasi
    case (MartyrsAndVeterans, EnKucukPuan) => SehitGaziYakiniEnKucukPuan
    case (EarthquakeVictims, Kontenjan) => DepremzedeKontenjan
    case (EarthquakeVictims, Yerlesen) => DepremzedeYerlesen
    case (EarthquakeVictims, BasariSirasi) => DepremzedeBasariSirasi
    case (EarthquakeVictims, EnKucukPuan) => DepremzedeEnKucukPuan
    case (Women34Plus, Kontenjan) => Kadin34PlusKontenjan
    case (Women34Plus, Yerlesen) => Kadin34PlusYerlesen
    case (Women34Plus, BasariSirasi) => Kadin34PlusBasariSirasi
    case (Women34Plus, EnKucukPuan) => Kadin34PlusEnKucukPuan
  }

  /** The metric a quota column reports; base columns report none. Inverse of `QuotaColumn`. */
  function MetricOf(c: ProgramTableColumn): (m: Option<Metric>)
    ensures m.Some? <==> Category(c) != Base
    ensures m.Some? ==> QuotaColumn(Category(c), m.value) == c
  {
    match c
    case ProgramKodu | UniversiteAdi | FakulteYuksekOkulAdi | ProgramAdi | PuanTuru => None
    case GenelKontenjan | OkulBirincisiKontenjan | SehitGaziYakiniKontenjan | DepremzedeKontenjan | Kadin34PlusKontenjan =>
      Some(Kontenjan)
    case GenelYerlesen | OkulBirincisiYerlesen | SehitGaziYakiniYerlesen | DepremzedeYerlesen | Kadin34PlusYerlesen =>
      Some(Yerlesen)
    case GenelBasariSirasi | OkulBirincisiBasariSirasi | SehitGaziYakiniBasariSirasi | DepremzedeBasariSirasi
      | Kadin34PlusBasariSirasi => Some(BasariSirasi)
    case GenelEnKucukPuan | OkulBirincisiEnKucukPuan | SehitGaziYakiniEnKucukPuan | DepremzedeEnKucukPuan
      | Kadin34PlusEnKucukPuan => Some(EnKucukPuan)
  }

  /** The position of a metric inside its four-column group. */
  function MetricOffset(m: Metric): int {
    match m
    case Kontenjan => 0
    case Yerlesen => 1
    case BasariSirasi => 2
    case EnKucukPuan => 3
  }

  /** Where a quota category's group starts in the enumeration. */
  function GroupStart(t: ColumnTypes): int
    requires t != Base
  {
    match t
    case Regular => 5
    case HighSchoolValedictorians => 9
    case MartyrsAndVeterans => 13
    case EarthquakeVictims => 17
    case Women34Plus => 21
  }

  /** The five success-rank columns, one per quota category. */
  predicate IsRankColumn(c: ProgramTableColumn) {
    c in {GenelBasariSirasi, OkulBirincisiBasariSirasi, SehitGaziYakiniBasariSirasi,
          DepremzedeBasariSirasi, Kadin34PlusBasariSirasi}
  }

  /**
   * The enumerators take the consecutive values 0..24 in declaration order,
   * starting with `ProgramKodu = 0`, so `Value` is a bijection onto [0, 25).
   */
  lemma EnumeratorsAreConsecutive()
    ensures |Declared| == ColumnCount
    ensures Value(ProgramKodu) == 0
    ensures forall i :: 0 <= i < |Declared| ==> Value(Declared[i]) == i
    ensures forall c :: 0 <= Value(c) < ColumnCount && Declared[Value(c)] == c
  {
    forall c ensures 0 <= Value(c) < ColumnCount && Declared[Value(c)] == c {
      match c
      case ProgramKodu =>
      case UniversiteAdi =>
      case FakulteYuksekOkulAdi =>
      case ProgramAdi =>
      case PuanTuru =>
      case GenelKontenjan =>
      case GenelYerlesen =>
      case GenelBasariSirasi =>
      case GenelEnKucukPuan =>
      case OkulBirincisiKontenjan =>
      case OkulBirincisiYerlesen =>
      case OkulBirincisiBasariSirasi =>
      case OkulBirincisiEnKucukPuan =>
      case SehitGaziYakiniKontenjan =>
      case SehitGaziYakiniYerlesen =>
      case SehitGaziYakiniBasariSirasi =>
      case SehitGaziYakiniEnKucukPuan =>
      case DepremzedeKontenjan =>
      case DepremzedeYerlesen =>
      case DepremzedeBasariSirasi =>
      case DepremzedeEnKucukPuan =>
      case Kadin34PlusKontenjan =>
      case Kadin34PlusYerlesen =>
      case Kadin34PlusBasariSirasi =>
      case Kadin34PlusEnKucukPuan =>
    }
  }

  /**
   * The five base columns occupy 0..4; every other column sits in its
   * category's four-column group at the offset of its metric
   * (Kontenjan, Yerlesen, BasariSirasi, EnKucukPuan).
   */
  lemma ColumnLayout(c: ProgramTableColumn)
    ensures Category(c) == Base <==> 0 <= Value(c) <= 4
    ensures Category(c) != Base ==>
      exists m :: QuotaColumn(Category(c), m) == c && Value(c) == GroupStart(Category(c)) + MetricOffset(m)
    ensures IsRankColumn(c) <==> Category(c) != Base && QuotaColumn(Category(c), BasariSirasi) == c
  {
    match c
    case ProgramKodu =>
    case UniversiteAdi =>
    case FakulteYuksekOkulAdi =>
    case ProgramAdi =>
    case PuanTuru =>
    case GenelKontenjan => assert QuotaColumn(Regular, Kontenjan) == c;
    case GenelYerlesen => assert QuotaColumn(Regular, Yerlesen) == c;
    case GenelBasariSirasi => assert QuotaColumn(Regular, BasariSirasi) == c;
    case GenelEnKucukPuan => assert QuotaColumn(Regular, EnKucukPuan) == c;
    case OkulBirincisiKontenjan => assert QuotaColumn(HighSchoolValedictorians, Kontenjan) == c;
    case OkulBirincisiYerlesen => assert QuotaColumn(HighSchoolValedictorians, Yerlesen) == c;
    case OkulBirincisiBasariSirasi => assert QuotaColumn(HighSchoolValedictorians, BasariSirasi) == c;
    case OkulBirincisiEnKucukPuan => assert QuotaColumn(HighSchoolValedictorians, EnKucukPuan) == c;
    case SehitGaziYakiniKontenjan => assert QuotaColumn(MartyrsAndVeterans, Kontenjan) == c;
    case SehitGaziYakiniYerlesen => assert QuotaColumn(MartyrsAndVeterans, Yerlesen) == c;
    case SehitGaziYakiniBasariSirasi => assert QuotaColumn(MartyrsAndVeterans, BasariSirasi) == c;
    case SehitGaziYakiniEnKucukPuan => assert QuotaColumn(MartyrsAndVeterans, EnKucukPuan) == c;
    case DepremzedeKontenjan => assert QuotaColumn(EarthquakeVictims, Kontenjan) == c;
    case DepremzedeYerlesen => assert QuotaColumn(EarthquakeVictims, Yerlesen) == c;
    case DepremzedeBasariSirasi => assert QuotaColumn(EarthquakeVictims, BasariSirasi) == c;
    case DepremzedeEnKucukPuan => assert QuotaColumn(EarthquakeVictims, EnKucukPuan) == c;
    case Kadin34PlusKontenjan => assert QuotaColumn(Women34Plus, Kontenjan) == c;
    case Kadin34PlusYerlesen => assert QuotaColumn(Women34Plus, Yerlesen) == c;
    case Kadin34PlusBasariSirasi => assert QuotaColumn(Women34Plus, BasariSirasi) == c;
    case Kadin34PlusEnKucukPuan => assert QuotaColumn(Women34Plus, EnKucukPuan) == c;
  }

  /**
   * `ColumnTypes` is `Base` plus exactly five quota categories, and each
   * category owns one group of four consecutive columns, in metric order.
   */
  lemma QuotaGroupsAreFourConsecutive(t: ColumnTypes, m: Metric)
    requires t != Base
    ensures Category(QuotaColumn(t, m)) == t
    ensures MetricOf(QuotaColumn(t, m)) == Some(m)
    ensures Value(QuotaColumn(t, m)) == GroupStart(t) + MetricOffset(m)
    ensures GroupStart(t) in {5, 9, 13, 17, 21}
  {
  }

  /** The entries of `columnMap`'s initializer, base columns first, then the optional ones. */
  function ColumnEntry(c: ProgramTableColumn): ProgramTableColumnInfo {
    match c
    case ProgramKodu => ProgramTableColumnInfo("ProgramKodu", "Program Kodu")
    case UniversiteAdi => ProgramTableColumnInfo("UniversiteAdi", "Üniversite")
    case FakulteYuksekOkulAdi => ProgramTableColumnInfo("Kampus", "Fakülte/YO")
    case ProgramAdi => ProgramTableColumnInfo("ProgramAdi", "Program")
    case PuanTuru => ProgramTableColumnInfo("PuanTuru", "Puan Türü")
    case GenelKontenjan => ProgramTableColumnInfo("GenelKontenjan", "Genel Kontenjan")
    case GenelYerlesen => ProgramTableColumnInfo("GenelYerlesen", "Genel Yerleşen")
    case GenelBasariSirasi => ProgramTableColumnInfo("GenelBasariSirasi", "Başarı Sırası")
    case GenelEnKucukPuan => ProgramTableColumnInfo("GenelEnKucukPuan", "En Küçük Puan")
    case OkulBirincisiKontenjan => ProgramTableColumnInfo("OkulBirincisiKontenjan", "Okul Birincisi Kontenjan")
    case OkulBirincisiYerlesen => ProgramTableColumnInfo("OkulBirincisiYerlesen", "Okul Birincisi Yerleşen")
    case OkulBirincisiBasariSirasi => ProgramTableColumnInfo("OkulBirincisiBasariSirasi", "Okul Birincisi Kontenjan")
    case OkulBirincisiEnKucukPuan => ProgramTableColumnInfo("OkulBirincisiEnKucukPuan", "Okul Birincisi En Küçük Puan")
    case SehitGaziYakiniKontenjan => ProgramTableColumnInfo("SehitGaziYakiniKontenjan", "Şehit/Gazi Yakını ")
    case SehitGaziYakiniYerlesen => ProgramTableColumnInfo("SehitGaziYakiniYerlesen", "Şehit/Gazi Yakını Yerleşen")
    case SehitGaziYakiniBasariSirasi => ProgramTableColumnInfo("SehitGaziYakiniBasariSirasi", "Şehit/Gazi Yakını Başarı Sırası")
    case SehitGaziYakiniEnKucukPuan => ProgramTableColumnInfo("SehitGaziYakiniEnKucukPuan", "Şehit/Gazi Yakını En Küçük Puan")
    case DepremzedeKontenjan => ProgramTableColumnInfo("DepremzedeKontenjan", "Depremzede Kontenjan")
    case DepremzedeYerlesen => ProgramTableColumnInfo("DepremzedeYerlesen", "Depremzede Yerleşen")
    case DepremzedeBasariSirasi => ProgramTableColumnInfo("DepremzedeBasariSirasi", "Depremzede ")
    case DepremzedeEnKucukPuan => ProgramTableColumnInfo("DepremzedeEnKucukPuan", "Depremzede En Küçük Puan")
    case Kadin34PlusKontenjan => ProgramTableColumnInfo("Kadin34Kontenjan", "34+ Kadın Kontenjan")
    case Kadin34PlusYerlesen => ProgramTableColumnInfo("Kadin34Yerlesen", "34+ Kadın Yerleşen")
    case Kadin34PlusBasariSirasi => ProgramTableColumnInfo("Kadin34BasariSirasi", "34+ Kadın Başarı Sırası")
    case Kadin34PlusEnKucukPuan => ProgramTableColumnInfo("Kadin34EnKucukPuan", "34+ Kadın En Küçük Puan")
  }

  /** The entries of `baseColumnMap`'s initializer, a separate literal copy. */
  function BaseColumnEntry(c: ProgramTableColumn): Option<ProgramTableColumnInfo> {
    match c
    case ProgramKodu => Some(ProgramTableColumnInfo("ProgramKodu", "Program Kodu"))
    case UniversiteAdi => Some(ProgramTableColumnInfo("UniversiteAdi", "Üniversite"))
    case FakulteYuksekOkulAdi => Some(ProgramTableColumnInfo("Kampus", "Fakülte/YO"))
    case ProgramAdi => Some(ProgramTableColumnInfo("ProgramAdi", "Program"))
    case PuanTuru => Some(ProgramTableColumnInfo("PuanTuru", "Puan Türü"))
    case _ => None
  }

  /** The entries of `optionalColumnMap`'s initializer, a separate literal copy. */
  function OptionalColumnEntry(c: ProgramTableColumn): Option<ProgramTableColumnInfo> {
    match c
    case GenelKontenjan => Some(ProgramTableColumnInfo("GenelKontenjan", "Genel Kontenjan"))
    case GenelYerlesen => Some(ProgramTableColumnInfo("GenelYerlesen", "Genel Yerleşen"))
    case GenelBasariSirasi => Some(ProgramTableColumnInfo("GenelBasariSirasi", "Başarı Sırası"))
    case GenelEnKucukPuan => Some(ProgramTableColumnInfo("GenelEnKucukPuan", "En Küçük Puan"))
    case OkulBirincisiKontenjan => Some(ProgramTableColumnInfo("OkulBirincisiKontenjan", "Okul Birincisi Kontenjan"))
    case OkulBirincisiYerlesen => Some(ProgramTableColumnInfo("OkulBirincisiYerlesen", "Okul Birincisi Yerleşen"))
    case OkulBirincisiBasariSirasi => Some(ProgramTableColumnInfo("OkulBirincisiBasariSirasi", "Okul Birincisi Kontenjan"))
    case OkulBirincisiEnKucukPuan => Some(ProgramTableColumnInfo("OkulBirincisiEnKucukPuan", "Okul Birincisi En Küçük Puan"))
    case SehitGaziYakiniKontenjan => Some(ProgramTableColumnInfo("SehitGaziYakiniKontenjan", "Şehit/Gazi Yakını "))
    case SehitGaziYakiniYerlesen => Some(ProgramTableColumnInfo("SehitGaziYakiniYerlesen", "Şehit/Gazi Yakını Yerleşen"))
    case SehitGaziYakiniBasariSirasi => Some(ProgramTableColumnInfo("SehitGaziYakiniBasariSirasi", "Şehit/Gazi Yakını Başarı Sırası"))
    case SehitGaziYakiniEnKucukPuan => Some(ProgramTableColumnInfo("SehitGaziYakiniEnKucukPuan", "Şehit/Gazi Yakını En Küçük Puan"))
    case DepremzedeKontenjan => Some(ProgramTableColumnInfo("DepremzedeKontenjan", "Depremzede Kontenjan"))
    case DepremzedeYerlesen => Some(ProgramTableColumnInfo("DepremzedeYerlesen", "Depremzede Yerleşen"))
    case DepremzedeBasariSirasi => Some(ProgramTableColumnInfo("DepremzedeBasariSirasi", "Depremzede "))
    case DepremzedeEnKucukPuan => Some(ProgramTableColumnInfo("DepremzedeEnKucukPuan", "Depremzede En Küçük Puan"))
    case Kadin34PlusKontenjan => Some(ProgramTableColumnInfo("Kadin34Kontenjan", "34+ Kadın Kontenjan"))
    case Kadin34PlusYerlesen => Some(ProgramTableColumnInfo("Kadin34Yerlesen", "34+ Kadın Yerleşen"))
    case Kadin34PlusBasariSirasi => Some(ProgramTableColumnInfo("Kadin34BasariSirasi", "34+ Kadın Başarı Sırası"))
    case Kadin34PlusEnKucukPuan => Some(ProgramTableColumnInfo("Kadin34EnKucukPuan", "34+ Kadın En Küçük Puan"))
    case _ => None
  }

  /** `columnMap`. */
  function ColumnMap(): map<ProgramTableColumn, ProgramTableColumnInfo> {
    map c | c in Declared :: ColumnEntry(c)
  }

  /** `baseColumnMap`. */
  function BaseColumnMap(): map<ProgramTableColumn, ProgramTableColumnInfo> {
    map c | c in Declared && BaseColumnEntry(c).Some? :: BaseColumnEntry(c).value
  }

  /** `optionalColumnMap`. */
  function OptionalColumnMap(): map<ProgramTableColumn, ProgramTableColumnInfo> {
    map c | c in Declared && OptionalColumnEntry(c).Some? :: OptionalColumnEntry(c).value
  }

  /** Every column is declared. */
  lemma AllDeclared()
    ensures forall c :: c in Declared
  {
    EnumeratorsAreConsecutive();
    forall c ensures c in Declared {
      assert Declared[Value(c)] == c;
    }
  }

  /** `columnMap` has exactly one entry for each of the 25 enumerators. */
  lemma ColumnMapIsTotal()
    ensures forall c :: c in ColumnMap() && ColumnMap()[c] == ColumnEntry(c)
    ensures |ColumnMap()| == ColumnCount
  {
    AllDeclared();
    EnumeratorsAreConsecutive();
    assert ColumnMap().Keys == set x | x in Declared;
    DistinctElementsCard(Declared);
  }

  /** The partial copies hold, column by column, what `columnMap` holds, split by group. */
  lemma PartialEntriesAgree(c: ProgramTableColumn)
    ensures BaseColumnEntry(c).Some? <==> Category(c) == Base
    ensures OptionalColumnEntry(c).Some? <==> Category(c) != Base
    ensures BaseColumnEntry(c).Some? ==> BaseColumnEntry(c).value == ColumnEntry(c)
    ensures OptionalColumnEntry(c).Some? ==> OptionalColumnEntry(c).value == ColumnEntry(c)
  {
    match c
      case ProgramKodu =>
      case UniversiteAdi =>
      case FakulteYuksekOkulAdi =>
      case ProgramAdi =>
      case PuanTuru =>
      case GenelKontenjan =>
      case GenelYerlesen =>
      case GenelBasariSirasi =>
      case GenelEnKucukPuan =>
      case OkulBirincisiKontenjan =>
      case OkulBirincisiYerlesen =>
      case OkulBirincisiBasariSirasi =>
      case OkulBirincisiEnKucukPuan =>
      case SehitGaziYakiniKontenjan =>
      case SehitGaziYakiniYerlesen =>
      case SehitGaziYakiniBasariSirasi =>
      case SehitGaziYakiniEnKucukPuan =>
      case DepremzedeKontenjan =>
      case DepremzedeYerlesen =>
      case DepremzedeBasariSirasi =>
      case DepremzedeEnKucukPuan =>
      case Kadin34PlusKontenjan =>
      case Kadin34PlusYerlesen =>
      case Kadin34PlusBasariSirasi =>
      case Kadin34PlusEnKucukPuan =>
  }

  /**
   * The two partial maps split the catalog: `baseColumnMap` holds exactly
   * the base columns, `optionalColumnMap` exactly the quota columns, they are
   * disjoint, each agrees with `columnMap` entry for entry, and together they
   * are `columnMap`.
   */
  lemma CatalogPartition()
    ensures forall c :: c in BaseColumnMap() <==> Category(c) == Base
    ensures forall c :: c in OptionalColumnMap() <==> Category(c) != Base
    ensures BaseColumnMap().Keys !! OptionalColumnMap().Keys
    ensures forall c :: c in BaseColumnMap() ==> c in ColumnMap() && BaseColumnMap()[c] == ColumnMap()[c]
    ensures forall c :: c in OptionalColumnMap() ==> c in ColumnMap() && OptionalColumnMap()[c] == ColumnMap()[c]
    ensures BaseColumnMap() + OptionalColumnMap() == ColumnMap()
  {
    AllDeclared();
    ColumnMapIsTotal();
    forall c {
      PartialEntriesAgree(c);
    }
  }

  /** `QMap::operator[]` on a const map: the entry, or a default-constructed one for a missing key. */
  function ValueOrEmpty(m: map<ProgramTableColumn, ProgramTableColumnInfo>, c: ProgramTableColumn): ProgramTableColumnInfo {
    if c in m then m[c] else EmptyInfo
  }

  /**
   * `operator[]`: the catalog entry of a column, as written in the
   * initializer; the default entry is never returned.
   */
  function Lookup(c: ProgramTableColumn): (info: ProgramTableColumnInfo)
    ensures c in ColumnMap() && info == ColumnMap()[c]
    ensures info == ColumnEntry(c)
  {
    ColumnMapIsTotal();
    ValueOrEmpty(ColumnMap(), c)
  }

  /** `getColumnMap`: the whole catalog, one entry per column, each the one `operator[]` returns. */
  function GetColumnMap(): (m: map<ProgramTableColumn, ProgramTableColumnInfo>)
    ensures |m| == ColumnCount
    ensures forall c :: c in m && m[c] == Lookup(c)
  {
    ColumnMapIsTotal();
    ColumnMap()
  }

  /** A list holding each declared column's entry at its position holds every column's entry at its value. */
  lemma InDeclarationOrder(infos: seq<ProgramTableColumnInfo>)
    requires |infos| == |Declared|
    requires forall k :: 0 <= k < |infos| ==> infos[k] == ColumnEntry(Declared[k])
    ensures |infos| == ColumnCount
    ensures forall c :: 0 <= Value(c) < |infos| && infos[Value(c)] == Lookup(c)
  {
    EnumeratorsAreConsecutive();
  }

  /**
   * `getColumns`: the catalog's values in ascending key order, which for
   * this map is ascending enumerator value.
   */
  method GetColumns() returns (infos: seq<ProgramTableColumnInfo>)
    ensures |infos| == ColumnCount
    ensures forall c :: 0 <= Value(c) < |infos| && infos[Value(c)] == Lookup(c)
  {
    var order := Declared;
    infos := [];
    var i := 0;
    while i < |order|
      invariant 0 <= i <= |order|
      invariant |infos| == i
      invariant forall k :: 0 <= k < i ==> infos[k] == ColumnEntry(order[k])
    {
      infos := infos + [ColumnEntry(order[i])];
      i := i + 1;
    }
    InDeclarationOrder(infos);
  }

  /** The physical names of the catalog entries, in enumerator order. */
  const CatalogDbNames: seq<string> := [
      "ProgramKodu",
      "UniversiteAdi",
      "Kampus",
      "ProgramAdi",
      "PuanTuru",
      "GenelKontenjan",
      "GenelYerlesen",
      "GenelBasariSirasi",
      "GenelEnKucukPuan",
      "OkulBirincisiKontenjan",
      "OkulBirincisiYerlesen",
      "OkulBirincisiBasariSirasi",
      "OkulBirincisiEnKucukPuan",
      "SehitGaziYakiniKontenjan",
      "SehitGaziYakiniYerlesen",
      "SehitGaziYakiniBasariSirasi",
      "SehitGaziYakiniEnKucukPuan",
      "DepremzedeKontenjan",
      "DepremzedeYerlesen",
      "DepremzedeBasariSirasi",
      "DepremzedeEnKucukPuan",
      "Kadin34Kontenjan",
      "Kadin34Yerlesen",
      "Kadin34BasariSirasi",
      "Kadin34EnKucukPuan"
    ]

  lemma CatalogDbNamesDistinct()
    ensures forall j, k :: 0 <= j < k < |CatalogDbNames| ==> CatalogDbNames[j] != CatalogDbNames[k]
  {
  }

  lemma CatalogDbNamesListed()
    ensures |CatalogDbNames| == ColumnCount
    ensures forall c :: 0 <= Value(c) < ColumnCount && ColumnEntry(c).dbName == CatalogDbNames[Value(c)]
  {
  }

  /** The physical names in the catalog are pairwise distinct. */
  lemma CatalogDbNamesAreInjective()
    ensures forall a, b :: Lookup(a).dbName == Lookup(b).dbName ==> a == b
  {
    CatalogDbNamesDistinct();
    CatalogDbNamesListed();
    EnumeratorsAreConsecutive();
    forall a, b | Lookup(a).dbName == Lookup(b).dbName ensures a == b {
      assert CatalogDbNames[Value(a)] == CatalogDbNames[Value(b)];
      assert Declared[Value(a)] == Declared[Value(b)];
    }
  }

  /** The labels are not: two different columns share "Okul Birincisi Kontenjan". */
  lemma CatalogDisplayNamesCollide()
    ensures Lookup(OkulBirincisiKontenjan).displayName == Lookup(OkulBirincisiBasariSirasi).displayName
    ensures exists a, b :: a != b && Lookup(a).displayName == Lookup(b).displayName
  {
    assert OkulBirincisiKontenjan != OkulBirincisiBasariSirasi;
  }
}

=== FILE: ColumnVisibility.dfy ===
/**
 * Which program-table columns the back end shows or hides. The table model
 * does not keep visibility itself: every show or hide request is emitted as
 * a `(column, visible)` notification for the view. A request is therefore
 * modelled as the list of notifications it emits, and the view's state as
 * a fold over that list in which the last notification for a column wins.
 */
module ColumnVisibility {
  import opened Wrappers
  import opened ColumnDefinitions
  import opened DataTypes

  /** One `columnVisibilityChanged(column, visible)` notification. */
  datatype VisibilityEvent = VisibilityEvent(column: ProgramTableColumn, visible: bool)

  /** The visibility the last notification for `c` asks for, if any notification mentions `c`. */
  function LastEvent(es: seq<VisibilityEvent>, c: ProgramTableColumn): Option<bool> {
    if |es| == 0 then None
    else if es[|es| - 1].column == c then Some(es[|es| - 1].visible)
    else LastEvent(es[..|es| - 1], c)
  }

  /** The view's column-visibility state after it has handled `es` in order. */
  function ApplyEvents(v: map<ProgramTableColumn, bool>, es: seq<VisibilityEvent>): map<ProgramTableColumn, bool>
    decreases |es|
  {
    if |es| == 0 then v
    else ApplyEvents(v[es[0].column := es[0].visible], es[1..])
  }

  /**
   * Whether the request selects a category: the general columns serve the
   * regular, TRNC and MTOK quotas alike.
   */
  function CategorySelected(q: SelectedQuotaTypes, t: ColumnTypes): bool {
    match t
    case Base => false
    case Regular => q.regularQuota || q.trncNationalsQuota || q.mtokQuota
    case HighSchoolValedictorians => q.highSchoolValedictoriansQuota
    case MartyrsAndVeterans => q.martyrsAndVeteransQuota
    case EarthquakeVictims => q.earthquakeVictimsQuota
    case Women34Plus => q.women34PlusQuota
  }

  /** Show or hide the quota, placed and minimum-score columns of one category. */
  function CategoryBlock(t: ColumnTypes, visible: bool): seq<VisibilityEvent>
    requires t != Base
  {
    [ VisibilityEvent(QuotaColumn(t, Kontenjan), visible),
      VisibilityEvent(QuotaColumn(t, Yerlesen), visible),
      VisibilityEvent(QuotaColumn(t, EnKucukPuan), visible) ]
  }

  /** The five per-category blocks, in the program's order. */
  function CategoryBlocks(q: SelectedQuotaTypes): seq<VisibilityEvent> {
    CategoryBlock(ColumnTypes.Regular, CategorySelected(q, ColumnTypes.Regular))
    + CategoryBlock(HighSchoolValedictorians, CategorySelected(q, HighSchoolValedictorians))
    + CategoryBlock(MartyrsAndVeterans, CategorySelected(q, MartyrsAndVeterans))
    + CategoryBlock(EarthquakeVictims, CategorySelected(q, EarthquakeVictims))
    + CategoryBlock(Women34Plus, CategorySelected(q, Women34Plus))
  }

  function ShowIf(b: bool, c: ProgramTableColumn): seq<VisibilityEvent> {
    if b then [VisibilityEvent(c, true)] else []
  }

  /**
   * The closing block on the placed ("Yerlesen") columns as written: the
   * additional placement has no placement counts, so they are all hidden;
   * the regular placement re-shows each selected one, except that the
   * martyrs-and-veterans column is keyed on the valedictorians toggle.
   */
  function PlacedBlock(p: AcademyScopeParameters): seq<VisibilityEvent> {
    var q := p.selectedQuotaTypes;
    if p.placementType == PlacementType.Regular then
      ShowPlaced(q, q.highSchoolValedictoriansQuota)
    else
      [ VisibilityEvent(GenelYerlesen, false), VisibilityEvent(OkulBirincisiYerlesen, false),
        VisibilityEvent(SehitGaziYakiniYerlesen, false), VisibilityEvent(DepremzedeYerlesen, false),
        VisibilityEvent(Kadin34PlusYerlesen, false) ]
  }

  /**
   * The regular-placement re-shows, one optional show per placed column in
   * the program's order; `martyrsToggle` is the toggle the
   * martyrs-and-veterans one is keyed on.
   */
  function ShowPlaced(q: SelectedQuotaTypes, martyrsToggle: bool): seq<VisibilityEvent> {
    ShowIf(q.regularQuota, GenelYerlesen)
    + ShowIf(q.highSchoolValedictoriansQuota, OkulBirincisiYerlesen)
    + ShowIf(martyrsToggle, SehitGaziYakiniYerlesen)
    + ShowIf(q.earthquakeVictimsQuota, DepremzedeYerlesen)
    + ShowIf(q.women34PlusQuota, Kadin34PlusYerlesen)
  }

  /**
   * `hideUnnecessaryColumnsOnTheProgramTable` as written: it leaves every
   * column as the reference table `ExpectedVisibility` says.
   */
  function HideUnnecessaryColumns(p: AcademyScopeParameters): (es: seq<VisibilityEvent>)
    ensures forall c :: LastEvent(es, c) == ExpectedVisibility(p, c)
  {
    AllFinalVisibility(p);
    CategoryBlocks(p.selectedQuotaTypes) + PlacedBlock(p)
  }

  /** The placed-column block with the martyrs-and-veterans column keyed on its own toggle. */
  function PlacedBlockIntended(p: AcademyScopeParameters): seq<VisibilityEvent> {
    var q := p.selectedQuotaTypes;
    if p.placementType == PlacementType.Regular then ShowPlaced(q, q.martyrsAndVeteransQuota) else PlacedBlock(p)
  }

  /** `hideUnnecessaryColumnsOnTheProgramTable` as evidently intended. */
  function HideUnnecessaryColumnsIntended(p: AcademyScopeParameters): seq<VisibilityEvent> {
    CategoryBlocks(p.selectedQuotaTypes) + PlacedBlockIntended(p)
  }

  /** The success-rank columns, in the order `hideUnusedColumnsOnTheProgramTable` hides them. */
  const RankColumns := [GenelBasariSirasi, OkulBirincisiBasariSirasi, SehitGaziYakiniBasariSirasi,
                        DepremzedeBasariSirasi, Kadin34PlusBasariSirasi]

  /** One hide notification per column of `cs`, in order. */
  function HideAll(cs: seq<ProgramTableColumn>): seq<VisibilityEvent> {
    if |cs| == 0 then [] else HideAll(cs[..|cs| - 1]) + [VisibilityEvent(cs[|cs| - 1], false)]
  }

  /**
   * `hideUnusedColumnsOnTheProgramTable`: exactly the five success-rank
   * columns end hidden, and no other column is touched.
   */
  function HideUnusedColumns(): (es: seq<VisibilityEvent>)
    ensures forall c :: LastEvent(es, c) == if IsRankColumn(c) then Some(false) else None
  {
    RankColumnsHidden();
    HideAll(RankColumns)
  }

  // ---------------------------------------------------------------------
  // Reference tables
  // ---------------------------------------------------------------------

  /**
   * The final visibility the request leaves each column in, column by
   * column (None: the request does not touch it). Base and rank columns are
   * untouched; a category's quota and minimum-score columns follow its
   * toggle; its placed column is hidden under the additional placement and
   * otherwise follows its toggle, except that the martyrs-and-veterans one
   * is also shown when valedictorians are selected.
   */
  function ExpectedVisibility(p: AcademyScopeParameters, c: ProgramTableColumn): Option<bool> {
    var q := p.selectedQuotaTypes;
    var t := Category(c);
    match MetricOf(c)
    case None => None
    case Some(m) =>
      if m == BasariSirasi then None
      else if m != Yerlesen then Some(CategorySelected(q, t))
      else if p.placementType == Additional then Some(false)
      else Some(CategorySelected(q, t) || (t == MartyrsAndVeterans && q.highSchoolValedictoriansQuota))
  }

  /** As `ExpectedVisibility`, but every placed column follows its own category. */
  function IntendedVisibility(p: AcademyScopeParameters, c: ProgramTableColumn): Option<bool> {
    var q := p.selectedQuotaTypes;
    match MetricOf(c)
    case None => None
    case Some(m) =>
      if m == BasariSirasi then None
      else if m == Yerlesen && p.placementType == Additional then Some(false)
      else Some(CategorySelected(q, Category(c)))
  }

  // ---------------------------------------------------------------------
  // Lemmas
  // ---------------------------------------------------------------------

  /** A later notification overrides an earlier one. */
  lemma {:induction false} LastEventConcat(a: seq<VisibilityEvent>, b: seq<VisibilityEvent>, c: ProgramTableColumn)
    ensures LastEvent(a + b, c) == if LastEvent(b, c).Some? then LastEvent(b, c) else LastEvent(a, c)
  {
    if |b| > 0 {
      assert (a + b)[..|a + b| - 1] == a + b[..|b| - 1];
      LastEventConcat(a, b[..|b| - 1], c);
    } else {
      assert a + b == a;
    }
  }

  /** Appending one notification: it wins for its own column and changes nothing for the others. */
  lemma LastEventSnoc(es: seq<VisibilityEvent>, e: VisibilityEvent, c: ProgramTableColumn)
    ensures LastEvent(es + [e], c) == if e.column == c then Some(e.visible) else LastEvent(es, c)
  {
    assert (es + [e])[..|es|] == es;
  }

  /** The view keeps its columns, and each ends as the last notification for it says, or as it was. */
  lemma {:induction false} ApplyEventsLastWins(v: map<ProgramTableColumn, bool>, es: seq<VisibilityEvent>, c: ProgramTableColumn)
    requires c in v
    ensures c in ApplyEvents(v, es)
    ensures ApplyEvents(v, es)[c] == LastEvent(es, c).GetOr(v[c])
    decreases |es|
  {
    if |es| > 0 {
      var v' := v[es[0].column := es[0].visible];
      ApplyEventsLastWins(v', es[1..], c);
      assert es == [es[0]] + es[1..];
      LastEventConcat([es[0]], es[1..], c);
    }
  }

  lemma CategoryBlockLast(t: ColumnTypes, visible: bool, c: ProgramTableColumn)
    requires t != Base
    ensures LastEvent(CategoryBlock(t, visible), c)
      == if Category(c) == t && MetricOf(c) != Some(BasariSirasi) then Some(visible) else None
  {
    QuotaGroupsAreFourConsecutive(t, Kontenjan);
    QuotaGroupsAreFourConsecutive(t, Yerlesen);
    QuotaGroupsAreFourConsecutive(t, EnKucukPuan);
    var e1 := VisibilityEvent(QuotaColumn(t, Kontenjan), visible);
    var e2 := VisibilityEvent(QuotaColumn(t, Yerlesen), visible);
    var e3 := VisibilityEvent(QuotaColumn(t, EnKucukPuan), visible);
    assert CategoryBlock(t, visible) == [] + [e1] + [e2] + [e3];
    LastEventSnoc([], e1, c);
    LastEventSnoc([] + [e1], e2, c);
    LastEventSnoc([] + [e1] + [e2], e3, c);
    if Category(c) == t {
      assert QuotaColumn(t, MetricOf(c).value) == c;
    }
  }

  /** A category block appended to earlier notifications decides its own non-rank columns and no others. */
  lemma CategoryBlockAfter(a: seq<VisibilityEvent>, t: ColumnTypes, visible: bool, c: ProgramTableColumn)
    requires t != Base
    ensures LastEvent(a + CategoryBlock(t, visible), c)
      == if Category(c) == t && MetricOf(c) != Some(BasariSirasi) then Some(visible) else LastEvent(a, c)
  {
    CategoryBlockLast(t, visible, c);
    LastEventConcat(a, CategoryBlock(t, visible), c);
  }

  /** The category blocks of `ts`, in order. */
  function BlocksOf(q: SelectedQuotaTypes, ts: seq<ColumnTypes>): seq<VisibilityEvent>
    requires Base !in ts
  {
    if |ts| == 0 then [] else BlocksOf(q, ts[..|ts| - 1]) + CategoryBlock(ts[|ts| - 1], CategorySelected(q, ts[|ts| - 1]))
  }

  /** Folding the blocks of any list of quota categories: a column is decided by its own category's block, if listed. */
  lemma {:induction false} BlocksOfLast(q: SelectedQuotaTypes, ts: seq<ColumnTypes>, c: ProgramTableColumn)
    requires Base !in ts
    ensures LastEvent(BlocksOf(q, ts), c)
      == if Category(c) in ts && MetricOf(c) != Some(BasariSirasi) then Some(CategorySelected(q, Category(c))) else None
  {
    if |ts| > 0 {
      var t := ts[|ts| - 1];
      BlocksOfLast(q, ts[..|ts| - 1], c);
      CategoryBlockAfter(BlocksOf(q, ts[..|ts| - 1]), t, CategorySelected(q, t), c);
      assert ts == ts[..|ts| - 1] + [t];
    }
  }

  /** The quota categories in the order the program writes their blocks. */
  const QuotaCategories: seq<ColumnTypes> := [ColumnTypes.Regular, HighSchoolValedictorians, MartyrsAndVeterans, EarthquakeVictims, Women34Plus]

  /** Every category except the base columns has a block. */
  lemma QuotaCategoriesAreTheNonBase(t: ColumnTypes)
    ensures t in QuotaCategories <==> t != Base
  {
    match t
    case Base =>
    case Regular => assert QuotaCategories[0] == t;
    case HighSchoolValedictorians => assert QuotaCategories[1] == t;
    case MartyrsAndVeterans => assert QuotaCategories[2] == t;
    case EarthquakeVictims => assert QuotaCategories[3] == t;
    case Women34Plus => assert QuotaCategories[4] == t;
  }

  /** The five blocks as written are the fold over the quota categories. */
  lemma CategoryBlocksInOrder(q: SelectedQuotaTypes)
    ensures Base !in QuotaCategories && CategoryBlocks(q) == BlocksOf(q, QuotaCategories)
  {
    var r, h, m, e := ColumnTypes.Regular, HighSchoolValedictorians, MartyrsAndVeterans, EarthquakeVictims;
    BlocksOfSnoc(q, [], r);
    BlocksOfSnoc(q, [r], h);
    BlocksOfSnoc(q, [r, h], m);
    BlocksOfSnoc(q, [r, h, m], e);
    BlocksOfSnoc(q, [r, h, m, e], Women34Plus);
    assert [] + [r] == [r] && [r] + [h] == [r, h] && [r, h] + [m] == [r, h, m] && [r, h, m] + [e] == [r, h, m, e];
    assert QuotaCategories == [r, h, m, e] + [Women34Plus];
    assert [] + CategoryBlock(r, CategorySelected(q, r)) == CategoryBlock(r, CategorySelected(q, r));
  }

  /** Folding one more category appends its block. */
  lemma BlocksOfSnoc(q: SelectedQuotaTypes, ts: seq<ColumnTypes>, t: ColumnTypes)
    requires Base !in ts && t != Base
    ensures Base !in ts + [t]
    ensures BlocksOf(q, ts + [t]) == BlocksOf(q, ts) + CategoryBlock(t, CategorySelected(q, t))
  {
    assert (ts + [t])[..|ts|] == ts;
  }

  /** After the five blocks, each non-rank quota column follows its category's toggle. */
  lemma CategoryBlocksLast(q: SelectedQuotaTypes, c: ProgramTableColumn)
    ensures LastEvent(CategoryBlocks(q), c)
      == if MetricOf(c).Some? && MetricOf(c) != Some(BasariSirasi) then Some(CategorySelected(q, Category(c))) else None
  {
    CategoryBlocksInOrder(q);
    BlocksOfLast(q, QuotaCategories, c);
    QuotaCategoriesAreTheNonBase(Category(c));
  }

  lemma ShowIfLast(b: bool, col: ProgramTableColumn, c: ProgramTableColumn)
    ensures LastEvent(ShowIf(b, col), c) == if b && c == col then Some(true) else None
  {
  }

  /** The five placed columns are exactly the columns whose metric is the placed count. */
  lemma PlacedColumns(c: ProgramTableColumn)
    ensures MetricOf(c) == Some(Yerlesen) <==>
      (c == GenelYerlesen || c == OkulBirincisiYerlesen || c == SehitGaziYakiniYerlesen
       || c == DepremzedeYerlesen || c == Kadin34PlusYerlesen)
  {
    match c
    case ProgramKodu =>
    case UniversiteAdi =>
    case FakulteYuksekOkulAdi =>
    case ProgramAdi =>
    case PuanTuru =>
    case GenelKontenjan =>
    case GenelYerlesen =>
    case GenelBasariSirasi =>
    case GenelEnKucukPuan =>
    case OkulBirincisiKontenjan =>
    case OkulBirincisiYerlesen =>
    case OkulBirincisiBasariSirasi =>
    case OkulBirincisiEnKucukPuan =>
    case SehitGaziYakiniKontenjan =>
    case SehitGaziYakiniYerlesen =>
    case SehitGaziYakiniBasariSirasi =>
    case SehitGaziYakiniEnKucukPuan =>
    case DepremzedeKontenjan =>
    case DepremzedeYerlesen =>
    case DepremzedeBasariSirasi =>
    case DepremzedeEnKucukPuan =>
    case Kadin34PlusKontenjan =>
    case Kadin34PlusYerlesen =>
    case Kadin34PlusBasariSirasi =>
    case Kadin34PlusEnKucukPuan =>
  }

  /** Which placed column each optional show targets, with the toggle that drives the martyrs one given separately. */
  lemma ShowPlacedLast(q: SelectedQuotaTypes, martyrsToggle: bool, c: ProgramTableColumn)
    ensures LastEvent(ShowPlaced(q, martyrsToggle), c) ==
      if MetricOf(c) == Some(Yerlesen)
         && (if c == SehitGaziYakiniYerlesen then martyrsToggle
             else if c == GenelYerlesen then q.regularQuota
             else CategorySelected(q, Category(c)))
      then Some(true) else None
  {
    var s1 := ShowIf(q.regularQuota, GenelYerlesen);
    var s2 := ShowIf(q.highSchoolValedictoriansQuota, OkulBirincisiYerlesen);
    var s3 := ShowIf(martyrsToggle, SehitGaziYakiniYerlesen);
    var s4 := ShowIf(q.earthquakeVictimsQuota, DepremzedeYerlesen);
    var s5 := ShowIf(q.women34PlusQuota, Kadin34PlusYerlesen);
    ShowIfLast(q.regularQuota, GenelYerlesen, c);
    ShowIfLast(q.highSchoolValedictoriansQuota, OkulBirincisiYerlesen, c);
    ShowIfLast(martyrsToggle, SehitGaziYakiniYerlesen, c);
    ShowIfLast(q.earthquakeVictimsQuota, DepremzedeYerlesen, c);
    ShowIfLast(q.women34PlusQuota, Kadin34PlusYerlesen, c);
    PlacedColumns(c);
    LastEventConcat(s1, s2, c);
    LastEventConcat(s1 + s2, s3, c);
    LastEventConcat(s1 + s2 + s3, s4, c);
    LastEventConcat(s1 + s2 + s3 + s4, s5, c);
  }

  /** Under the additional placement every placed column is hidden and nothing else is touched. */
  lemma HidePlacedLast(p: AcademyScopeParameters, c: ProgramTableColumn)
    requires p.placementType == Additional
    ensures LastEvent(PlacedBlock(p), c) == if MetricOf(c) == Some(Yerlesen) then Some(false) else None
  {
    var es := PlacedBlock(p);
    assert es == [] + [es[0]] + [es[1]] + [es[2]] + [es[3]] + [es[4]];
    LastEventSnoc([], es[0], c);
    LastEventSnoc([] + [es[0]], es[1], c);
    LastEventSnoc([] + [es[0]] + [es[1]], es[2], c);
    LastEventSnoc([] + [es[0]] + [es[1]] + [es[2]], es[3], c);
    LastEventSnoc([] + [es[0]] + [es[1]] + [es[2]] + [es[3]], es[4], c);
    PlacedColumns(c);
  }

  /**
   * The notifications of a request leave every column exactly as the
   * reference table says: the per-category blocks set quota and
   * minimum-score columns from the toggles, the closing block hides or
   * re-shows the placed columns, and base and rank columns are untouched.
   */
  lemma FinalVisibility(p: AcademyScopeParameters, c: ProgramTableColumn)
    ensures LastEvent(CategoryBlocks(p.selectedQuotaTypes) + PlacedBlock(p), c) == ExpectedVisibility(p, c)
  {
    var q := p.selectedQuotaTypes;
    CategoryBlocksLast(q, c);
    LastEventConcat(CategoryBlocks(q), PlacedBlock(p), c);
    if p.placementType == PlacementType.Regular {
      ShowPlacedLast(q, q.highSchoolValedictoriansQuota, c);
    } else {
      HidePlacedLast(p, c);
    }
  }

  lemma AllFinalVisibility(p: AcademyScopeParameters)
    ensures forall c :: LastEvent(CategoryBlocks(p.selectedQuotaTypes) + PlacedBlock(p), c) == ExpectedVisibility(p, c)
  {
    forall c ensures LastEvent(CategoryBlocks(p.selectedQuotaTypes) + PlacedBlock(p), c) == ExpectedVisibility(p, c) {
      FinalVisibility(p, c);
    }
  }

  /** The intended notifications leave every column as `IntendedVisibility` says. */
  lemma FinalVisibilityIntended(p: AcademyScopeParameters, c: ProgramTableColumn)
    ensures LastEvent(HideUnnecessaryColumnsIntended(p), c) == IntendedVisibility(p, c)
  {
    var q := p.selectedQuotaTypes;
    CategoryBlocksLast(q, c);
    LastEventConcat(CategoryBlocks(q), PlacedBlockIntended(p), c);
    if p.placementType == PlacementType.Regular {
      ShowPlacedLast(q, q.martyrsAndVeteransQuota, c);
    } else {
      HidePlacedLast(p, c);
    }
  }

  /**
   * With the intended block, a category's placed column is visible only
   * when its quota column is: no column reports placements for a quota the
   * table does not list.
   */
  lemma IntendedPlacedFollowsQuota(p: AcademyScopeParameters, t: ColumnTypes)
    requires t != Base
    ensures LastEvent(HideUnnecessaryColumnsIntended(p), QuotaColumn(t, Yerlesen)) == Some(true)
        ==> LastEvent(HideUnnecessaryColumnsIntended(p), QuotaColumn(t, Kontenjan)) == Some(true)
  {
    QuotaGroupsAreFourConsecutive(t, Yerlesen);
    QuotaGroupsAreFourConsecutive(t, Kontenjan);
    FinalVisibilityIntended(p, QuotaColumn(t, Yerlesen));
    FinalVisibilityIntended(p, QuotaColumn(t, Kontenjan));
  }

  /**
   * As written, a regular-placement request for valedictorians only shows
   * the martyrs-and-veterans placed column while hiding that category's
   * quota column.
   */
  lemma MartyrsPlacedColumnQuirk(p: AcademyScopeParameters)
    requires p.placementType == PlacementType.Regular
    requires p.selectedQuotaTypes.highSchoolValedictoriansQuota
    requires !p.selectedQuotaTypes.martyrsAndVeteransQuota
    ensures LastEvent(HideUnnecessaryColumns(p), SehitGaziYakiniYerlesen) == Some(true)
    ensures LastEvent(HideUnnecessaryColumns(p), SehitGaziYakiniKontenjan) == Some(false)
    ensures LastEvent(HideUnnecessaryColumnsIntended(p), SehitGaziYakiniYerlesen) == Some(false)
  {
    QuirkShowsPlaced(p);
    QuirkHidesQuota(p);
    IntendedHidesPlaced(p);
  }

  /** As written, the valedictorians toggle shows the martyrs-and-veterans placed column. */
  lemma QuirkShowsPlaced(p: AcademyScopeParameters)
    requires p.placementType == PlacementType.Regular
    requires p.selectedQuotaTypes.highSchoolValedictoriansQuota
    ensures LastEvent(HideUnnecessaryColumns(p), SehitGaziYakiniYerlesen) == Some(true)
  {
    FinalVisibility(p, SehitGaziYakiniYerlesen);
  }

  /** Without the martyrs-and-veterans toggle, that category's quota column ends hidden. */
  lemma QuirkHidesQuota(p: AcademyScopeParameters)
    requires !p.selectedQuotaTypes.martyrsAndVeteransQuota
    ensures LastEvent(HideUnnecessaryColumns(p), SehitGaziYakiniKontenjan) == Some(false)
  {
    FinalVisibility(p, SehitGaziYakiniKontenjan);
  }

  /** As intended, the martyrs-and-veterans placed column ends hidden without its own toggle. */
  lemma IntendedHidesPlaced(p: AcademyScopeParameters)
    requires !p.selectedQuotaTypes.martyrsAndVeteransQuota
    ensures LastEvent(HideUnnecessaryColumnsIntended(p), SehitGaziYakiniYerlesen) == Some(false)
  {
    FinalVisibilityIntended(p, SehitGaziYakiniYerlesen);
    assert MetricOf(SehitGaziYakiniYerlesen) == Some(Yerlesen);
    assert !CategorySelected(p.selectedQuotaTypes, Category(SehitGaziYakiniYerlesen));
  }

  /** The two versions differ only on the martyrs-and-veterans placed column. */
  lemma IntendedDiffersOnlyThere(p: AcademyScopeParameters, c: ProgramTableColumn)
    requires c != SehitGaziYakiniYerlesen
    ensures LastEvent(HideUnnecessaryColumnsIntended(p), c) == LastEvent(HideUnnecessaryColumns(p), c)
  {
    FinalVisibility(p, c);
    FinalVisibilityIntended(p, c);
  }

  /** Hiding the columns of `cs` one after another leaves exactly those hidden and touches nothing else. */
  lemma {:induction false} HideAllLast(cs: seq<ProgramTableColumn>, c: ProgramTableColumn)
    ensures LastEvent(HideAll(cs), c) == if c in cs then Some(false) else None
  {
    if |cs| > 0 {
      var front := cs[..|cs| - 1];
      HideAllLast(front, c);
      assert cs == front + [cs[|cs| - 1]];
      LastEventSnoc(HideAll(front), VisibilityEvent(cs[|cs| - 1], false), c);
    }
  }

  lemma RankColumnsHidden()
    ensures forall c :: LastEvent(HideAll(RankColumns), c) == if IsRankColumn(c) then Some(false) else None
  {
    forall c ensures LastEvent(HideAll(RankColumns), c) == if IsRankColumn(c) then Some(false) else None {
      HideAllLast(RankColumns, c);
    }
  }

  /**
   * A filter request never touches the rank columns, so once
   * `hideUnusedColumnsOnTheProgramTable` has hidden them they stay hidden.
   * Nothing in the back end calls that function, though, so as written the
   * rank columns are never hidden (`BackEnd.PopulateLeavesRankColumns`).
   */
  lemma RankColumnsStayHidden(p: AcademyScopeParameters, c: ProgramTableColumn)
    requires IsRankColumn(c)
    ensures LastEvent(HideUnusedColumns() + HideUnnecessaryColumnsIntended(p), c) == Some(false)
    ensures LastEvent(HideUnusedColumns() + HideUnnecessaryColumns(p), c) == Some(false)
  {
    FinalVisibilityIntended(p, c);
    LastEventConcat(HideUnusedColumns(), HideUnnecessaryColumnsIntended(p), c);
    LastEventConcat(HideUnusedColumns(), HideUnnecessaryColumns(p), c);
  }
}

=== FILE: DataTypes.dfy ===
/**
 * The filter/sort request the user interface hands to the back end, its
 * enumerations and their defaults, and the row-window bookkeeping record of
 * the table model.
 */
module DataTypes {
  import opened Wrappers
  import opened ColumnDefinitions

  datatype UniversityType = Undefined | Government | Private

  datatype TrackType = Undefined | Science | Humanities | EqualWeight | Language | TYT

  datatype Country = AllCountries | Turkiye | Cyprus | ForeignCountries

  datatype DegreeType = All | Bachelor | Associate

  /** A score interval; either end may be absent. Scores are doubles in the program, reals here. */
  datatype Interval = Interval(minimum: Option<real>, maximum: Option<real>)

  /** The interval a freshly constructed request carries: [100, 560]. */
  const DefaultInterval := Interval(Some(100.0), Some(560.0))

  datatype SelectedQuotaTypes = SelectedQuotaTypes(
    regularQuota: bool,
    martyrsAndVeteransQuota: bool,
    earthquakeVictimsQuota: bool,
    highSchoolValedictoriansQuota: bool,
    women34PlusQuota: bool,
    trncNationalsQuota: bool,
    mtokQuota: bool)

  /** Only the regular quota is selected by default. */
  const DefaultQuotaTypes := SelectedQuotaTypes(true, false, false, false, false, false, false)

  datatype SelectedTuitionFeeTypes = SelectedTuitionFeeTypes(free: bool, discounted: bool, paid: bool)

  /** Every tuition kind is selected by default. */
  const DefaultTuitionFeeTypes := SelectedTuitionFeeTypes(true, true, true)

  datatype PlacementType = Regular | Additional

  datatype SortOrder = AscendingOrder | DescendingOrder

  /** The sort request; `column` has no default initializer, so it is a parameter of the default. */
  datatype OrderParameters = OrderParameters(column: ProgramTableColumn, direction: SortOrder, toBeOrdered: bool)

  function DefaultOrder(column: ProgramTableColumn): OrderParameters {
    OrderParameters(column, AscendingOrder, false)
  }

  datatype AcademyScopeParameters = AcademyScopeParameters(
    placementType: PlacementType,
    universityName: string,
    departmentName: string,
    universityType: UniversityType,
    trackType: TrackType,
    scoreInterval: Interval,
    country: Country,
    degreeType: DegreeType,
    selectedQuotaTypes: SelectedQuotaTypes,
    selectedTuitionFeeTypes: SelectedTuitionFeeTypes,
    order: OrderParameters,
    regularQuotaInterval: Interval,
    highSchoolValedictoriansQuotaInterval: Interval,
    women34PlusQuotaInterval: Interval,
    earthquakeVictimsQuotaInterval: Interval,
    martyrsAndVeteransQuotaInterval: Interval,
    trncNationalsQuotaInterval: Interval)

  /**
   * A default-constructed request. `country` and the sort column have no
   * default initializer in the program, so they are parameters here.
   */
  function DefaultParameters(country: Country, sortColumn: ProgramTableColumn): AcademyScopeParameters {
    AcademyScopeParameters(
      PlacementType.Regular, "", "", UniversityType.Undefined, TrackType.Undefined, DefaultInterval,
      country, All, DefaultQuotaTypes, DefaultTuitionFeeTypes, DefaultOrder(sortColumn),
      DefaultInterval, DefaultInterval, DefaultInterval, DefaultInterval, DefaultInterval, DefaultInterval)
  }

  /** The table model's window bookkeeping: the requested row range and the probed table shape. */
  datatype DataWindow = DataWindow(
    windowSize: int,
    beginningIndex: int,
    endingIndex: int,
    tableRowCount: int,
    columnCount: int)

  const DefaultDataWindow := DataWindow(300, 0, 0, 0, 0)
}

=== FILE: QtArg.dfy ===
/**
 * The parts of `QString` text formatting the program relies on: decimal
 * text of an integer, and the `%n` place-marker substitution of
 * `QString::arg` (Qt 6 rules).
 *
 * `arg` scans its string for place markers: a `%`, an optional `L`, and one
 * or two ASCII digits. It replaces every marker carrying the lowest number
 * present by the argument and leaves the rest as they were; the inserted
 * text is not scanned again by that call, but it is by the next `arg` of a
 * chain. A `%` not followed by a marker is ordinary text, and scanning
 * resumes at the character after it (or after its `L`).
 */
module QtArg {
  import opened Wrappers
  import opened Sequences

  predicate IsDigit(ch: char) {
    '0' <= ch <= '9'
  }

  function DigitValue(ch: char): nat
    requires IsDigit(ch)
  {
    (ch as int) - ('0' as int)
  }

  function DigitChar(d: nat): (ch: char)
    requires d < 10
    ensures IsDigit(ch) && DigitValue(ch) == d
  {
    ('0' as int + d) as char
  }

  /** Decimal text of a natural number, most significant digit first. */
  function NatText(n: nat): (text: string)
    ensures |text| > 0
    ensures forall k :: 0 <= k < |text| ==> IsDigit(text[k])
    decreases n
  {
    if n < 10 then [DigitChar(n)] else NatText(n / 10) + [DigitChar(n % 10)]
  }

  /** The value a decimal digit string denotes. */
  function DecimalValue(text: string): nat
    requires forall k :: 0 <= k < |text| ==> IsDigit(text[k])
    decreases |text|
  {
    if |text| == 0 then 0 else 10 * DecimalValue(text[..|text| - 1]) + DigitValue(text[|text| - 1])
  }

  /** Decimal text of an integer as `QString::arg(int)` writes it: a leading `-` for negatives. */
  function IntText(i: int): (text: string)
    ensures |text| > 0 && IsDigit(text[|text| - 1])
    ensures forall k :: 0 <= k < |text| ==> IsDigit(text[k]) || (k == 0 && text[k] == '-')
    ensures '%' !in text
  {
    if i < 0 then "-" + NatText(-i) else NatText(i)
  }

  /** Reading the digits back gives the number written. */
  lemma {:induction false} NatTextRoundTrip(n: nat)
    ensures DecimalValue(NatText(n)) == n
    decreases n
  {
    if n >= 10 {
      NatTextRoundTrip(n / 10);
      var text := NatText(n);
      assert text[..|text| - 1] == NatText(n / 10);
    }
  }

  // ---------------------------------------------------------------------
  // Place markers
  // ---------------------------------------------------------------------

  /** A piece of a scanned string: one ordinary character, or a place marker with its number and its own text. */
  datatype Piece = Literal(ch: char) | Marker(number: nat, raw: string)

  /** Every character of `s` as ordinary text. */
  function Literals(s: string): (ps: seq<Piece>)
    ensures |ps| == |s|
    ensures forall k :: 0 <= k < |ps| ==> ps[k] == Literal(s[k])
  {
    if |s| == 0 then [] else [Literal(s[0])] + Literals(s[1..])
  }

  /**
   * The place marker `s` opens with, if any: `%`, an optional `L`, then one
   * digit, or two when a second follows.
   */
  function LeadingMarker(s: string): (m: Option<Piece>)
    ensures m.Some? ==> m.value.Marker? && 2 <= |m.value.raw| <= |s| && m.value.raw == s[..|m.value.raw|]
  {
    if |s| == 0 || s[0] != '%' then None
    else
      var k := if |s| > 1 && s[1] == 'L' then 2 else 1;
      if k == |s| || !IsDigit(s[k]) then None
      else if k + 1 < |s| && IsDigit(s[k + 1]) then
        Some(Marker(10 * DigitValue(s[k]) + DigitValue(s[k + 1]), s[..k + 2]))
      else Some(Marker(DigitValue(s[k]), s[..k + 1]))
  }

  /**
   * `s` split the way `arg` reads it. A `%` (or `%L`) that does not open a
   * marker is ordinary text; since neither it nor the `L` is a `%`, reading
   * on from the next character finds the same markers as resuming after the
   * `L` does.
   */
  function Scan(s: string): seq<Piece>
    decreases |s|
  {
    if |s| == 0 then []
    else match LeadingMarker(s)
      case Some(m) => [m] + Scan(s[|m.raw|..])
      case None => [Literal(s[0])] + Scan(s[1..])
  }

  /** The text a piece stands for. */
  function PieceText(p: Piece): string {
    match p
    case Literal(ch) => [ch]
    case Marker(_, raw) => raw
  }

  /** The text a list of pieces stands for. */
  function Text(ps: seq<Piece>): string
    decreases |ps|
  {
    if |ps| == 0 then "" else PieceText(ps[0]) + Text(ps[1..])
  }

  /** A piece after substitution: a marker numbered `n` becomes `a`, anything else stays. */
  function FillPiece(p: Piece, n: nat, a: string): string {
    if p.Marker? && p.number == n then a else PieceText(p)
  }

  /** The pieces with every marker numbered `n` replaced by `a`. */
  function Fill(ps: seq<Piece>, n: nat, a: string): string
    decreases |ps|
  {
    if |ps| == 0 then "" else FillPiece(ps[0], n, a) + Fill(ps[1..], n, a)
  }

  predicate HasMarker(ps: seq<Piece>, n: nat) {
    exists k :: 0 <= k < |ps| && ps[k].Marker? && ps[k].number == n
  }

  /** The lowest marker number among the pieces, if there is a marker (see `LowestMarkerSpec`). */
  function LowestMarker(ps: seq<Piece>): Option<nat>
    decreases |ps|
  {
    if |ps| == 0 then None
    else
      var rest := LowestMarker(ps[1..]);
      if ps[0].Literal? then rest
      else if rest.None? || ps[0].number <= rest.value then Some(ps[0].number)
      else rest
  }

  /**
   * `LowestMarker` finds nothing exactly when every piece is text, and
   * otherwise the number of a marker that no other marker undercuts.
   */
  lemma {:induction false} LowestMarkerSpec(ps: seq<Piece>)
    ensures LowestMarker(ps).None? <==> forall k :: 0 <= k < |ps| ==> ps[k].Literal?
    ensures LowestMarker(ps).Some? ==> HasMarker(ps, LowestMarker(ps).value)
    ensures LowestMarker(ps).Some? ==>
      forall k :: 0 <= k < |ps| && ps[k].Marker? ==> LowestMarker(ps).value <= ps[k].number
    decreases |ps|
  {
    if |ps| > 0 {
      LowestMarkerSpec(ps[1..]);
      assert forall k :: 1 <= k < |ps| ==> ps[k] == ps[1..][k - 1];
      var rest := LowestMarker(ps[1..]);
      if rest.Some? {
        var k :| 0 <= k < |ps[1..]| && ps[1..][k].Marker? && ps[1..][k].number == rest.value;
        assert ps[k + 1] == ps[1..][k];
      }
    }
  }

  /**
   * `s.arg(a)` for a string `a` (and, with `a` its decimal text, for an
   * integer): every marker with the lowest number becomes `a`; without any
   * marker `s` comes back unchanged.
   */
  function Arg(s: string, a: string): string {
    var ps := Scan(s);
    match LowestMarker(ps)
    case None => s
    case Some(n) => Fill(ps, n, a)
  }

  /**
   * `s.arg(args[0]).arg(args[1])…`: the arguments go in one call at a time,
   * and each call scans the whole text built so far.
   */
  function ArgChain(s: string, args: seq<string>): string
    decreases |args|
  {
    if |args| == 0 then s else Arg(ArgChain(s, args[..|args| - 1]), args[|args| - 1])
  }

  lemma ArgChainOfTwo(s: string, a1: string, a2: string)
    ensures ArgChain(s, [a1, a2]) == Arg(Arg(s, a1), a2)
  {
    assert [a1, a2][..1] == [a1];
    assert [a1][..0] == [];
    assert ArgChain(s, [a1]) == Arg(ArgChain(s, []), a1);
  }

  lemma ArgChainOfThree(s: string, a1: string, a2: string, a3: string)
    ensures ArgChain(s, [a1, a2, a3]) == Arg(Arg(Arg(s, a1), a2), a3)
  {
    assert [a1, a2, a3][..2] == [a1, a2];
    assert [a1, a2][..1] == [a1];
    assert [a1][..0] == [];
    assert ArgChain(s, [a1]) == Arg(ArgChain(s, []), a1);
    assert ArgChain(s, [a1, a2]) == Arg(ArgChain(s, [a1]), a2);
  }

  // ---------------------------------------------------------------------
  // Scanning lemmas
  // ---------------------------------------------------------------------

  lemma {:induction false} LiteralsText(s: string)
    ensures Text(Literals(s)) == s
    decreases |s|
  {
    if |s| > 0 {
      var ps := Literals(s);
      assert ps == [Literal(s[0])] + Literals(s[1..]);
      assert ps[1..] == Literals(s[1..]);
      LiteralsText(s[1..]);
      assert Text(ps) == PieceText(ps[0]) + Text(ps[1..]);
      assert s == [s[0]] + s[1..];
    }
  }

  lemma {:induction false} TextConcat(p: seq<Piece>, q: seq<Piece>)
    ensures Text(p + q) == Text(p) + Text(q)
    decreases |p|
  {
    if |p| > 0 {
      TextConcat(p[1..], q);
      assert (p + q)[0] == p[0];
      assert (p + q)[1..] == p[1..] + q;
      assert Text(p + q) == PieceText(p[0]) + Text(p[1..] + q);
    } else {
      assert p + q == q;
    }
  }

  /** Scanning loses nothing: the pieces spell out the scanned string. */
  lemma {:induction false} ScanText(s: string)
    ensures Text(Scan(s)) == s
    decreases |s|
  {
    if |s| > 0 {
      var first, n;
      if LeadingMarker(s).Some? {
        first, n := LeadingMarker(s).value, |LeadingMarker(s).value.raw|;
      } else {
        first, n := Literal(s[0]), 1;
      }
      ScanStep(s);
      assert Scan(s) == [first] + Scan(s[n..]);
      assert PieceText(first) == s[..n];
      ScanText(s[n..]);
      TextConcat([first], Scan(s[n..]));
      assert Text([first]) == PieceText(first);
      assert s == s[..n] + s[n..];
    }
  }

  /** One step of scanning: the first piece, then the rest. */
  lemma ScanStep(s: string)
    requires |s| > 0
    ensures LeadingMarker(s).Some? ==> Scan(s) == [LeadingMarker(s).value] + Scan(s[|LeadingMarker(s).value.raw|..])
    ensures LeadingMarker(s).None? ==> Scan(s) == [Literal(s[0])] + Scan(s[1..])
  {
  }

  /** Text without `%` holds no marker. */
  lemma {:induction false} ScanWithoutPercent(s: string)
    requires '%' !in s
    ensures Scan(s) == Literals(s)
    decreases |s|
  {
    if |s| > 0 {
      assert s[0] in s;
      assert forall ch :: ch in s[1..] ==> ch in s;
      ScanWithoutPercent(s[1..]);
    }
  }

  /** A character that cannot continue a marker. */
  predicate EndsMarker(ch: char) {
    !IsDigit(ch) && ch != 'L'
  }

  /** A marker never reaches past a character that cannot continue it. */
  lemma LeadingMarkerConcat(x: string, y: string)
    requires |x| > 0 && |y| > 0 && EndsMarker(y[0])
    ensures LeadingMarker(x + y) == LeadingMarker(x)
  {
    var s := x + y;
    assert s[0] == x[0];
    if x[0] == '%' {
      if |x| == 1 {
        assert s[1] == y[0];
      } else {
        assert s[1] == x[1];
        var k := if x[1] == 'L' then 2 else 1;
        if k < |x| {
          assert s[k] == x[k];
          if k + 1 < |x| {
            assert s[k + 1] == x[k + 1];
            assert s[..k + 2] == x[..k + 2];
          } else {
            assert s[k + 1] == y[0];
          }
          assert s[..k + 1] == x[..k + 1];
        } else {
          assert s[k] == y[0];
        }
      }
    }
  }

  /**
   * Scanning splits at a boundary where the right-hand part starts with a
   * character that cannot continue a marker: nothing of `x` is read
   * together with `y`.
   */
  lemma {:induction false} ScanConcat(x: string, y: string)
    requires |y| > 0 && EndsMarker(y[0])
    ensures Scan(x + y) == Scan(x) + Scan(y)
    decreases |x|
  {
    if |x| == 0 {
      EmptyPrefix(x, y);
    } else if LeadingMarker(x).Some? {
      ScanConcat(x[|LeadingMarker(x).value.raw|..], y);
      ScanConcatAfterMarker(x, y);
    } else {
      ScanConcat(x[1..], y);
      ScanConcatAfterLiteral(x, y);
    }
  }

  /** The inductive step of `ScanConcat` when `x` opens with ordinary text. */
  lemma ScanConcatAfterLiteral(x: string, y: string)
    requires |x| > 0 && |y| > 0 && EndsMarker(y[0])
    requires LeadingMarker(x).None?
    requires Scan(x[1..] + y) == Scan(x[1..]) + Scan(y)
    ensures Scan(x + y) == Scan(x) + Scan(y)
  {
    ScanSplitsAfterLiteral(x, y);
    AppendAssociates([Literal(x[0])], Scan(x[1..]), Scan(y));
  }

  /** The inductive step of `ScanConcat` when `x` opens with a marker. */
  lemma ScanConcatAfterMarker(x: string, y: string)
    requires |x| > 0 && |y| > 0 && EndsMarker(y[0])
    requires LeadingMarker(x).Some?
    requires Scan(x[|LeadingMarker(x).value.raw|..] + y) == Scan(x[|LeadingMarker(x).value.raw|..]) + Scan(y)
    ensures Scan(x + y) == Scan(x) + Scan(y)
  {
    ScanSplitsAfterMarker(x, y);
    AppendAssociates([LeadingMarker(x).value], Scan(x[|LeadingMarker(x).value.raw|..]), Scan(y));
  }

  /** The base case of `ScanConcat`. */
  lemma EmptyPrefix(x: string, y: string)
    requires |x| == 0
    ensures Scan(x + y) == Scan(x) + Scan(y)
  {
    assert x + y == y;
  }

  /** The first step of scanning `x + y` when `x` opens with ordinary text. */
  lemma ScanSplitsAfterLiteral(x: string, y: string)
    requires |x| > 0 && |y| > 0 && EndsMarker(y[0])
    requires LeadingMarker(x).None?
    ensures Scan(x) == [Literal(x[0])] + Scan(x[1..])
    ensures Scan(x + y) == [Literal(x[0])] + Scan(x[1..] + y)
  {
    var s := x + y;
    LeadingMarkerConcat(x, y);
    ScanStep(s);
    ScanStep(x);
    DropConcat(x, y, 1);
    DropConcat(x, y, 0);
  }

  /** The first step of scanning `x + y` when `x` opens with a marker. */
  lemma ScanSplitsAfterMarker(x: string, y: string)
    requires |x| > 0 && |y| > 0 && EndsMarker(y[0])
    requires LeadingMarker(x).Some?
    ensures Scan(x) == [LeadingMarker(x).value] + Scan(x[|LeadingMarker(x).value.raw|..])
    ensures Scan(x + y) == [LeadingMarker(x).value] + Scan(x[|LeadingMarker(x).value.raw|..] + y)
  {
    var s := x + y;
    LeadingMarkerConcat(x, y);
    ScanStep(s);
    ScanStep(x);
    DropConcat(x, y, |LeadingMarker(x).value.raw|);
  }

  /** A one-digit marker followed by a character that cannot continue it. */
  lemma MarkerThenText(d: char, y: string)
    requires IsDigit(d) && |y| > 0 && EndsMarker(y[0])
    ensures Scan(['%', d] + y) == [Marker(DigitValue(d), ['%', d])] + Scan(y)
  {
    var s := ['%', d] + y;
    assert s[0] == '%' && s[1] == d && s[2] == y[0];
    assert s[..2] == ['%', d];
    assert LeadingMarker(s) == Some(Marker(DigitValue(d), ['%', d]));
    assert s[2..] == y;
  }

  /** A one-digit marker closing a string. */
  lemma MarkerAtEnd(d: char)
    requires IsDigit(d)
    ensures Scan(['%', d]) == [Marker(DigitValue(d), ['%', d])]
  {
    var s := ['%', d];
    assert s[..2] == s;
    assert s[2..] == [];
  }

  // ---------------------------------------------------------------------
  // Substitution lemmas
  // ---------------------------------------------------------------------

  lemma {:induction false} FillConcat(p: seq<Piece>, q: seq<Piece>, n: nat, a: string)
    ensures Fill(p + q, n, a) == Fill(p, n, a) + Fill(q, n, a)
    decreases |p|
  {
    if |p| > 0 {
      FillConcat(p[1..], q, n, a);
      FillConcatStep(p, q, n, a);
    } else {
      FillEmptyPrefix(p, q, n, a);
    }
  }

  /** The base case of `FillConcat`. */
  lemma FillEmptyPrefix(p: seq<Piece>, q: seq<Piece>, n: nat, a: string)
    requires |p| == 0
    ensures Fill(p + q, n, a) == Fill(p, n, a) + Fill(q, n, a)
  {
    assert p + q == q;
  }

  /** The inductive step of `FillConcat`. */
  lemma FillConcatStep(p: seq<Piece>, q: seq<Piece>, n: nat, a: string)
    requires |p| > 0
    requires Fill(p[1..] + q, n, a) == Fill(p[1..], n, a) + Fill(q, n, a)
    ensures Fill(p + q, n, a) == Fill(p, n, a) + Fill(q, n, a)
  {
    var pq := p + q;
    DropConcat(p, q, 1);
    FillUnfold(pq, n, a);
    FillUnfold(p, n, a);
    AppendAssociates(FillPiece(p[0], n, a), Fill(p[1..], n, a), Fill(q, n, a));
  }

  /** One step of filling: the first piece, then the rest. */
  lemma FillUnfold(ps: seq<Piece>, n: nat, a: string)
    requires |ps| > 0
    ensures Fill(ps, n, a) == FillPiece(ps[0], n, a) + Fill(ps[1..], n, a)
  {
  }

  /** Where no marker carries number `n`, filling it changes nothing. */
  lemma {:induction false} FillAbsent(ps: seq<Piece>, n: nat, a: string)
    requires !HasMarker(ps, n)
    ensures Fill(ps, n, a) == Text(ps)
    decreases |ps|
  {
    if |ps| > 0 {
      assert !(ps[0].Marker? && ps[0].number == n);
      assert forall k :: 0 <= k < |ps| - 1 ==> ps[1..][k] == ps[k + 1];
      FillAbsent(ps[1..], n, a);
    }
  }

  lemma HasMarkerConcat(p: seq<Piece>, q: seq<Piece>, n: nat)
    ensures HasMarker(p + q, n) <==> HasMarker(p, n) || HasMarker(q, n)
  {
    if HasMarker(p + q, n) {
      var k :| 0 <= k < |p + q| && (p + q)[k].Marker? && (p + q)[k].number == n;
      if k >= |p| { assert (p + q)[k] == q[k - |p|]; }
    }
    if HasMarker(q, n) {
      var k :| 0 <= k < |q| && q[k].Marker? && q[k].number == n;
      assert (p + q)[k + |p|] == q[k];
    }
    if HasMarker(p, n) {
      var k :| 0 <= k < |p| && p[k].Marker? && p[k].number == n;
      assert (p + q)[k] == p[k];
    }
  }

  /** With no `%`, `arg` returns its string unchanged. */
  lemma ArgWithoutMarker(s: string, a: string)
    requires '%' !in s
    ensures Arg(s, a) == s
  {
    ScanWithoutPercent(s);
    LowestMarkerSpec(Scan(s));
  }

  /** A front part without `%` is read as ordinary text, whatever follows it. */
  lemma {:induction false} ScanPlainFront(x: string, r: string)
    requires '%' !in x
    ensures Scan(x + r) == Literals(x) + Scan(r)
    decreases |x|
  {
    if |x| > 0 {
      assert x[0] in x;
      assert forall ch :: ch in x[1..] ==> ch in x;
      ScanPlainFront(x[1..], r);
      var s := x + r;
      assert s[0] == x[0];
      ScanStep(s);
      DropConcat(x, r, 1);
      calc {
        Scan(s);
        [Literal(x[0])] + Scan(x[1..] + r);
        [Literal(x[0])] + (Literals(x[1..]) + Scan(r));
        { AppendAssociates([Literal(x[0])], Literals(x[1..]), Scan(r)); }
        [Literal(x[0])] + Literals(x[1..]) + Scan(r);
        Literals(x) + Scan(r);
      }
    } else {
      assert x + r == r;
    }
  }

  /** `arg` leaves a front part without `%` in place, whatever the rest of the text holds. */
  lemma ArgKeepsPlainFront(x: string, r: string, a: string)
    requires '%' !in x
    ensures |Arg(x + r, a)| >= |x| && Arg(x + r, a)[..|x|] == x
  {
    ScanPlainFront(x, r);
    var ps := Scan(x + r);
    match LowestMarker(ps)
    case None =>
      assert (x + r)[..|x|] == x;
    case Some(n) =>
      FillConcat(Literals(x), Scan(r), n, a);
      assert !HasMarker(Literals(x), n);
      FillAbsent(Literals(x), n, a);
      LiteralsText(x);
      var rest := Fill(Scan(r), n, a);
      assert Arg(x + r, a) == x + rest;
      assert (x + rest)[..|x|] == x;
  }

  /**
   * `arg` on `x + y`, split at a boundary no marker crosses: each side has
   * its lowest-numbered markers replaced on its own.
   */
  lemma ArgConcat(x: string, y: string, a: string, n: nat)
    requires |y| > 0 && EndsMarker(y[0])
    requires LowestMarker(Scan(x + y)) == Some(n)
    ensures Arg(x + y, a) == Fill(Scan(x), n, a) + Fill(Scan(y), n, a)
  {
    ScanConcat(x, y);
    FillConcat(Scan(x), Scan(y), n, a);
  }

  /** Every marker among the pieces is numbered above `n`. */
  predicate MarkersAbove(ps: seq<Piece>, n: nat) {
    forall k :: 0 <= k < |ps| && ps[k].Marker? ==> ps[k].number > n
  }

  /** A marker numbered `n` with none below it is the lowest. */
  lemma LowestIs(ps: seq<Piece>, n: nat)
    requires HasMarker(ps, n)
    requires forall k :: 0 <= k < |ps| && ps[k].Marker? ==> ps[k].number >= n
    ensures LowestMarker(ps) == Some(n)
  {
    LowestMarkerSpec(ps);
    var k :| 0 <= k < |ps| && ps[k].Marker? && ps[k].number == n;
  }

  /** A one-digit marker followed by nothing, or by a character that cannot continue it. */
  lemma MarkerThenAny(d: char, y: string)
    requires IsDigit(d)
    requires |y| == 0 || EndsMarker(y[0])
    ensures Scan(['%', d] + y) == [Marker(DigitValue(d), ['%', d])] + Scan(y)
  {
    if |y| == 0 {
      MarkerAtEnd(d);
      assert ['%', d] + y == ['%', d];
    } else {
      MarkerThenText(d, y);
    }
  }

  /** Scanning around a one-digit marker that nothing before or after can join. */
  lemma ScanAroundMarker(x: string, d: char, y: string)
    requires IsDigit(d)
    requires |y| == 0 || EndsMarker(y[0])
    ensures Scan(x + ['%', d] + y) == Scan(x) + [Marker(DigitValue(d), ['%', d])] + Scan(y)
  {
    var t := ['%', d] + y;
    MarkerThenAny(d, y);
    assert t[0] == '%';
    ScanConcat(x, t);
    assert x + ['%', d] + y == x + t;
  }

  /** Filling the only lowest marker between two stretches that have none of its number. */
  lemma FillAroundMarker(p: seq<Piece>, m: Piece, q: seq<Piece>, a: string)
    requires m.Marker? && MarkersAbove(p, m.number) && MarkersAbove(q, m.number)
    ensures LowestMarker(p + [m] + q) == Some(m.number)
    ensures Fill(p + [m] + q, m.number, a) == Text(p) + a + Text(q)
  {
    var n := m.number;
    var ps := p + [m] + q;
    assert ps[|p|] == m;
    LowestIs(ps, n);
    FillConcat(p + [m], q, n, a);
    FillConcat(p, [m], n, a);
    assert Fill([m], n, a) == a;
    FillAbsent(p, n, a);
    FillAbsent(q, n, a);
  }

  /**
   * `arg` on a string with a single marker `%d` whose number is below every
   * other marker's: the argument takes its place and the rest is copied.
   */
  lemma ArgSingleMarker(x: string, d: char, y: string, a: string)
    requires IsDigit(d)
    requires |y| == 0 || EndsMarker(y[0])
    requires MarkersAbove(Scan(x), DigitValue(d)) && MarkersAbove(Scan(y), DigitValue(d))
    ensures Arg(x + ['%', d] + y, a) == x + a + y
  {
    ScanAroundMarker(x, d, y);
    FillAroundMarker(Scan(x), Marker(DigitValue(d), ['%', d]), Scan(y), a);
    ScanText(x);
    ScanText(y);
  }

  /** Text without `%` has no marker at all. */
  lemma NoMarkerWithoutPercent(s: string, n: nat)
    requires '%' !in s
    ensures MarkersAbove(Scan(s), n)
  {
    ScanWithoutPercent(s);
  }

  /** `arg` on a format that opens with its only marker `%d` and goes on with text free of `%`. */
  lemma ArgLeadingMarker(d: char, y: string, a: string)
    requires IsDigit(d) && '%' !in y
    requires |y| == 0 || EndsMarker(y[0])
    ensures Arg(['%', d] + y, a) == a + y
  {
    var s := ['%', d] + y;
    NoMarkerWithoutPercent(y, DigitValue(d));
    NoMarkerWithoutPercent([], DigitValue(d));
    EmptyFront(s, ['%', d], y, a);
    ArgSingleMarkerAt(s, [], d, y, a);
  }

  lemma EmptyFront(s: string, m: string, y: string, a: string)
    requires s == m + y
    ensures s == [] + m + y && [] + a + y == a + y
  {
  }

  lemma MarkersAboveConcat(p: seq<Piece>, q: seq<Piece>, n: nat)
    ensures MarkersAbove(p + q, n) <==> MarkersAbove(p, n) && MarkersAbove(q, n)
  {
    if MarkersAbove(p + q, n) {
      forall k | 0 <= k < |q| && q[k].Marker?
        ensures q[k].number > n
      {
        assert (p + q)[|p| + k] == q[k];
      }
      forall k | 0 <= k < |p| && p[k].Marker?
        ensures p[k].number > n
      {
        assert (p + q)[k] == p[k];
      }
    }
  }

  /** A string holding marker `n` has a lowest marker, numbered at most `n`. */
  lemma LowestAtMost(ps: seq<Piece>, n: nat)
    requires HasMarker(ps, n)
    ensures LowestMarker(ps).Some? && LowestMarker(ps).value <= n
  {
    LowestMarkerSpec(ps);
    var k :| 0 <= k < |ps| && ps[k].Marker? && ps[k].number == n;
  }

  // ---------------------------------------------------------------------
  // Chained calls on a two-marker format `x%1y%2`
  // ---------------------------------------------------------------------

  /**
   * The first of two chained calls on `x%1y%2`, with `x` and `y` free of
   * `%`, puts its argument in place of `%1` and keeps `%2`, whatever the
   * argument holds.
   */
  lemma FirstOfTwoMarkers(format: string, x: string, y: string, a: string)
    requires format == x + ['%', '1'] + y + ['%', '2']
    requires '%' !in x && '%' !in y
    requires |y| > 0 && EndsMarker(y[0])
    ensures Arg(format, a) == x + a + y + ['%', '2']
  {
    var tail := y + ['%', '2'];
    ScanAroundMarker(y, '2', []);
    assert tail == y + ['%', '2'] + [];
    NoMarkerWithoutPercent(y, 1);
    NoMarkerWithoutPercent([], 1);
    MarkersAboveConcat(Scan(y), [Marker(2, ['%', '2'])], 1);
    MarkersAboveConcat(Scan(y) + [Marker(2, ['%', '2'])], Scan([]), 1);
    NoMarkerWithoutPercent(x, 1);
    assert format == x + ['%', '1'] + tail;
    ArgSingleMarker(x, '1', tail, a);
  }

  /**
   * Two chained calls on `x%1y%2` fill the markers in order when the first
   * argument brings no marker numbered 2 or lower (the second call rescans
   * what the first inserted).
   */
  lemma TwoMarkersInOrder(format: string, x: string, y: string, a: string, b: string)
    requires format == x + ['%', '1'] + y + ['%', '2']
    requires '%' !in x && '%' !in y && MarkersAbove(Scan(a), 2)
    requires |y| > 0 && EndsMarker(y[0])
    ensures Arg(Arg(format, a), b) == x + a + y + b
  {
    FirstOfTwoMarkers(format, x, y, a);
    var head := x + a + y;
    PlainAroundKeepsMarkersAbove(x, a, y, 2);
    NoMarkerWithoutPercent([], 2);
    assert x + a + y + ['%', '2'] == head + ['%', '2'] + [];
    ArgSingleMarker(head, '2', [], b);
  }

  /** Plain text on both sides of `a` adds no marker to it, as long as nothing after `a` can continue one of its markers. */
  lemma PlainAroundKeepsMarkersAbove(x: string, a: string, y: string, n: nat)
    requires '%' !in x && '%' !in y && MarkersAbove(Scan(a), n)
    requires |y| > 0 && EndsMarker(y[0])
    ensures MarkersAbove(Scan(x + a + y), n)
  {
    ScanPlainFront(x, a + y);
    ScanConcat(a, y);
    ScanWithoutPercent(x);
    NoMarkerWithoutPercent(x, n);
    NoMarkerWithoutPercent(y, n);
    MarkersAboveConcat(Scan(a), Scan(y), n);
    MarkersAboveConcat(Literals(x), Scan(a + y), n);
    assert x + a + y == x + (a + y);
  }

  // ---------------------------------------------------------------------
  // Chained calls on a three-marker format `%1<p>%2<q>%3`
  // ---------------------------------------------------------------------

  /** The format `%1<p>%2<q>%3`. */
  function ThreeMarkerFormat(p: string, q: string): string {
    ['%', '1'] + p + ['%', '2'] + q + ['%', '3']
  }

  /** Text that sits between markers without touching them: no `%`, and a first character no marker can swallow. */
  predicate PlainSeparator(p: string) {
    |p| > 0 && EndsMarker(p[0]) && '%' !in p
  }

  /** How `arg` reads the format after its first marker. */
  lemma ThreeMarkerTailScan(p: string, q: string)
    requires PlainSeparator(p) && PlainSeparator(q)
    ensures Scan(q + ['%', '3']) == Literals(q) + [Marker(3, "%3")]
    ensures Scan(p + ['%', '2'] + q + ['%', '3']) == Literals(p) + [Marker(2, "%2")] + Scan(q + ['%', '3'])
    ensures MarkersAbove(Scan(p + ['%', '2'] + q + ['%', '3']), 1)
    ensures MarkersAbove(Scan(q + ['%', '3']), 2)
  {
    var t := q + ['%', '3'];
    ScanAroundMarker(p, '2', t);
    assert p + ['%', '2'] + t == p + ['%', '2'] + q + ['%', '3'];
    ScanAroundMarker(q, '3', []);
    assert q + ['%', '3'] + [] == t;
    assert Scan([]) == [];
    ScanWithoutPercent(p);
    ScanWithoutPercent(q);
    MarkersAboveConcat(Literals(p) + [Marker(2, "%2")], Scan(t), 1);
    MarkersAboveConcat(Literals(p), [Marker(2, "%2")], 1);
    MarkersAboveConcat(Literals(q), [Marker(3, "%3")], 1);
    MarkersAboveConcat(Literals(q), [Marker(3, "%3")], 2);
  }

  /** `ArgSingleMarker` for a string already known to have that shape. */
  lemma ArgSingleMarkerAt(s: string, x: string, d: char, y: string, a: string)
    requires s == x + ['%', d] + y
    requires IsDigit(d)
    requires |y| == 0 || EndsMarker(y[0])
    requires MarkersAbove(Scan(x), DigitValue(d)) && MarkersAbove(Scan(y), DigitValue(d))
    ensures Arg(s, a) == x + a + y
  {
    ArgSingleMarker(x, d, y, a);
  }

  /** The format after its first marker. */
  function ThreeMarkerTail(p: string, q: string): string {
    p + ['%', '2'] + q + ['%', '3']
  }

  lemma ThreeMarkerFormatSplit(p: string, q: string)
    ensures ThreeMarkerFormat(p, q) == [] + ['%', '1'] + ThreeMarkerTail(p, q)
  {
  }

  /** Every marker after the first is numbered above 1. */
  lemma ThreeMarkerTailAbove(p: string, q: string)
    requires PlainSeparator(p) && PlainSeparator(q)
    ensures MarkersAbove(Scan(ThreeMarkerTail(p, q)), 1)
  {
    ThreeMarkerTailScan(p, q);
  }

  /** The last marker is numbered above 2. */
  lemma LastMarkerAbove(q: string)
    requires PlainSeparator(q)
    ensures MarkersAbove(Scan(q + ['%', '3']), 2)
  {
    ScanAroundMarker(q, '3', []);
    assert q + ['%', '3'] + [] == q + ['%', '3'];
    assert Scan([]) == [];
    ScanWithoutPercent(q);
    MarkersAboveConcat(Literals(q), [Marker(3, "%3")], 2);
  }

  /** Appending plain text adds no marker. */
  lemma PlainSuffixAddsNoMarker(x: string, p: string, n: nat)
    requires MarkersAbove(Scan(x), n) && PlainSeparator(p)
    ensures MarkersAbove(Scan(x + p), n)
  {
    ScanConcat(x, p);
    ScanWithoutPercent(p);
    MarkersAboveConcat(Scan(x), Literals(p), n);
  }

  /** The first call puts its argument in front of the rest of the format. */
  lemma ThreeMarkerFirstArg(p: string, q: string, a: string)
    requires PlainSeparator(p) && PlainSeparator(q)
    ensures Arg(ThreeMarkerFormat(p, q), a) == a + ThreeMarkerTail(p, q)
  {
    var t := ThreeMarkerTail(p, q);
    ThreeMarkerTailAbove(p, q);
    NoMarkerWithoutPercent([], 1);
    assert t[0] == p[0];
    ThreeMarkerFormatSplit(p, q);
    ArgSingleMarkerAt(ThreeMarkerFormat(p, q), [], '1', t, a);
  }

  /** The second call, when the first argument brought no low marker: the format's `%2` is filled. */
  lemma SecondArgFillsSecondMarker(a1: string, p: string, q: string, a2: string)
    requires PlainSeparator(p) && PlainSeparator(q)
    requires MarkersAbove(Scan(a1), 3)
    ensures Arg(a1 + ThreeMarkerTail(p, q), a2) == a1 + p + a2 + (q + ['%', '3'])
  {
    var last := q + ['%', '3'];
    PlainSuffixAddsNoMarker(a1, p, 2);
    LastMarkerAbove(q);
    assert last[0] == q[0];
    ArgSingleMarkerAt(a1 + ThreeMarkerTail(p, q), a1 + p, '2', last, a2);
  }

  /** The third call on `<a1><middle>%3`, with no marker of 3 or lower before it: `%3` is filled. */
  lemma ThirdArgFillsLastMarker(s: string, a1: string, middle: string, a3: string)
    requires s == a1 + middle + ['%', '3']
    requires PlainSeparator(middle)
    requires MarkersAbove(Scan(a1), 3)
    ensures Arg(s, a3) == a1 + middle + a3
  {
    PlainSuffixAddsNoMarker(a1, middle, 3);
    NoMarkerWithoutPercent([], 3);
    ArgSingleMarkerAt(s, a1 + middle, '3', [], a3);
  }

  /** The first two calls of the chain, when the first argument brings no low marker. */
  lemma FirstTwoArgsInOrder(p: string, q: string, a1: string, a2: string)
    requires PlainSeparator(p) && PlainSeparator(q)
    requires MarkersAbove(Scan(a1), 3)
    ensures Arg(Arg(ThreeMarkerFormat(p, q), a1), a2) == a1 + p + a2 + (q + ['%', '3'])
  {
    ThreeMarkerFirstArg(p, q, a1);
    SecondArgFillsSecondMarker(a1, p, q, a2);
  }

  /** Plain text around an argument free of `%` is still plain. */
  lemma PlainAroundArgument(p: string, a: string, q: string)
    requires PlainSeparator(p) && PlainSeparator(q) && '%' !in a
    ensures PlainSeparator(p + a + q)
  {
    assert (p + a + q)[0] == p[0];
  }

  lemma RegroupAroundLast(a1: string, p: string, a2: string, q: string, a3: string)
    ensures a1 + p + a2 + (q + ['%', '3']) == a1 + (p + a2 + q) + ['%', '3']
    ensures a1 + (p + a2 + q) + a3 == a1 + p + a2 + q + a3
  {
  }

  /**
   * Chaining three calls fills the three markers in order when the first
   * argument brings no marker numbered 3 or lower and the second brings no
   * `%`.
   */
  lemma ThreeMarkerChainInOrder(p: string, q: string, a1: string, a2: string, a3: string)
    requires PlainSeparator(p) && PlainSeparator(q)
    requires MarkersAbove(Scan(a1), 3) && '%' !in a2
    ensures Arg(Arg(Arg(ThreeMarkerFormat(p, q), a1), a2), a3) == a1 + p + a2 + q + a3
  {
    var s2 := Arg(Arg(ThreeMarkerFormat(p, q), a1), a2);
    FirstTwoArgsInOrder(p, q, a1, a2);
    PlainAroundArgument(p, a2, q);
    RegroupAroundLast(a1, p, a2, q, a3);
    ThirdArgFillsLastMarker(s2, a1, p + a2 + q, a3);
  }

  /** The second call, when the first argument brought the lowest marker: it is filled there, and the format's tail is untouched. */
  lemma SecondArgFillsInsertedMarker(s: string, a1: string, p: string, q: string, a2: string)
    requires s == a1 + ThreeMarkerTail(p, q)
    requires PlainSeparator(p) && PlainSeparator(q)
    requires LowestMarker(Scan(a1)).Some? && LowestMarker(Scan(a1)).value <= 1
    ensures Arg(s, a2) == Fill(Scan(a1), LowestMarker(Scan(a1)).value, a2) + ThreeMarkerTail(p, q)
  {
    LowestMarkerSpec(Scan(a1));
    var v := LowestMarker(Scan(a1)).value;
    var t := ThreeMarkerTail(p, q);
    assert t[0] == p[0];
    ThreeMarkerTailAbove(p, q);
    ScanConcat(a1, t);
    HasMarkerConcat(Scan(a1), Scan(t), v);
    LowestIs(Scan(a1) + Scan(t), v);
    ArgConcat(a1, t, a2, v);
    FillAbsent(Scan(t), v, a2);
    ScanText(t);
  }

  /** The format's tail holds `%2`, and what follows it holds no marker of 2 or lower. */
  lemma TailHoldsSecondMarker(p: string, q: string)
    requires PlainSeparator(p) && PlainSeparator(q)
    ensures var t := ThreeMarkerTail(p, q);
      && |t| > 0 && EndsMarker(t[0])
      && Scan(t) == (Literals(p) + [Marker(2, "%2")]) + Scan(q + ['%', '3'])
      && HasMarker(Scan(t), 2)
      && MarkersAbove(Scan(q + ['%', '3']), 2)
  {
    var t := ThreeMarkerTail(p, q);
    assert t[0] == p[0];
    ThreeMarkerTailScan(p, q);
    assert Scan(t)[|p|] == Marker(2, "%2");
    LastMarkerAbove(q);
  }

  /** Any text followed by the format's tail has a lowest marker, and it is at most 2. */
  lemma LowestBeforeTailAtMostTwo(b: string, p: string, q: string)
    requires PlainSeparator(p) && PlainSeparator(q)
    ensures var t := ThreeMarkerTail(p, q);
      LowestMarker(Scan(b + t)).Some? && LowestMarker(Scan(b + t)).value <= 2
  {
    var t := ThreeMarkerTail(p, q);
    TailHoldsSecondMarker(p, q);
    ScanConcat(b, t);
    HasMarkerConcat(Scan(b), Scan(t), 2);
    LowestAtMost(Scan(b) + Scan(t), 2);
  }

  /** Filling the tail with a number of at most 2 leaves its last part, `<q>%3`, as it was. */
  lemma FillTailKeepsLast(p: string, q: string, w: nat, a: string)
    requires PlainSeparator(p) && PlainSeparator(q) && w <= 2
    ensures var f := Fill(Scan(ThreeMarkerTail(p, q)), w, a);
      |f| >= |q| + 2 && f[|f| - |q| - 2..] == q + ['%', '3']
  {
    var last := q + ['%', '3'];
    var firstPieces := Literals(p) + [Marker(2, "%2")];
    TailHoldsSecondMarker(p, q);
    FillConcat(firstPieces, Scan(last), w, a);
    FillAbsent(Scan(last), w, a);
    ScanText(last);
    EndsWithSuffix(Fill(firstPieces, w, a), last);
  }

  /** A text glued from two parts ends with the second. */
  lemma EndsWithSuffix(x: string, y: string)
    ensures |x + y| >= |y| && (x + y)[|x + y| - |y|..] == y
  {
  }

  /** A text that ends with `f` ends with whatever `f` ends with. */
  lemma EndsWithThrough(r: string, x: string, f: string, last: string)
    requires r == x + f
    requires |f| >= |last| && f[|f| - |last|..] == last
    ensures |r| >= |last| && r[|r| - |last|..] == last
  {
    assert r[|r| - |last|..] == f[|f| - |last|..];
  }

  /** The first two calls of the chain, when the first argument brought the lowest marker. */
  lemma FirstTwoArgsStrand(p: string, q: string, a1: string, a2: string)
    requires PlainSeparator(p) && PlainSeparator(q)
    requires LowestMarker(Scan(a1)).Some? && LowestMarker(Scan(a1)).value <= 1
    ensures Arg(Arg(ThreeMarkerFormat(p, q), a1), a2)
      == Fill(Scan(a1), LowestMarker(Scan(a1)).value, a2) + ThreeMarkerTail(p, q)
  {
    var s1 := Arg(ThreeMarkerFormat(p, q), a1);
    ThreeMarkerFirstArg(p, q, a1);
    SecondArgFillsInsertedMarker(s1, a1, p, q, a2);
  }

  /** The third call, on any text followed by the format's tail: the lowest marker is at most 2, so `%3` survives at the end. */
  lemma ThirdArgLeavesLastMarker(s: string, b: string, p: string, q: string, a3: string)
    requires s == b + ThreeMarkerTail(p, q)
    requires PlainSeparator(p) && PlainSeparator(q)
    ensures var r := Arg(s, a3);
      |r| >= |q| + 2 && r[|r| - |q| - 2..] == q + ['%', '3']
  {
    var t := ThreeMarkerTail(p, q);
    TailHoldsSecondMarker(p, q);
    LowestBeforeTailAtMostTwo(b, p, q);
    var w := LowestMarker(Scan(b + t)).value;
    ArgConcat(b, t, a3, w);
    FillTailKeepsLast(p, q, w, a3);
    EndsWithThrough(Arg(s, a3), Fill(Scan(b), w, a3), Fill(Scan(t), w, a3), q + ['%', '3']);
  }

  /**
   * When the first argument brings a marker numbered 0 or 1, the second
   * call fills that marker instead of `%2`, and the third call fills a
   * marker numbered at most 2: the format's `%3` is never reached and ends
   * the result.
   */
  lemma ThreeMarkerChainStrandsLast(p: string, q: string, a1: string, a2: string, a3: string)
    requires PlainSeparator(p) && PlainSeparator(q)
    requires LowestMarker(Scan(a1)).Some? && LowestMarker(Scan(a1)).value <= 1
    ensures var r := Arg(Arg(Arg(ThreeMarkerFormat(p, q), a1), a2), a3);
      |r| >= |q| + 2 && r[|r| - |q| - 2..] == q + ['%', '3']
  {
    var s2 := Arg(Arg(ThreeMarkerFormat(p, q), a1), a2);
    FirstTwoArgsStrand(p, q, a1, a2);
    ThirdArgLeavesLastMarker(s2, Fill(Scan(a1), LowestMarker(Scan(a1)).value, a2), p, q, a3);
  }
}

=== FILE: QueryBuilder.dfy ===
/**
 * The filter-to-SQL compiler of the back end: an `AcademyScopeParameters`
 * request becomes `FROM <table>[ WHERE c1 AND ... AND cn] ORDER BY <expr> <dir>`.
 *
 * The WHERE list is modelled as a list of structured clauses. The program
 * appends each clause under its own condition, in a fixed order; here every
 * such conditional append is one slot of an eleven-slot list, and the WHERE
 * list is the present slots in order. A clause's rank is the slot it comes
 * from, so rank order is insertion order.
 */
module QueryBuilder {
  import opened Wrappers
  import opened Sequences
  import opened ColumnDefinitions
  import opened DataTypes
  import opened QtArg

  /**
   * Code the compiler calls but that is not part of this model: Turkish
   * upper and title casing, the Turkish-collation ORDER BY wrapper, and the
   * decimal text of a score.
   */
  datatype Collaborators = Collaborators(
    turkishUpperCase: string -> string,
    turkishTitleCase: string -> string,
    trOrderExprFor: string -> string,
    numberText: real -> string)

  /** Whitespace as `QString::trimmed` strips it: the C0 separators, NEL, and the Unicode space separators. */
  predicate IsSpace(ch: char) {
    || ('\U{0009}' <= ch <= '\U{000D}')
    || ch == ' ' || ch == '\U{0085}' || ch == '\U{00A0}' || ch == '\U{1680}'
    || ('\U{2000}' <= ch <= '\U{200A}')
    || ch == '\U{2028}' || ch == '\U{2029}' || ch == '\U{202F}' || ch == '\U{205F}' || ch == '\U{3000}'
  }

  /** `s.trimmed().isEmpty()`. */
  predicate IsBlank(s: string) {
    forall i :: 0 <= i < |s| ==> IsSpace(s[i])
  }

  /** The two quota categories stored as boolean columns rather than as a quota count. */
  datatype QuotaFlag = KKTCUyruklu | MTOK

  function FlagColumn(f: QuotaFlag): string {
    match f
    case KKTCUyruklu => "KKTCUyruklu"
    case MTOK => "MTOK"
  }

  /** A member of the quota OR-group. */
  datatype QuotaMember = NotNull(column: string) | FlagIsTrue(flag: QuotaFlag)

  /** One top-level WHERE clause. Codes are kept as the literal text the program writes. */
  datatype Clause =
    | UniversityNameLike(pattern: string)
    | DepartmentNameLike(pattern: string)
    | CountryCodeIs(code: string)
    | CountryCodeNotIn(codes: seq<string>)
    | DegreeIs(lisans: string)
    | StateUniversityIs(state: string)
    | ScoreTypeIs(scoreType: string)
    | ScoreRange(lower: Option<real>, upper: Option<real>)
    | FlagIsFalse(flag: QuotaFlag)
    | QuotaAnyOf(members: seq<QuotaMember>)
    | TuitionAnyOf(fees: seq<string>)

  datatype OrderClause = OrderBy(expression: string, direction: string)

  datatype CompiledQuery = CompiledQuery(table: string, where: seq<Clause>, order: OrderClause)

  /** The slot a clause comes from, which is its position in the program's append order. */
  function Rank(c: Clause): int {
    match c
    case UniversityNameLike(_) => 0
    case DepartmentNameLike(_) => 1
    case CountryCodeIs(_) => 2
    case CountryCodeNotIn(_) => 2
    case DegreeIs(_) => 3
    case StateUniversityIs(_) => 4
    case ScoreTypeIs(_) => 5
    case ScoreRange(_, _) => 6
    case FlagIsFalse(f) => if f == KKTCUyruklu then 7 else 8
    case QuotaAnyOf(_) => 9
    case TuitionAnyOf(_) => 10
  }

  const SlotCount := 11

  // ---------------------------------------------------------------------
  // The slots, one per conditional append
  // ---------------------------------------------------------------------

  function UniversitySlot(name: string, env: Collaborators): (slot: Option<Clause>)
    ensures slot.Some? ==> Rank(slot.value) == 0
  {
    if IsBlank(name) then None else Some(UniversityNameLike(env.turkishUpperCase(name)))
  }

  function DepartmentSlot(name: string, env: Collaborators): (slot: Option<Clause>)
    ensures slot.Some? ==> Rank(slot.value) == 1
  {
    if IsBlank(name) then None else Some(DepartmentNameLike(env.turkishTitleCase(name)))
  }

  function CountrySlot(country: Country): (slot: Option<Clause>)
    ensures slot.Some? ==> Rank(slot.value) == 2
  {
    match country
    case Turkiye => Some(CountryCodeIs("90"))
    case Cyprus => Some(CountryCodeIs("357"))
    case ForeignCountries => Some(CountryCodeNotIn(["90", "357"]))
    case AllCountries => None
  }

  function DegreeSlot(degree: DegreeType): (slot: Option<Clause>)
    ensures slot.Some? ==> Rank(slot.value) == 3
  {
    match degree
    case Bachelor => Some(DegreeIs("1"))
    case Associate => Some(DegreeIs("0"))
    case All => None
  }

  function UniversityTypeSlot(t: UniversityType): (slot: Option<Clause>)
    ensures slot.Some? ==> Rank(slot.value) == 4
  {
    match t
    case Government => Some(StateUniversityIs("1"))
    case Private => Some(StateUniversityIs("0"))
    case Undefined => None
  }

  function TrackSlot(t: TrackType): (slot: Option<Clause>)
    ensures slot.Some? ==> Rank(slot.value) == 5
  {
    match t
    case Science => Some(ScoreTypeIs("SAY"))
    case EqualWeight => Some(ScoreTypeIs("EA"))
    case Humanities => Some(ScoreTypeIs("SÖZ"))
    case TYT => Some(ScoreTypeIs("TYT"))
    case Language => Some(ScoreTypeIs("DİL"))
    case Undefined => None
  }

  /** An absent bound reads as 0 (`value_or(0)`); only the `Genel*` score columns are constrained. */
  function ScoreSlot(interval: Interval): (slot: Option<Clause>)
    ensures slot.Some? ==> Rank(slot.value) == 6
  {
    var minScore := interval.minimum.GetOr(0.0);
    var maxScore := interval.maximum.GetOr(0.0);
    var lower := if minScore > 100.0 then Some(minScore) else None;
    var upper := if maxScore < 560.0 then Some(maxScore) else None;
    if lower.None? && upper.None? then None else Some(ScoreRange(lower, upper))
  }

  /** Declining the TRNC-nationals quota excludes those programs at top level. */
  function TrncSlot(q: SelectedQuotaTypes): (slot: Option<Clause>)
    ensures slot.Some? ==> Rank(slot.value) == 7
  {
    if q.trncNationalsQuota then None else Some(FlagIsFalse(KKTCUyruklu))
  }

  /** Declining the MTOK quota excludes those programs at top level. */
  function MtokSlot(q: SelectedQuotaTypes): (slot: Option<Clause>)
    ensures slot.Some? ==> Rank(slot.value) == 8
  {
    if q.mtokQuota then None else Some(FlagIsFalse(MTOK))
  }

  /** `[x]` when `b` holds, else nothing: one conditional append. */
  function When<T>(b: bool, x: T): seq<T> {
    if b then [x] else []
  }

  /**
   * The quota OR-group's members, in append order: an `IS NOT NULL` test per
   * selected counted quota and a `= TRUE` test per selected flag quota.
   */
  function QuotaMembers(q: SelectedQuotaTypes): (ms: seq<QuotaMember>)
    ensures NotNull("GenelKontenjan") in ms <==> q.regularQuota
    ensures NotNull("OkulBirincisiKontenjan") in ms <==> q.highSchoolValedictoriansQuota
    ensures NotNull("SehitGaziKontenjan") in ms <==> q.martyrsAndVeteransQuota
    ensures NotNull("DepremzedeKontenjan") in ms <==> q.earthquakeVictimsQuota
    ensures NotNull("Kadin34Kontenjan") in ms <==> q.women34PlusQuota
    ensures FlagIsTrue(KKTCUyruklu) in ms <==> q.trncNationalsQuota
    ensures FlagIsTrue(MTOK) in ms <==> q.mtokQuota
    ensures |ms| == 0 <==> !(q.regularQuota || q.highSchoolValedictoriansQuota || q.martyrsAndVeteransQuota
                             || q.earthquakeVictimsQuota || q.women34PlusQuota || q.trncNationalsQuota || q.mtokQuota)
  {
    CountedMembers(q) + FlagMembers(q)
  }

  /** The `IS NOT NULL` tests, one per selected counted quota. */
  function CountedMembers(q: SelectedQuotaTypes): (ms: seq<QuotaMember>)
    ensures forall x :: x in ms ==> x.NotNull?
    ensures NotNull("GenelKontenjan") in ms <==> q.regularQuota
    ensures NotNull("OkulBirincisiKontenjan") in ms <==> q.highSchoolValedictoriansQuota
    ensures NotNull("SehitGaziKontenjan") in ms <==> q.martyrsAndVeteransQuota
    ensures NotNull("DepremzedeKontenjan") in ms <==> q.earthquakeVictimsQuota
    ensures NotNull("Kadin34Kontenjan") in ms <==> q.women34PlusQuota
    ensures |ms| == 0 <==> !(q.regularQuota || q.highSchoolValedictoriansQuota || q.martyrsAndVeteransQuota
                             || q.earthquakeVictimsQuota || q.women34PlusQuota)
  {
    var front := FrontCountedMembers(q);
    var back := BackCountedMembers(q);
    assert NotNull("GenelKontenjan") !in back && NotNull("OkulBirincisiKontenjan") !in back
      && NotNull("SehitGaziKontenjan") !in back;
    assert NotNull("DepremzedeKontenjan") !in front && NotNull("Kadin34Kontenjan") !in front;
    front + back
  }

  /** The tests of the regular, valedictorian and martyrs-and-veterans quotas. */
  function FrontCountedMembers(q: SelectedQuotaTypes): (ms: seq<QuotaMember>)
    ensures forall x :: x in ms ==> x.NotNull? && |x.column| in {14, 22, 18}
    ensures NotNull("GenelKontenjan") in ms <==> q.regularQuota
    ensures NotNull("OkulBirincisiKontenjan") in ms <==> q.highSchoolValedictoriansQuota
    ensures NotNull("SehitGaziKontenjan") in ms <==> q.martyrsAndVeteransQuota
    ensures |ms| == 0 <==> !(q.regularQuota || q.highSchoolValedictoriansQuota || q.martyrsAndVeteransQuota)
  {
    var ms := When(q.regularQuota, NotNull("GenelKontenjan"))
      + When(q.highSchoolValedictoriansQuota, NotNull("OkulBirincisiKontenjan"))
      + When(q.martyrsAndVeteransQuota, NotNull("SehitGaziKontenjan"));
    assert |ms| > 0 ==> ms[0] in ms;
    ms
  }

  /** The tests of the earthquake-victims and women-over-34 quotas. */
  function BackCountedMembers(q: SelectedQuotaTypes): (ms: seq<QuotaMember>)
    ensures forall x :: x in ms ==> x.NotNull? && |x.column| in {19, 16}
    ensures NotNull("DepremzedeKontenjan") in ms <==> q.earthquakeVictimsQuota
    ensures NotNull("Kadin34Kontenjan") in ms <==> q.women34PlusQuota
    ensures |ms| == 0 <==> !(q.earthquakeVictimsQuota || q.women34PlusQuota)
  {
    When(q.earthquakeVictimsQuota, NotNull("DepremzedeKontenjan")) + When(q.women34PlusQuota, NotNull("Kadin34Kontenjan"))
  }

  /** The `= TRUE` tests, one per selected flag quota. */
  function FlagMembers(q: SelectedQuotaTypes): (ms: seq<QuotaMember>)
    ensures forall x :: x in ms ==> x.FlagIsTrue?
    ensures FlagIsTrue(KKTCUyruklu) in ms <==> q.trncNationalsQuota
    ensures FlagIsTrue(MTOK) in ms <==> q.mtokQuota
    ensures |ms| == 0 <==> !(q.trncNationalsQuota || q.mtokQuota)
  {
    When(q.trncNationalsQuota, FlagIsTrue(KKTCUyruklu)) + When(q.mtokQuota, FlagIsTrue(MTOK))
  }

  /** An empty quota selection adds no group at all. */
  function QuotaSlot(q: SelectedQuotaTypes): (slot: Option<Clause>)
    ensures slot.Some? ==> Rank(slot.value) == 9
  {
    var members := QuotaMembers(q);
    if |members| == 0 then None else Some(QuotaAnyOf(members))
  }

  /** The tuition OR-group's `UcretDurumu` values: 0, 50 and 100 for free, discounted and paid, in that order. */
  function TuitionFees(t: SelectedTuitionFeeTypes): (fees: seq<string>)
    ensures "0" in fees <==> t.free
    ensures "50" in fees <==> t.discounted
    ensures "100" in fees <==> t.paid
    ensures |fees| == 0 <==> !(t.free || t.discounted || t.paid)
  {
    var fees := When(t.free, "0") + When(t.discounted, "50") + When(t.paid, "100");
    assert |fees| > 0 ==> fees[0] in fees;
    fees
  }

  /** An empty tuition selection adds no group at all. */
  function TuitionSlot(t: SelectedTuitionFeeTypes): (slot: Option<Clause>)
    ensures slot.Some? ==> Rank(slot.value) == 10
  {
    var fees := TuitionFees(t);
    if |fees| == 0 then None else Some(TuitionAnyOf(fees))
  }

  /** The slot of rank `i`: what the `i`-th conditional append contributes, if anything. */
  function Slot(p: AcademyScopeParameters, env: Collaborators, i: nat): (slot: Option<Clause>)
    requires i < SlotCount
    ensures slot.Some? ==> Rank(slot.value) == i
  {
    if i == 0 then UniversitySlot(p.universityName, env)
    else if i == 1 then DepartmentSlot(p.departmentName, env)
    else if i == 2 then CountrySlot(p.country)
    else if i == 3 then DegreeSlot(p.degreeType)
    else if i == 4 then UniversityTypeSlot(p.universityType)
    else if i == 5 then TrackSlot(p.trackType)
    else if i == 6 then ScoreSlot(p.scoreInterval)
    else if i == 7 then TrncSlot(p.selectedQuotaTypes)
    else if i == 8 then MtokSlot(p.selectedQuotaTypes)
    else if i == 9 then QuotaSlot(p.selectedQuotaTypes)
    else TuitionSlot(p.selectedTuitionFeeTypes)
  }

  function Slots(p: AcademyScopeParameters, env: Collaborators): seq<Option<Clause>> {
    seq(SlotCount, i requires 0 <= i < SlotCount => Slot(p, env, i))
  }

  function WhereClauses(p: AcademyScopeParameters, env: Collaborators): seq<Clause> {
    Compact(Slots(p, env))
  }

  function Table(placement: PlacementType): string {
    if placement == Additional then "EkTercihDetayli" else "YKS"
  }

  // ---------------------------------------------------------------------
  // Sorting
  // ---------------------------------------------------------------------

  /**
   * `getDbColumnNameFromProgramTableColumnIndex`: the physical column a sort
   * request orders by. Its names are its own, not the catalog's, and the
   * success-rank columns fall through to the empty string.
   */
  function DbColumnName(c: ProgramTableColumn): (name: string)
    ensures name == "" <==> IsRankColumn(c)
  {
    match c
    case ProgramKodu => "ProgramKodu"
    case UniversiteAdi => "UniversiteAdi"
    case FakulteYuksekOkulAdi => "FakulteYuksekokulAdi"
    case ProgramAdi => "ProgramAdi"
    case PuanTuru => "PuanTuru"
    case GenelKontenjan => "GenelKontenjan"
    case GenelYerlesen => "GenelYerlesen"
    case GenelEnKucukPuan => "GenelEnKucukPuan"
    case OkulBirincisiKontenjan => "OkulBirincisiKontenjan"
    case OkulBirincisiYerlesen => "OkulBirincisiYerlesen"
    case OkulBirincisiEnKucukPuan => "OkulBirincisiEnKucukPuan"
    case SehitGaziYakiniKontenjan => "SehitGaziKontenjan"
    case SehitGaziYakiniYerlesen => "SehitGaziYerlesen"
    case SehitGaziYakiniEnKucukPuan => "SehitGaziEnKucukPuan"
    case DepremzedeKontenjan => "DepremzedeKontenjan"
    case DepremzedeYerlesen => "DepremzedeYerlesen"
    case DepremzedeEnKucukPuan => "DepremzedeEnKucukPuan"
    case Kadin34PlusKontenjan => "Kadin34Kontenjan"
    case Kadin34PlusYerlesen => "Kadin34Yerlesen"
    case Kadin34PlusEnKucukPuan => "Kadin34EnKucukPuan"
    case _ => ""
  }

  function OrderFor(o: OrderParameters, env: Collaborators): OrderClause {
    if o.toBeOrdered then
      OrderBy(env.trOrderExprFor(DbColumnName(o.column)), if o.direction == AscendingOrder then "ASC" else "DESC")
    else
      OrderBy("ProgramKodu", "ASC")
  }

  /** The whole compilation: base table, WHERE list, ORDER BY. */
  function Compile(p: AcademyScopeParameters, env: Collaborators): CompiledQuery {
    CompiledQuery(Table(p.placementType), WhereClauses(p, env), OrderFor(p.order, env))
  }

  // ---------------------------------------------------------------------
  // Rendering
  // ---------------------------------------------------------------------

  function RenderMember(m: QuotaMember): string {
    match m
    case NotNull(column) => column + " IS NOT NULL"
    case FlagIsTrue(f) => FlagColumn(f) + " = TRUE"
  }

  function ScoreParts(lower: Option<real>, upper: Option<real>, env: Collaborators): seq<string> {
    (if lower.Some? then ["GenelEnKucukPuan > " + env.numberText(lower.value)] else [])
    + (if upper.Some? then ["GenelEnBuyukPuan < " + env.numberText(upper.value)] else [])
  }

  /** A substring match on `column`: the pattern between two `%` wildcards. */
  function LikeText(column: string, pattern: string): string {
    column + " LIKE '%" + pattern + "%'"
  }

  function RenderClause(c: Clause, env: Collaborators): string {
    match c
    case UniversityNameLike(x) => LikeText("UniversiteAdi", x)
    case DepartmentNameLike(x) => LikeText("ProgramAdi", x)
    case CountryCodeIs(code) => "UlkeKodu = " + code
    case CountryCodeNotIn(codes) => "UlkeKodu NOT IN (" + Join(codes, ", ") + ")"
    case DegreeIs(v) => "Lisans = " + v
    case StateUniversityIs(v) => "DevletUniversitesi = " + v
    case ScoreTypeIs(t) => "PuanTuru = '" + t + "'"
    case ScoreRange(lower, upper) => "(" + Join(ScoreParts(lower, upper, env), " AND ") + ")"
    case FlagIsFalse(f) => FlagColumn(f) + " = FALSE"
    case QuotaAnyOf(ms) => "(" + Join(RenderMembers(ms), " OR ") + ")"
    case TuitionAnyOf(fs) => "(" + Join(RenderFees(fs), " OR ") + ")"
  }

  function RenderMembers(ms: seq<QuotaMember>): (texts: seq<string>)
    ensures |texts| == |ms|
  {
    if |ms| == 0 then [] else [RenderMember(ms[0])] + RenderMembers(ms[1..])
  }

  function RenderFees(fs: seq<string>): (texts: seq<string>)
    ensures |texts| == |fs|
  {
    if |fs| == 0 then [] else ["UcretDurumu = " + fs[0]] + RenderFees(fs[1..])
  }

  function RenderClauses(w: seq<Clause>, env: Collaborators): (texts: seq<string>)
    ensures |texts| == |w|
  {
    if |w| == 0 then [] else [RenderClause(w[0], env)] + RenderClauses(w[1..], env)
  }

  function RenderWhere(w: seq<Clause>, env: Collaborators): string {
    Join(RenderClauses(w, env), " AND ")
  }

  /**
   * The ordering format ` ORDER BY %1 %2`, which the program fills with two
   * chained `arg` calls. It is kept in pieces: as one literal, the verifier
   * evaluates its whole scan inside every proof that mentions it.
   */
  const OrderFormatText := " ORDER BY " + "%1" + " " + "%2"

  /**
   * The ORDER BY part as `buildFilteredSql` builds it: the ordering format
   * filled with the collation expression and then with the direction. It
   * always opens with ` ORDER BY `; it is ` ORDER BY <expr> <dir>` when the
   * expression brings no place marker numbered 2 or lower, since the second
   * call rescans the expression the first one inserted.
   */
  function OrderText(o: OrderClause): (t: string)
    ensures |t| >= 10 && t[..10] == " ORDER BY "
    ensures MarkersAbove(Scan(o.expression), 2) ==> t == " ORDER BY " + o.expression + " " + o.direction
  {
    OrderFormatFilled(o.expression, o.direction);
    ArgChain(OrderFormatText, [o.expression, o.direction])
  }

  function Render(q: CompiledQuery, env: Collaborators): string {
    "FROM " + q.table
    + (if |q.where| == 0 then "" else " WHERE " + RenderWhere(q.where, env))
    + OrderText(q.order)
  }

  /**
   * The collation expression of an ordered request brings no place marker
   * numbered 2 or lower (an unordered request sorts by `ProgramKodu`, which
   * has none).
   */
  predicate PlainOrderExpression(p: AcademyScopeParameters, env: Collaborators) {
    p.order.toBeOrdered ==> MarkersAbove(Scan(env.trOrderExprFor(DbColumnName(p.order.column))), 2)
  }

  /**
   * `buildFilteredSql`: the query reads from `EkTercihDetayli` iff the
   * placement is Additional and from `YKS` iff it is Regular, carries a
   * WHERE part iff some clause applies, and otherwise goes on directly with
   * ` ORDER BY `. When the collation expression brings no low place marker,
   * it ends with ` DESC` for an ordered descending request and with ` ASC`
   * otherwise.
   */
  function BuildFilteredSql(p: AcademyScopeParameters, env: Collaborators): (sql: string)
    ensures FilteredSqlShape(p, env, sql)
  {
    SqlShape(p, env);
    Render(Compile(p, env), env)
  }

  /**
   * What `buildFilteredSql` promises about its text: the table is
   * `EkTercihDetayli` iff the placement is Additional and `YKS` iff it is
   * Regular; ` WHERE ` follows `FROM <table>` iff some clause applies, and
   * ` ORDER BY ` follows it otherwise; with a plain collation expression the
   * text ends in ` DESC` for an ordered descending request and in ` ASC`
   * otherwise.
   */
  predicate FilteredSqlShape(p: AcademyScopeParameters, env: Collaborators, sql: string) {
    var head := "FROM " + Compile(p, env).table;
    && (Compile(p, env).table == "EkTercihDetayli" <==> p.placementType == Additional)
    && (Compile(p, env).table == "YKS" <==> p.placementType == PlacementType.Regular)
    && |sql| >= |head| + 10 && sql[..|head|] == head
    && (|WhereClauses(p, env)| > 0 <==> sql[|head|..][..7] == " WHERE ")
    && (|WhereClauses(p, env)| == 0 ==> sql[|head|..][..10] == " ORDER BY ")
    && (PlainOrderExpression(p, env) ==>
        if p.order.toBeOrdered && p.order.direction == DescendingOrder
        then |sql| >= 5 && sql[|sql| - 5..] == " DESC" else |sql| >= 4 && sql[|sql| - 4..] == " ASC")
  }

  // ---------------------------------------------------------------------
  // Compacted slots: order and lookup by rank
  // ---------------------------------------------------------------------

  /** The first clause of rank `r` in `w`. */
  function ClauseWithRank(w: seq<Clause>, r: int): Option<Clause> {
    if |w| == 0 then None
    else if Rank(w[0]) == r then Some(w[0])
    else ClauseWithRank(w[1..], r)
  }

  /** Slot `i` of `os`, when present, holds a clause of rank `base + i`. */
  predicate SlotsRankedFrom(os: seq<Option<Clause>>, base: int) {
    forall i :: 0 <= i < |os| && os[i].Some? ==> Rank(os[i].value) == base + i
  }

  /** Compacting ranked slots yields strictly increasing ranks, all within the slots' range. */
  lemma {:induction false} CompactedRanksIncrease(os: seq<Option<Clause>>, base: int)
    requires SlotsRankedFrom(os, base)
    ensures forall k :: 0 <= k < |Compact(os)| ==> base <= Rank(Compact(os)[k]) < base + |os|
    ensures forall j, k :: 0 <= j < k < |Compact(os)| ==> Rank(Compact(os)[j]) < Rank(Compact(os)[k])
  {
    if |os| > 0 {
      CompactedRanksIncrease(os[1..], base + 1);
    }
  }

  /** Looking a rank up in the compacted list finds exactly that rank's slot. */
  lemma {:induction false} CompactedLookup(os: seq<Option<Clause>>, base: int, r: int)
    requires SlotsRankedFrom(os, base)
    ensures ClauseWithRank(Compact(os), r) == (if base <= r < base + |os| then os[r - base] else None)
  {
    if |os| > 0 {
      CompactedLookup(os[1..], base + 1, r);
      CompactedRanksIncrease(os[1..], base + 1);
      var rest := Compact(os[1..]);
      if os[0].Some? {
        assert Compact(os) == [os[0].value] + rest;
        assert ([os[0].value] + rest)[1..] == rest;
      }
      if r == base && os[0].None? {
        RankAbsent(rest, r);
      }
    }
  }

  /** A list whose ranks all exceed `r` holds no clause of rank `r`. */
  lemma {:induction false} RankAbsent(w: seq<Clause>, r: int)
    requires forall k :: 0 <= k < |w| ==> Rank(w[k]) > r
    ensures ClauseWithRank(w, r) == None
  {
    if |w| > 0 {
      RankAbsent(w[1..], r);
    }
  }

  lemma SlotsAreRanked(p: AcademyScopeParameters, env: Collaborators)
    ensures |Slots(p, env)| == SlotCount
    ensures SlotsRankedFrom(Slots(p, env), 0)
  {
  }

  // ---------------------------------------------------------------------
  // Properties of the compiled query
  // ---------------------------------------------------------------------

  /**
   * Clauses keep the program's insertion order and each kind appears at
   * most once: ranks strictly increase along the WHERE list.
   */
  lemma WhereClausesInSourceOrder(p: AcademyScopeParameters, env: Collaborators)
    ensures forall j, k :: 0 <= j < k < |WhereClauses(p, env)| ==>
      Rank(WhereClauses(p, env)[j]) < Rank(WhereClauses(p, env)[k])
    ensures forall k :: 0 <= k < |WhereClauses(p, env)| ==> 0 <= Rank(WhereClauses(p, env)[k]) < SlotCount
  {
    SlotsAreRanked(p, env);
    CompactedRanksIncrease(Slots(p, env), 0);
  }

  /** The clause of rank `r` in the WHERE list is exactly what slot `r` decided. */
  lemma WhereClauseOfRank(p: AcademyScopeParameters, env: Collaborators, r: int)
    ensures ClauseWithRank(WhereClauses(p, env), r) == (if 0 <= r < SlotCount then Slot(p, env, r) else None)
  {
    SlotsAreRanked(p, env);
    CompactedLookup(Slots(p, env), 0, r);
  }

  /**
   * Name, country, degree, university-type and track filters add no clause
   * at their "no constraint" value and exactly one clause otherwise; the
   * names are matched as substrings after the Turkish case mapping, and
   * foreign countries are "not Turkey and not Cyprus".
   */
  lemma SimpleFilterClauses(p: AcademyScopeParameters, env: Collaborators)
    ensures var w := WhereClauses(p, env);
      && (ClauseWithRank(w, 0) == None <==> IsBlank(p.universityName))
      && (!IsBlank(p.universityName) ==>
            ClauseWithRank(w, 0) == Some(UniversityNameLike(env.turkishUpperCase(p.universityName))))
      && (ClauseWithRank(w, 1) == None <==> IsBlank(p.departmentName))
      && (!IsBlank(p.departmentName) ==>
            ClauseWithRank(w, 1) == Some(DepartmentNameLike(env.turkishTitleCase(p.departmentName))))
      && (ClauseWithRank(w, 2) == None <==> p.country == AllCountries)
      && (p.country == ForeignCountries ==> ClauseWithRank(w, 2) == Some(CountryCodeNotIn(["90", "357"])))
      && (ClauseWithRank(w, 3) == None <==> p.degreeType == All)
      && (ClauseWithRank(w, 4) == None <==> p.universityType == UniversityType.Undefined)
      && (ClauseWithRank(w, 5) == None <==> p.trackType == TrackType.Undefined)
  {
    WhereClauseOfRank(p, env, 0);
    WhereClauseOfRank(p, env, 1);
    WhereClauseOfRank(p, env, 2);
    WhereClauseOfRank(p, env, 3);
    WhereClauseOfRank(p, env, 4);
    WhereClauseOfRank(p, env, 5);
    assert Slot(p, env, 0) == UniversitySlot(p.universityName, env);
    assert Slot(p, env, 1) == DepartmentSlot(p.departmentName, env);
    assert Slot(p, env, 2) == CountrySlot(p.country);
    assert Slot(p, env, 3) == DegreeSlot(p.degreeType);
    assert Slot(p, env, 4) == UniversityTypeSlot(p.universityType);
    assert Slot(p, env, 5) == TrackSlot(p.trackType);
  }

  /**
   * The score clause: a `GenelEnKucukPuan > min` part iff the minimum (0
   * when absent) exceeds 100, a `GenelEnBuyukPuan < max` part iff the
   * maximum (0 when absent) is below 560, both in one parenthesised clause,
   * AND-joined when both appear, and no clause when neither does.
   */
  lemma ScoreClause(p: AcademyScopeParameters, env: Collaborators)
    ensures var w := WhereClauses(p, env);
      var minScore := p.scoreInterval.minimum.GetOr(0.0);
      var maxScore := p.scoreInterval.maximum.GetOr(0.0);
      && (ClauseWithRank(w, 6).Some? <==> minScore > 100.0 || maxScore < 560.0)
      && (ClauseWithRank(w, 6).Some? ==>
            var c := ClauseWithRank(w, 6).value;
            && c.ScoreRange?
            && (c.lower.Some? <==> minScore > 100.0)
            && (c.upper.Some? <==> maxScore < 560.0)
            && (c.lower.Some? ==> c.lower.value == minScore)
            && (c.upper.Some? ==> c.upper.value == maxScore))
      && (minScore > 100.0 && maxScore < 560.0 ==>
            RenderClause(ClauseWithRank(w, 6).value, env)
            == "(" + (("GenelEnKucukPuan > " + env.numberText(minScore)) + " AND "
                      + ("GenelEnBuyukPuan < " + env.numberText(maxScore))) + ")")
  {
    WhereClauseOfRank(p, env, 6);
    assert Slot(p, env, 6) == ScoreSlot(p.scoreInterval);
    ScoreRangeText(p.scoreInterval.minimum.GetOr(0.0), p.scoreInterval.maximum.GetOr(0.0), env);
  }

  /** A two-sided score range renders as both comparisons AND-joined inside parentheses. */
  lemma ScoreRangeText(lo: real, hi: real, env: Collaborators)
    ensures RenderClause(ScoreRange(Some(lo), Some(hi)), env)
      == "(" + (("GenelEnKucukPuan > " + env.numberText(lo)) + " AND " + ("GenelEnBuyukPuan < " + env.numberText(hi))) + ")"
  {
    var lower := "GenelEnKucukPuan > " + env.numberText(lo);
    var upper := "GenelEnBuyukPuan < " + env.numberText(hi);
    assert ScoreParts(Some(lo), Some(hi), env) == [lower, upper];
    JoinPair(lower, upper, " AND ");
  }

  /** Where the interval is unconstrained: exactly a minimum of at most 100 and a maximum of at least 560. */
  lemma ScoreBoundaries(lo: real, hi: real)
    ensures ScoreSlot(Interval(Some(lo), Some(hi))) == None <==> lo <= 100.0 && hi >= 560.0
    ensures ScoreSlot(DefaultInterval) == None
    ensures ScoreSlot(Interval(Some(lo), None)) == Some(ScoreRange(if lo > 100.0 then Some(lo) else None, Some(0.0)))
  {
  }

  /**
   * TRNC and MTOK each contribute exactly one item: a `= TRUE` member of the
   * quota OR-group when selected, or a top-level `= FALSE` clause when not.
   */
  lemma FlagQuotasContributeOnce(p: AcademyScopeParameters, env: Collaborators)
    ensures var q := p.selectedQuotaTypes;
      var w := WhereClauses(p, env);
      && (FlagIsTrue(KKTCUyruklu) in QuotaMembers(q) <==> ClauseWithRank(w, 7) == None)
      && (ClauseWithRank(w, 7) == None || ClauseWithRank(w, 7) == Some(FlagIsFalse(KKTCUyruklu)))
      && (ClauseWithRank(w, 7) == None <==> q.trncNationalsQuota)
      && (FlagIsTrue(MTOK) in QuotaMembers(q) <==> ClauseWithRank(w, 8) == None)
      && (ClauseWithRank(w, 8) == None || ClauseWithRank(w, 8) == Some(FlagIsFalse(MTOK)))
      && (ClauseWithRank(w, 8) == None <==> q.mtokQuota)
  {
    WhereClauseOfRank(p, env, 7);
    WhereClauseOfRank(p, env, 8);
    assert Slot(p, env, 7) == TrncSlot(p.selectedQuotaTypes);
    assert Slot(p, env, 8) == MtokSlot(p.selectedQuotaTypes);
  }

  /**
   * The quota OR-group is added iff at least one of the seven toggles is on,
   * and the tuition OR-group iff at least one of free/discounted/paid is on.
   * An empty selection adds nothing rather than a predicate no row meets.
   */
  lemma GroupClauses(p: AcademyScopeParameters, env: Collaborators)
    ensures var q := p.selectedQuotaTypes;
      var t := p.selectedTuitionFeeTypes;
      var w := WhereClauses(p, env);
      && (ClauseWithRank(w, 9).Some? <==>
            q.regularQuota || q.highSchoolValedictoriansQuota || q.martyrsAndVeteransQuota
            || q.earthquakeVictimsQuota || q.women34PlusQuota || q.trncNationalsQuota || q.mtokQuota)
      && (ClauseWithRank(w, 9).Some? ==> ClauseWithRank(w, 9) == Some(QuotaAnyOf(QuotaMembers(q))))
      && (ClauseWithRank(w, 10).Some? <==> t.free || t.discounted || t.paid)
      && (ClauseWithRank(w, 10).Some? ==> ClauseWithRank(w, 10) == Some(TuitionAnyOf(TuitionFees(t))))
  {
    WhereClauseOfRank(p, env, 9);
    WhereClauseOfRank(p, env, 10);
    assert Slot(p, env, 9) == QuotaSlot(p.selectedQuotaTypes);
    assert Slot(p, env, 10) == TuitionSlot(p.selectedTuitionFeeTypes);
  }

  /** The per-category intervals of the request are never read. */
  lemma CategoryIntervalsAreIgnored(p: AcademyScopeParameters, i1: Interval, i2: Interval, i3: Interval,
                                    i4: Interval, i5: Interval, i6: Interval, env: Collaborators)
    ensures BuildFilteredSql(p, env) == BuildFilteredSql(p.(regularQuotaInterval := i1,
      highSchoolValedictoriansQuotaInterval := i2, women34PlusQuotaInterval := i3,
      earthquakeVictimsQuotaInterval := i4, martyrsAndVeteransQuotaInterval := i5,
      trncNationalsQuotaInterval := i6), env)
  {
    var p' := p.(regularQuotaInterval := i1,
      highSchoolValedictoriansQuotaInterval := i2, women34PlusQuotaInterval := i3,
      earthquakeVictimsQuotaInterval := i4, martyrsAndVeteransQuotaInterval := i5,
      trncNationalsQuotaInterval := i6);
    assert forall i | 0 <= i < SlotCount :: Slot(p, env, i) == Slot(p', env, i);
    assert Slots(p, env) == Slots(p', env);
  }

  /**
   * Rendered text is `FROM <table>`, then ` WHERE ...` exactly when the
   * clause list is non-empty, otherwise directly ` ORDER BY ...`; when the
   * collation expression brings no low place marker it ends with a space
   * and the direction.
   */
  lemma RenderShape(q: CompiledQuery, env: Collaborators)
    ensures var sql := Render(q, env);
      var head := "FROM " + q.table;
      && |sql| >= |head| + 10
      && sql[..|head|] == head
      && (|q.where| > 0 <==> sql[|head|..][..7] == " WHERE ")
      && (|q.where| == 0 ==> sql[|head|..][..10] == " ORDER BY ")
      && (MarkersAbove(Scan(q.order.expression), 2) ==>
          |sql| > |q.order.direction| && sql[|sql| - |q.order.direction| - 1..] == " " + q.order.direction)
  {
    var middle := if |q.where| == 0 then "" else " WHERE " + RenderWhere(q.where, env);
    var tail := OrderText(q.order);
    TextStartsWithHead("FROM " + q.table, middle, tail);
    TextWherePart("FROM " + q.table, middle, tail);
    if MarkersAbove(Scan(q.order.expression), 2) {
      TextEndsWithDirection("FROM " + q.table + middle, q.order.expression, q.order.direction);
    }
  }

  lemma TextStartsWithHead(head: string, middle: string, tail: string)
    ensures (head + middle + tail)[..|head|] == head
  {
    assert head + middle + tail == head + (middle + tail);
  }

  /** After the head comes ` WHERE ` when the middle part is present and ` ORDER BY ` when it is empty. */
  lemma TextWherePart(head: string, middle: string, tail: string)
    requires middle == "" || (|middle| >= 7 && middle[..7] == " WHERE ")
    requires |tail| >= 10 && tail[..10] == " ORDER BY "
    ensures var sql := head + middle + tail;
      && |sql| >= |head| + 10
      && (middle != "" <==> sql[|head|..][..7] == " WHERE ")
      && (middle == "" ==> sql[|head|..][..10] == " ORDER BY ")
  {
    var sql := head + middle + tail;
    assert sql == head + (middle + tail);
    var rest := sql[|head|..];
    assert rest == middle + tail;
    if middle == "" {
      assert rest == tail;
      assert rest[1] == tail[..10][1] == 'O';
    } else {
      assert rest[..7] == middle[..7];
    }
  }

  lemma TextEndsWithDirection(front: string, expression: string, direction: string)
    ensures var sql := front + (" ORDER BY " + expression + " " + direction);
      sql[|sql| - |direction| - 1..] == " " + direction
  {
    assert front + (" ORDER BY " + expression + " " + direction)
        == (front + " ORDER BY " + expression) + (" " + direction);
  }

  /** The shape of the rendered compiled query, as `BuildFilteredSql` promises it. */
  lemma SqlShape(p: AcademyScopeParameters, env: Collaborators)
    ensures FilteredSqlShape(p, env, Render(Compile(p, env), env))
  {
    var q := Compile(p, env);
    CompiledParts(p, env);
    RenderShape(q, env);
    if PlainOrderExpression(p, env) {
      DirectionSuffix(Render(q, env), q.order.direction);
    }
  }

  /** A text ending in a space and `ASC` or `DESC` ends in ` ASC` or ` DESC`. */
  lemma DirectionSuffix(sql: string, direction: string)
    requires |sql| > |direction| && sql[|sql| - |direction| - 1..] == " " + direction
    ensures direction == "DESC" ==> |sql| >= 5 && sql[|sql| - 5..] == " DESC"
    ensures direction == "ASC" ==> |sql| >= 4 && sql[|sql| - 4..] == " ASC"
  {
    if direction == "DESC" {
      assert |direction| == 4 && " " + direction == " DESC";
    } else if direction == "ASC" {
      assert |direction| == 3 && " " + direction == " ASC";
    }
  }

  /** The base table and ORDER BY direction the compilation picks. */
  lemma CompiledParts(p: AcademyScopeParameters, env: Collaborators)
    ensures var q := Compile(p, env);
      && (q.table == "EkTercihDetayli" <==> p.placementType == Additional)
      && (q.table == "YKS" <==> p.placementType == PlacementType.Regular)
      && q.order.direction == (if p.order.toBeOrdered && p.order.direction == DescendingOrder then "DESC" else "ASC")
      && (PlainOrderExpression(p, env) ==> MarkersAbove(Scan(q.order.expression), 2))
  {
    NoMarkerWithoutPercent("ProgramKodu", 2);
  }

  /**
   * The ordering format filled by two chained `arg` calls opens with
   * ` ORDER BY ` whatever the expression holds, and is
   * ` ORDER BY <expr> <dir>` when the expression brings no place marker
   * numbered 2 or lower.
   */
  lemma OrderFormatFilled(expression: string, direction: string)
    ensures var t := ArgChain(OrderFormatText, [expression, direction]);
      && |t| >= 10 && t[..10] == " ORDER BY "
      && (MarkersAbove(Scan(expression), 2) ==> t == " ORDER BY " + expression + " " + direction)
  {
    ArgChainOfTwo(OrderFormatText, expression, direction);
    OrderFormatOpens(expression, direction);
    if MarkersAbove(Scan(expression), 2) {
      OrderFormat(expression, direction);
    }
  }

  /** Whatever the expression holds, the filled ordering format opens with ` ORDER BY `. */
  lemma OrderFormatOpens(expression: string, direction: string)
    ensures var t := Arg(Arg(OrderFormatText, expression), direction);
      |t| >= 10 && t[..10] == " ORDER BY "
  {
    assert OrderFormatText == " ORDER BY " + ['%', '1'] + " " + ['%', '2'];
    FirstOfTwoMarkers(OrderFormatText, " ORDER BY ", " ", expression);
    assert " ORDER BY " + expression + " " + ['%', '2'] == " ORDER BY " + (expression + " " + ['%', '2']);
    ArgKeepsPlainFront(" ORDER BY ", expression + " " + ['%', '2'], direction);
  }

  /**
   * The ordering format, filled with an expression that brings no place
   * marker numbered 2 or lower and then with the direction, is
   * ` ORDER BY <expr> <dir>`.
   */
  lemma OrderFormat(expression: string, direction: string)
    requires MarkersAbove(Scan(expression), 2)
    ensures Arg(Arg(OrderFormatText, expression), direction) == " ORDER BY " + expression + " " + direction
  {
    assert OrderFormatText == " ORDER BY " + ['%', '1'] + " " + ['%', '2'];
    TwoMarkersInOrder(OrderFormatText, " ORDER BY ", " ", expression, direction);
  }

  /**
   * When sorting is off the order is `ProgramKodu ASC`; otherwise the
   * mapped column, wrapped in the Turkish-collation expression, with ASC or
   * DESC from the direction.
   */
  lemma OrderClauseChoice(p: AcademyScopeParameters, env: Collaborators)
    ensures !p.order.toBeOrdered ==> Compile(p, env).order == OrderBy("ProgramKodu", "ASC")
    ensures p.order.toBeOrdered ==>
      && Compile(p, env).order.expression == env.trOrderExprFor(DbColumnName(p.order.column))
      && (Compile(p, env).order.direction == "ASC" <==> p.order.direction == AscendingOrder)
      && (Compile(p, env).order.direction == "DESC" <==> p.order.direction == DescendingOrder)
  {
  }

  /**
   * The sort mapping and the catalog disagree on physical names: they
   * coincide except for the rank columns (empty here), the campus column
   * and the martyrs-and-veterans group (`SehitGazi*` here,
   * `SehitGaziYakini*` in the catalog).
   */
  lemma SortNamesVersusCatalog(c: ProgramTableColumn)
    ensures DbColumnName(c) == Lookup(c).dbName <==>
      !(IsRankColumn(c) || c == FakulteYuksekOkulAdi || Category(c) == MartyrsAndVeterans)
  {
    match c
    case ProgramKodu =>
    case UniversiteAdi =>
    case FakulteYuksekOkulAdi =>
    case ProgramAdi =>
    case PuanTuru =>
    case GenelKontenjan =>
    case GenelYerlesen =>
    case GenelBasariSirasi =>
    case GenelEnKucukPuan =>
    case OkulBirincisiKontenjan =>
    case OkulBirincisiYerlesen =>
    case OkulBirincisiBasariSirasi =>
    case OkulBirincisiEnKucukPuan =>
    case SehitGaziYakiniKontenjan =>
    case SehitGaziYakiniYerlesen =>
    case SehitGaziYakiniBasariSirasi =>
    case SehitGaziYakiniEnKucukPuan =>
    case DepremzedeKontenjan =>
    case DepremzedeYerlesen =>
    case DepremzedeBasariSirasi =>
    case DepremzedeEnKucukPuan =>
    case Kadin34PlusKontenjan =>
    case Kadin34PlusYerlesen =>
    case Kadin34PlusBasariSirasi =>
    case Kadin34PlusEnKucukPuan =>
  }

  /**
   * A default request for all countries keeps only the TRNC and MTOK
   * exclusions, the regular-quota group and the all-tuition group.
   */
  lemma DefaultWhereClauses(sortColumn: ProgramTableColumn, env: Collaborators)
    ensures WhereClauses(DefaultParameters(AllCountries, sortColumn), env) == DefaultClauses
  {
    var os := Slots(DefaultParameters(AllCountries, sortColumn), env);
    DefaultSlots(sortColumn, env);
    CompactSkipsNone(os, 7);
    DefaultTailCompacts();
  }

  const DefaultClauses := [FlagIsFalse(KKTCUyruklu), FlagIsFalse(MTOK), QuotaAnyOf([NotNull("GenelKontenjan")]),
                           TuitionAnyOf(["0", "50", "100"])]

  const DefaultTail := [Some(FlagIsFalse(KKTCUyruklu)), Some(FlagIsFalse(MTOK)),
                        Some(QuotaAnyOf([NotNull("GenelKontenjan")])), Some(TuitionAnyOf(["0", "50", "100"]))]

  lemma DefaultTailCompacts()
    ensures Compact(DefaultTail) == DefaultClauses
  {
  }

  /** The slots of a default request: the first seven are empty. */
  lemma DefaultSlots(sortColumn: ProgramTableColumn, env: Collaborators)
    ensures var os := Slots(DefaultParameters(AllCountries, sortColumn), env);
      && (forall i :: 0 <= i < 7 ==> os[i].None?)
      && os[7..] == DefaultTail
  {
    DefaultGroups();
  }

  /** The default selection keeps the regular quota group and all three tuition kinds. */
  lemma DefaultGroups()
    ensures QuotaSlot(DefaultQuotaTypes) == Some(QuotaAnyOf([NotNull("GenelKontenjan")]))
    ensures TuitionSlot(DefaultTuitionFeeTypes) == Some(TuitionAnyOf(["0", "50", "100"]))
  {
    assert CountedMembers(DefaultQuotaTypes) == [NotNull("GenelKontenjan")];
    assert FlagMembers(DefaultQuotaTypes) == [];
    assert QuotaMembers(DefaultQuotaTypes) == [NotNull("GenelKontenjan")] + [];
    assert [NotNull("GenelKontenjan")] + [] == [NotNull("GenelKontenjan")];
    assert TuitionFees(DefaultTuitionFeeTypes) == ["0", "50", "100"];
  }

  /**
   * A default request for all countries compiles to a query on the regular
   * table that only excludes TRNC and MTOK programs, keeps programs with a
   * regular quota, accepts every tuition kind, and sorts by program code.
   */
  lemma DefaultParametersQuery(sortColumn: ProgramTableColumn, env: Collaborators)
    ensures Compile(DefaultParameters(AllCountries, sortColumn), env)
      == CompiledQuery("YKS", DefaultClauses, OrderBy("ProgramKodu", "ASC"))
  {
    DefaultWhereClauses(sortColumn, env);
  }

  /** The WHERE text of the default request, piece by piece. */
  lemma DefaultWhereText(env: Collaborators)
    ensures var trnc := "KKTCUyruklu" + " = FALSE";
      var mtok := "MTOK" + " = FALSE";
      var quota := "(" + "GenelKontenjan" + " IS NOT NULL" + ")";
      var tuition := "(" + ("UcretDurumu = " + "0") + " OR " + ("UcretDurumu = " + "50") + " OR " + ("UcretDurumu = " + "100") + ")";
      RenderWhere(DefaultClauses, env) == trnc + " AND " + (mtok + " AND " + (quota + " AND " + tuition))
  {
    var a := "KKTCUyruklu" + " = FALSE";
    var b := "MTOK" + " = FALSE";
    var c := "(" + "GenelKontenjan" + " IS NOT NULL" + ")";
    var d := "(" + ("UcretDurumu = " + "0") + " OR " + ("UcretDurumu = " + "50") + " OR " + ("UcretDurumu = " + "100") + ")";
    DefaultClauseTexts(env);
    JoinPair(c, d, " AND ");
    JoinCons(b, [c, d], " AND ");
    assert [b] + [c, d] == [b, c, d];
    JoinCons(a, [b, c, d], " AND ");
    assert [a] + [b, c, d] == [a, b, c, d];
  }

  lemma DefaultClauseTexts(env: Collaborators)
    ensures RenderClauses(DefaultClauses, env)
      == ["KKTCUyruklu" + " = FALSE", "MTOK" + " = FALSE", "(" + "GenelKontenjan" + " IS NOT NULL" + ")",
          "(" + ("UcretDurumu = " + "0") + " OR " + ("UcretDurumu = " + "50") + " OR " + ("UcretDurumu = " + "100") + ")"]
  {
    var w := DefaultClauses;
    assert RenderClause(w[3], env)
      == "(" + ("UcretDurumu = " + "0") + " OR " + ("UcretDurumu = " + "50") + " OR " + ("UcretDurumu = " + "100") + ")" by {
      assert RenderFees(["0", "50", "100"]) == ["UcretDurumu = " + "0", "UcretDurumu = " + "50", "UcretDurumu = " + "100"];
      JoinPair("UcretDurumu = " + "50", "UcretDurumu = " + "100", " OR ");
      JoinCons("UcretDurumu = " + "0", ["UcretDurumu = " + "50", "UcretDurumu = " + "100"], " OR ");
    }
    assert RenderClause(w[2], env) == "(" + "GenelKontenjan" + " IS NOT NULL" + ")" by {
      assert RenderMembers([NotNull("GenelKontenjan")]) == ["GenelKontenjan" + " IS NOT NULL"];
    }
    assert w[3..][1..] == [];
    assert RenderClauses(w[3..], env) == [RenderClause(w[3], env)];
    assert w[2..][1..] == w[3..];
    assert RenderClauses(w[2..], env) == [RenderClause(w[2], env), RenderClause(w[3], env)];
    assert w[1..][1..] == w[2..];
    assert RenderClauses(w[1..], env) == [RenderClause(w[1], env), RenderClause(w[2], env), RenderClause(w[3], env)];
  }
}

=== FILE: RowCache.dfy ===
/**
 * The windowed row cache behind the program table (`AcademyScopeModel`).
 *
 * The model keeps one slot per result row. A slot is either empty (the row
 * is not loaded) or holds exactly `columnCount` cells. Loading a window
 * fetches the rows of one contiguous range with `LIMIT`/`OFFSET`, writes
 * them into their slots and empties every slot outside the range, so at
 * most one window is materialised at a time.
 *
 * The database is a set of plain inputs: whether it is open, and what the
 * COUNT query, the one-row probe and a row fetch return for a given SQL
 * text (`None` when the query fails).
 */
module RowCache {
  import opened Wrappers
  import opened DataTypes
  import opened Sequences
  import opened QtArg

  /** A value as the database returns it: SQL NULL or a displayable value. */
  datatype Cell = Null | Value(text: string)

  type Row = seq<Cell>

  /** What a NULL or missing value is shown as: an em dash. */
  const Placeholder := "—"

  datatype Database = Database(
    isOpen: bool,
    count: string -> Option<nat>,
    probeWidth: string -> Option<nat>,
    select: string -> Option<seq<Row>>)

  datatype TableModel = TableModel(
    baseQuery: string,
    countQuery: string,
    modelData: seq<Row>,
    dataWindow: DataWindow)

  /** A freshly constructed model. */
  const InitialModel := TableModel("", "", [], DefaultDataWindow)

  function Max(a: int, b: int): int { if a < b then b else a }

  function Min(a: int, b: int): int { if a < b then a else b }

  predicate Unloaded(r: Row) {
    |r| == 0
  }

  predicate LoadedRow(r: Row, width: int) {
    |r| == width && forall j :: 0 <= j < |r| ==> r[j].Value?
  }

  /**
   * What every operation keeps: one slot per counted row, each slot empty or
   * a full row of non-NULL cells, and a requested window whose bounds the
   * load can use without leaving the slot list.
   */
  predicate Valid(m: TableModel) {
    && m.dataWindow.tableRowCount == |m.modelData|
    && m.dataWindow.columnCount >= 0
    && (forall i :: 0 <= i < |m.modelData| ==>
          Unloaded(m.modelData[i]) || LoadedRow(m.modelData[i], m.dataWindow.columnCount))
    && 0 <= m.dataWindow.beginningIndex <= m.dataWindow.tableRowCount
    && m.dataWindow.endingIndex >= -1
  }

  // ---------------------------------------------------------------------
  // Loading a window
  // ---------------------------------------------------------------------

  /** Cell `j` of a stored row: the fetched value, or the placeholder for a NULL or missing one. */
  function NormalizedCell(record: Row, j: nat): (c: Cell)
    ensures c.Value?
    ensures c == Value(Placeholder) <==> j >= |record| || record[j].Null? || record[j] == Value(Placeholder)
  {
    if j < |record| && record[j].Value? then record[j] else Value(Placeholder)
  }

  /** A fetched record as it is stored: exactly `width` cells, none of them NULL. */
  function NormalizedRow(record: Row, width: nat): (r: Row)
    ensures LoadedRow(r, width)
  {
    seq(width, j requires 0 <= j < width => NormalizedCell(record, j))
  }

  /** Builds a stored row cell by cell, as the fetch loop does. */
  method BuildRow(record: Row, width: nat) returns (row: Row)
    ensures row == NormalizedRow(record, width)
  {
    row := [];
    var j := 0;
    while j < width
      invariant 0 <= j <= width
      invariant |row| == j
      invariant forall k :: 0 <= k < j ==> row[k] == NormalizedCell(record, k)
    {
      row := row + [NormalizedCell(record, j)];
      j := j + 1;
    }
  }

  /** The fetch text for `count` rows from `offset` on: `<base> LIMIT <count> OFFSET <offset>`. */
  function FetchQuery(base: string, count: int, offset: int): (q: string)
    ensures |q| > |base| && q[..|base|] == base
  {
    base + " LIMIT " + IntText(count) + " OFFSET " + IntText(offset)
  }

  /**
   * The fetch text as `loadRows` actually builds it: three chained `arg`
   * calls on `"%1 LIMIT %2 OFFSET %3"`. Each call rescans everything the
   * previous one inserted, so a place marker inside the base query takes
   * part in the later substitutions. Without a marker numbered 3 or lower
   * in the base query the result is the intended fetch text; with a marker
   * numbered 0 or 1 it ends in ` OFFSET %3` and is not.
   */
  function FetchQueryAsWritten(base: string, count: int, offset: int): (q: string)
    ensures MarkersAbove(Scan(base), 3) ==> q == FetchQuery(base, count, offset)
    ensures LowestMarker(Scan(base)).Some? && LowestMarker(Scan(base)).value <= 1 ==>
      |q| >= 10 && q[|q| - 10..] == " OFFSET %3" && q != FetchQuery(base, count, offset)
  {
    ChainFacts(base, count, offset);
    ArgChain(ThreeMarkerFormat(" LIMIT ", " OFFSET "), [base, IntText(count), IntText(offset)])
  }

  /** The chained text in both cases `FetchQueryAsWritten` distinguishes. */
  lemma ChainFacts(base: string, count: int, offset: int)
    ensures var q := ArgChain(ThreeMarkerFormat(" LIMIT ", " OFFSET "), [base, IntText(count), IntText(offset)]);
      && (MarkersAbove(Scan(base), 3) ==> q == FetchQuery(base, count, offset))
      && (LowestMarker(Scan(base)).Some? && LowestMarker(Scan(base)).value <= 1 ==>
          |q| >= 10 && q[|q| - 10..] == " OFFSET %3" && q != FetchQuery(base, count, offset))
  {
    if MarkersAbove(Scan(base), 3) {
      ChainAgrees(base, count, offset);
    }
    if LowestMarker(Scan(base)).Some? && LowestMarker(Scan(base)).value <= 1 {
      ChainKeepsOffsetMarker(base, count, offset);
    }
  }

  lemma FetchSeparatorsArePlain()
    ensures PlainSeparator(" LIMIT ") && PlainSeparator(" OFFSET ")
    ensures ThreeMarkerFormat(" LIMIT ", " OFFSET ") == "%1 LIMIT %2 OFFSET %3"
  {
  }

  /** Without a marker numbered 3 or lower in the base query, the chain builds the intended text. */
  lemma ChainAgrees(base: string, count: int, offset: int)
    requires MarkersAbove(Scan(base), 3)
    ensures ArgChain(ThreeMarkerFormat(" LIMIT ", " OFFSET "), [base, IntText(count), IntText(offset)])
      == FetchQuery(base, count, offset)
  {
    FetchSeparatorsArePlain();
    ArgChainOfThree(ThreeMarkerFormat(" LIMIT ", " OFFSET "), base, IntText(count), IntText(offset));
    ThreeMarkerChainInOrder(" LIMIT ", " OFFSET ", base, IntText(count), IntText(offset));
  }

  /**
   * The intended fetch text ends with ` OFFSET ` and the decimal digits of
   * the offset, which read back as the offset, and it carries no `%`
   * before its last character.
   */
  lemma FetchQueryEndsWithOffset(base: string, count: int, offset: nat)
    ensures var q := FetchQuery(base, count, offset);
      var t := NatText(offset);
      && |q| >= |t| + 8 && q[|q| - |t| - 8..] == " OFFSET " + t
      && DecimalValue(t) == offset
      && q[|q| - 2] != '%'
  {
    NatTextRoundTrip(offset);
    var t := NatText(offset);
    var q := FetchQuery(base, count, offset);
    var head := base + " LIMIT " + IntText(count);
    assert IntText(offset) == t;
    AppendAssociates(head, " OFFSET ", t);
    EndsWithSuffix(head, " OFFSET " + t);
    NextToLastOf(q, head + " OFFSET ", t);
  }

  /** A text whose next-to-last character is `%` is no intended fetch text. */
  lemma PercentBeforeEndIsNoFetch(r: string, base: string, count: int, offset: int)
    requires |r| >= 2 && r[|r| - 2] == '%'
    ensures r != FetchQuery(base, count, offset)
  {
    var t := IntText(offset);
    var head := base + " LIMIT " + IntText(count) + " OFFSET ";
    NextToLastOf(FetchQuery(base, count, offset), head, t);
  }

  /** The next-to-last character of `head + t`, for a non-empty `t`, comes from `t` or is the last of `head`. */
  lemma NextToLastOf(s: string, head: string, t: string)
    requires s == head + t && |t| > 0 && |head| > 0
    ensures |s| >= 2
    ensures s[|s| - 2] == if |t| >= 2 then t[|t| - 2] else head[|head| - 1]
  {
  }

  /**
   * With a marker numbered 0 or 1 in the base query, the second call
   * substitutes the row count into the base query instead of after
   * `LIMIT`, and the third call never reaches the format's `%3`: the text
   * sent to the database ends in `OFFSET %3`, which is not the intended
   * fetch.
   */
  lemma ChainKeepsOffsetMarker(base: string, count: int, offset: int)
    requires LowestMarker(Scan(base)).Some? && LowestMarker(Scan(base)).value <= 1
    ensures var q := ArgChain(ThreeMarkerFormat(" LIMIT ", " OFFSET "), [base, IntText(count), IntText(offset)]);
      && |q| >= 10 && q[|q| - 10..] == " OFFSET %3"
      && q != FetchQuery(base, count, offset)
  {
    var q := ArgChain(ThreeMarkerFormat(" LIMIT ", " OFFSET "), [base, IntText(count), IntText(offset)]);
    FetchSeparatorsArePlain();
    ArgChainOfThree(ThreeMarkerFormat(" LIMIT ", " OFFSET "), base, IntText(count), IntText(offset));
    ThreeMarkerChainStrandsLast(" LIMIT ", " OFFSET ", base, IntText(count), IntText(offset));
    assert q[|q| - 10..] == " OFFSET " + ['%', '3'] == " OFFSET %3";
    assert q[|q| - 2] == q[|q| - 10..][8];
    PercentBeforeEndIsNoFetch(q, base, count, offset);
  }

  /** The first row to load: the requested start, raised to 0. */
  function FirstRow(start: int): int {
    Max(0, start)
  }

  /** The last row to load: the requested end, lowered to the last counted row. */
  function LastRow(m: TableModel, end: int): int {
    Min(m.dataWindow.tableRowCount - 1, end)
  }

  /**
   * The rows a load of `[start, end]` fetches, if it gets as far as
   * fetching: nothing from a closed database or with no base query, and,
   * when the base query carries no place marker numbered 3 or lower, the
   * answer to `<base> LIMIT <count> OFFSET <start>` for the clamped range.
   */
  function Fetch(m: TableModel, db: Database, start: int, end: int): (r: Option<seq<Row>>)
    ensures !db.isOpen || |m.baseQuery| == 0 ==> r.None?
    ensures db.isOpen && |m.baseQuery| > 0 && MarkersAbove(Scan(m.baseQuery), 3) ==>
      r == db.select(FetchQuery(m.baseQuery, LastRow(m, end) - FirstRow(start) + 1, FirstRow(start)))
  {
    if !db.isOpen || |m.baseQuery| == 0 then None
    else
      var s := FirstRow(start);
      var e := LastRow(m, end);
      db.select(FetchQueryAsWritten(m.baseQuery, e - s + 1, s))
  }

  /**
   * What the load needs to stay inside the slot list once its query has
   * succeeded: the clamped start is at most the row count (the slots before
   * it are emptied) and the end is at least -1 (the slots after it are
   * emptied).
   */
  predicate LoadInBounds(m: TableModel, db: Database, start: int, end: int) {
    Fetch(m, db, start, end).Some? ==> start <= m.dataWindow.tableRowCount && end >= -1
  }

  /**
   * With a place marker numbered 0 or 1 in the base query, every load on
   * an open database sends a text that ends in ` OFFSET %3` and is not the
   * intended fetch.
   */
  lemma LowMarkerStrandsLoad(m: TableModel, db: Database, start: int, end: int)
    requires db.isOpen
    requires LowestMarker(Scan(m.baseQuery)).Some? && LowestMarker(Scan(m.baseQuery)).value <= 1
    ensures var count := LastRow(m, end) - FirstRow(start) + 1;
      var q := FetchQueryAsWritten(m.baseQuery, count, FirstRow(start));
      && Fetch(m, db, start, end) == db.select(q)
      && |q| >= 10 && q[|q| - 10..] == " OFFSET %3"
      && q != FetchQuery(m.baseQuery, count, FirstRow(start))
  {
  }

  /** Slot `i` after a successful load of `records` into `[s, e]`. */
  function SlotAfterLoad(old_: Row, records: seq<Row>, s: int, e: int, width: nat, i: int): Row {
    if s <= i <= e then
      (if i - s < |records| then NormalizedRow(records[i - s], width) else old_)
    else []
  }

  /**
   * `loadRows`: the model after loading rows `[start, end]`. A closed
   * database, an empty base query or a failed fetch leave the model as it
   * was. Otherwise the k-th fetched record fills slot `s + k` while that
   * stays within `[s, e]`; a slot of the range with no record keeps what it
   * had; every slot outside the range is emptied.
   */
  function LoadRowsSpec(m: TableModel, db: Database, start: int, end: int): (r: TableModel)
    requires Valid(m) && LoadInBounds(m, db, start, end)
    ensures Valid(r)
    ensures r.baseQuery == m.baseQuery && r.countQuery == m.countQuery && r.dataWindow == m.dataWindow
    ensures Fetch(m, db, start, end).None? ==> r == m
  {
    match Fetch(m, db, start, end)
    case None => m
    case Some(records) =>
      var s := FirstRow(start);
      var e := LastRow(m, end);
      var width := m.dataWindow.columnCount;
      var data := seq(|m.modelData|, i requires 0 <= i < |m.modelData| =>
        SlotAfterLoad(m.modelData[i], records, s, e, width, i));
      m.(modelData := data)
  }

  /**
   * The load as the program performs it: the fetch, the write loop over
   * the returned records, then the two loops that empty the slots before
   * and after the range.
   */
  method LoadRows(m: TableModel, db: Database, startRow: int, endRow: int) returns (r: TableModel)
    requires Valid(m) && LoadInBounds(m, db, startRow, endRow)
    ensures r == LoadRowsSpec(m, db, startRow, endRow)
  {
    if !db.isOpen || |m.baseQuery| == 0 {
      return m;
    }
    var s := Max(0, startRow);
    var e := Min(m.dataWindow.tableRowCount - 1, endRow);
    var fetched := db.select(FetchQueryAsWritten(m.baseQuery, e - s + 1, s));
    if fetched.None? {
      return m;
    }
    var records := fetched.value;
    var data := StoreRecords(m, records, s, e);
    r := m.(modelData := data);
    LoadedModelIsSpec(m, db, startRow, endRow, records, data);
  }

  /**
   * The part of the load after a successful fetch: the slot list is
   * allocated if it is still empty, the records are written, and the slots
   * outside `[s, e]` are emptied.
   */
  method StoreRecords(m: TableModel, records: seq<Row>, s: int, e: int) returns (data: seq<Row>)
    requires Valid(m)
    requires 0 <= s <= m.dataWindow.tableRowCount && -1 <= e < m.dataWindow.tableRowCount
    ensures |data| == |m.modelData|
    ensures forall i :: 0 <= i < |data| ==>
      data[i] == SlotAfterLoad(m.modelData[i], records, s, e, m.dataWindow.columnCount, i)
  {
    data := m.modelData;
    if |data| == 0 {
      data := seq(m.dataWindow.tableRowCount, _ => []);
    }
    data := WriteRecords(data, records, s, e, m.dataWindow.columnCount);
    data := EmptyOutside(data, s, e);
  }

  /** Slot contents that agree with `SlotAfterLoad` everywhere make up the loaded model. */
  lemma LoadedModelIsSpec(m: TableModel, db: Database, start: int, end: int, records: seq<Row>, data: seq<Row>)
    requires Valid(m) && LoadInBounds(m, db, start, end)
    requires Fetch(m, db, start, end) == Some(records)
    requires |data| == |m.modelData|
    requires forall i :: 0 <= i < |data| ==>
      data[i] == SlotAfterLoad(m.modelData[i], records, FirstRow(start), LastRow(m, end), m.dataWindow.columnCount, i)
    ensures m.(modelData := data) == LoadRowsSpec(m, db, start, end)
  {
  }

  /** The write loop: record k goes to slot `s + k` while there are records and the slot is at most `e`. */
  method WriteRecords(data: seq<Row>, records: seq<Row>, s: int, e: int, width: nat) returns (out: seq<Row>)
    requires 0 <= s && e < |data|
    ensures |out| == |data|
    ensures forall i :: 0 <= i < |out| ==>
      out[i] == (if s <= i <= e && i - s < |records| then NormalizedRow(records[i - s], width) else data[i])
  {
    out := data;
    var k := 0;
    var rowIndex := s;
    while k < |records| && rowIndex <= e
      invariant 0 <= k <= |records| && rowIndex == s + k
      invariant k == 0 || rowIndex <= e + 1
      invariant |out| == |data|
      invariant forall i :: 0 <= i < |out| ==>
        out[i] == (if s <= i < rowIndex then NormalizedRow(records[i - s], width) else data[i])
    {
      var row := BuildRow(records[k], width);
      out := out[rowIndex := row];
      k := k + 1;
      rowIndex := rowIndex + 1;
    }
  }

  /** The two clearing loops: every slot before `s` and every slot after `e` is emptied. */
  method EmptyOutside(data: seq<Row>, s: int, e: int) returns (out: seq<Row>)
    requires 0 <= s <= |data| && e >= -1
    ensures |out| == |data|
    ensures forall i :: 0 <= i < |out| ==> out[i] == (if s <= i <= e then data[i] else [])
  {
    out := data;
    var i := 0;
    while i < s
      invariant 0 <= i <= s
      invariant |out| == |data|
      invariant forall j :: 0 <= j < |out| ==> out[j] == (if j < i then [] else data[j])
    {
      out := out[i := []];
      i := i + 1;
    }
    i := e + 1;
    while i < |out|
      invariant e + 1 <= i
      invariant |out| == |data|
      invariant forall j :: 0 <= j < |out| ==> out[j] == (if j < s || e + 1 <= j < i then [] else data[j])
    {
      out := out[i := []];
      i := i + 1;
    }
  }

  /** `loadCurrentWindow`: loads the window the model records. */
  function LoadCurrentWindow(m: TableModel, db: Database): (r: TableModel)
    requires Valid(m)
    ensures Valid(r)
  {
    LoadRowsSpec(m, db, m.dataWindow.beginningIndex, m.dataWindow.endingIndex)
  }

  // ---------------------------------------------------------------------
  // Setting a query
  // ---------------------------------------------------------------------

  /**
   * The probe for the column count, `QString("%1 LIMIT 1").arg(baseQuery)`:
   * the base query with ` LIMIT 1` appended, whatever the base query holds.
   */
  function ProbeQuery(base: string): (q: string)
    ensures q == base + " LIMIT 1"
  {
    ProbeFormatFilled(base);
    Arg("%1 LIMIT 1", base)
  }

  /**
   * The reset part of `setBaseQuery`: new query texts, the row count from
   * COUNT (0 if it fails), the column count from the probe (0 if it fails),
   * one empty slot per row, and the first window requested.
   */
  function ResetForQuery(queryBase: string, db: Database): (r: TableModel)
    ensures Valid(r)
  {
    var base := "SELECT * " + queryBase;
    var countQuery := "SELECT COUNT(*) " + queryBase;
    var rows := db.count(countQuery).GetOr(0);
    var width := db.probeWidth(ProbeQuery(base)).GetOr(0);
    var window := DefaultDataWindow.(tableRowCount := rows, columnCount := width);
    TableModel(base, countQuery, seq(rows, _ => []),
      window.(beginningIndex := 0, endingIndex := Min(window.windowSize - 1, rows - 1)))
  }

  /** `setBaseQuery`: with the database closed nothing changes; otherwise reset and load the first window. */
  function SetBaseQuery(m: TableModel, db: Database, queryBase: string): (r: TableModel)
    ensures !db.isOpen ==> r == m
    ensures db.isOpen ==> Valid(r)
  {
    if !db.isOpen then m else LoadCurrentWindow(ResetForQuery(queryBase, db), db)
  }

  // ---------------------------------------------------------------------
  // Reading
  // ---------------------------------------------------------------------

  /** A table index: row, column, and whether it belongs to a model (an index made by the model's view). */
  datatype ModelIndex = ModelIndex(row: int, column: int, hasModel: bool) {
    predicate IsValid() {
      row >= 0 && column >= 0 && hasModel
    }
  }

  /** The item roles; only the display role yields text. */
  datatype Role = DisplayRole | OtherRole(code: nat)

  function CellText(c: Cell): string {
    match c
    case Null => Placeholder
    case Value(text) => text
  }

  /**
   * `data`: the text shown at `index`, or `None` (an empty value) for an
   * invalid index, any role but display, a row outside the slot list, a row
   * not loaded, or a column past the row's end.
   */
  function Data(m: TableModel, index: ModelIndex, role: Role): (v: Option<string>)
    ensures v.Some? <==>
      index.IsValid() && role == DisplayRole && index.row < |m.modelData|
      && index.column < |m.modelData[index.row]|
    ensures v.Some? ==> v.value == CellText(m.modelData[index.row][index.column])
  {
    if !index.IsValid() || role != DisplayRole then None
    else if index.row >= |m.modelData| then None
    else
      var row := m.modelData[index.row];
      if |row| == 0 then None
      else if index.column >= |row| then None
      else Some(CellText(row[index.column]))
  }

  function RowCount(m: TableModel): (n: int)
    ensures Valid(m) ==> n == |m.modelData|
  {
    m.dataWindow.tableRowCount
  }

  /** `columnCount`: in a valid model, every loaded row has exactly this many cells. */
  function ColumnCount(m: TableModel): (n: int)
    ensures Valid(m) ==> n >= 0
    ensures Valid(m) ==> forall i :: 0 <= i < |m.modelData| && !Unloaded(m.modelData[i]) ==> |m.modelData[i]| == n
  {
    m.dataWindow.columnCount
  }

  /** `clear`: no rows, the default window, no base query. The COUNT text is left as it was. */
  function Clear(m: TableModel): (r: TableModel)
    ensures Valid(r)
    ensures RowCount(r) == 0 && ColumnCount(r) == 0
    ensures r.baseQuery == "" && r.modelData == [] && r.dataWindow == DefaultDataWindow
    ensures r.countQuery == m.countQuery
  {
    TableModel("", m.countQuery, [], DefaultDataWindow)
  }

  // ---------------------------------------------------------------------
  // Properties
  // ---------------------------------------------------------------------

  /** A new model is in the state every operation keeps. */
  lemma InitialModelValid()
    ensures Valid(InitialModel)
    ensures RowCount(InitialModel) == 0 && ColumnCount(InitialModel) == 0
  {
  }

  /** After a successful load, only slots inside the clamped range can hold a row. */
  lemma LoadKeepsOneWindow(m: TableModel, db: Database, start: int, end: int)
    requires Valid(m) && LoadInBounds(m, db, start, end)
    requires Fetch(m, db, start, end).Some?
    ensures var r := LoadRowsSpec(m, db, start, end);
      forall i :: 0 <= i < |r.modelData| && !(FirstRow(start) <= i <= LastRow(m, end)) ==> Unloaded(r.modelData[i])
  {
  }

  /**
   * After a successful load, the k-th fetched record sits in slot
   * `FirstRow(start) + k`, for every k that keeps the slot within the range,
   * as a full row of `columnCount` cells.
   */
  lemma LoadPlacesRecords(m: TableModel, db: Database, start: int, end: int, k: int)
    requires Valid(m) && LoadInBounds(m, db, start, end)
    requires Fetch(m, db, start, end).Some?
    requires 0 <= k < |Fetch(m, db, start, end).value| && FirstRow(start) + k <= LastRow(m, end)
    ensures var r := LoadRowsSpec(m, db, start, end);
      var record := Fetch(m, db, start, end).value[k];
      && r.modelData[FirstRow(start) + k] == NormalizedRow(record, m.dataWindow.columnCount)
      && LoadedRow(r.modelData[FirstRow(start) + k], ColumnCount(m))
  {
    var records := Fetch(m, db, start, end).value;
    var i := FirstRow(start) + k;
    var width := m.dataWindow.columnCount;
    assert i < |m.modelData|;
    LoadedSlot(m, db, start, end, i);
    assert FirstRow(start) <= i <= LastRow(m, end) && i - FirstRow(start) == k;
    var row := NormalizedRow(records[k], width);
    assert SlotAfterLoad(m.modelData[i], records, FirstRow(start), LastRow(m, end), width, i) == row;
    assert LoadedRow(row, ColumnCount(m));
  }

  /** Slot `i` of the loaded model, after a successful fetch, is what `SlotAfterLoad` gives. */
  lemma LoadedSlot(m: TableModel, db: Database, start: int, end: int, i: int)
    requires Valid(m) && LoadInBounds(m, db, start, end)
    requires Fetch(m, db, start, end).Some?
    requires 0 <= i < |m.modelData|
    ensures LoadRowsSpec(m, db, start, end).modelData[i]
      == SlotAfterLoad(m.modelData[i], Fetch(m, db, start, end).value, FirstRow(start), LastRow(m, end), m.dataWindow.columnCount, i)
  {
  }

  /** Loading the same range again over the same database changes nothing more. */
  lemma LoadIdempotent(m: TableModel, db: Database, start: int, end: int)
    requires Valid(m) && LoadInBounds(m, db, start, end)
    ensures var r := LoadRowsSpec(m, db, start, end);
      LoadInBounds(r, db, start, end) && LoadRowsSpec(r, db, start, end) == r
  {
    var r := LoadRowsSpec(m, db, start, end);
    assert Fetch(r, db, start, end) == Fetch(m, db, start, end);
    if Fetch(m, db, start, end).Some? {
      var r2 := LoadRowsSpec(r, db, start, end);
      assert |r2.modelData| == |r.modelData|;
      forall i | 0 <= i < |r.modelData|
        ensures r2.modelData[i] == r.modelData[i]
      {
      }
    }
  }

  /**
   * Reading a cell of a freshly loaded row gives the fetched value, or the
   * em dash where the database had NULL or no value at all.
   */
  lemma DataAfterLoad(m: TableModel, db: Database, start: int, end: int, k: int, column: int)
    requires Valid(m) && LoadInBounds(m, db, start, end)
    requires Fetch(m, db, start, end).Some?
    requires 0 <= k < |Fetch(m, db, start, end).value| && FirstRow(start) + k <= LastRow(m, end)
    requires 0 <= column < ColumnCount(m)
    ensures var record := Fetch(m, db, start, end).value[k];
      Data(LoadRowsSpec(m, db, start, end), ModelIndex(FirstRow(start) + k, column, true), DisplayRole)
      == Some(if column < |record| && record[column].Value? then record[column].text else Placeholder)
  {
    LoadPlacesRecords(m, db, start, end, k);
  }

  /** Loading never changes the counts the view reads, nor the query texts. */
  lemma LoadKeepsShape(m: TableModel, db: Database, start: int, end: int)
    requires Valid(m) && LoadInBounds(m, db, start, end)
    ensures var r := LoadRowsSpec(m, db, start, end);
      RowCount(r) == RowCount(m) && ColumnCount(r) == ColumnCount(m) && |r.modelData| == |m.modelData|
  {
  }

  /** The probe format's single marker takes the whole base query, which is not rescanned. */
  lemma ProbeFormatFilled(base: string)
    ensures Arg("%1 LIMIT 1", base) == base + " LIMIT 1"
  {
    var tail := " LIMIT 1";
    assert "%1 LIMIT 1" == ['%', '1'] + tail;
    ArgLeadingMarker('1', tail, base);
  }

  /**
   * After `setBaseQuery` on an open database: the query texts are built from
   * the given FROM/WHERE/ORDER part, the row count is the COUNT result (0 on
   * failure), the column count is the probe's width (0 on failure), there is
   * one slot per row, and the window requested is the first 300 rows.
   */
  lemma SetBaseQueryOutcome(m: TableModel, db: Database, queryBase: string)
    requires db.isOpen
    ensures var r := SetBaseQuery(m, db, queryBase);
      && r.baseQuery == "SELECT * " + queryBase
      && r.countQuery == "SELECT COUNT(*) " + queryBase
      && RowCount(r) == db.count("SELECT COUNT(*) " + queryBase).GetOr(0)
      && ColumnCount(r) == db.probeWidth(("SELECT * " + queryBase) + " LIMIT 1").GetOr(0)
      && |r.modelData| == RowCount(r)
      && r.dataWindow.windowSize == 300
      && r.dataWindow.beginningIndex == 0
      && r.dataWindow.endingIndex == Min(299, RowCount(r) - 1)
  {
  }

  /**
   * After `setBaseQuery` on an open database, the first window is loaded:
   * the first fetched records fill the first slots, and every slot past
   * the window is empty. If the fetch fails, every slot is empty.
   */
  lemma SetBaseQueryLoadsFirstWindow(m: TableModel, db: Database, queryBase: string)
    requires db.isOpen
    ensures var reset := ResetForQuery(queryBase, db);
      var r := SetBaseQuery(m, db, queryBase);
      var last := reset.dataWindow.endingIndex;
      var rows := db.count("SELECT COUNT(*) " + queryBase).GetOr(0);
      && Fetch(reset, db, 0, last) == db.select(FetchQueryAsWritten("SELECT * " + queryBase, Min(300, rows), 0))
      && (forall i :: 0 <= i < |r.modelData| && i > last ==> Unloaded(r.modelData[i]))
      && (Fetch(reset, db, 0, last).None? ==> forall i :: 0 <= i < |r.modelData| ==> Unloaded(r.modelData[i]))
      && (Fetch(reset, db, 0, last).Some? ==>
            forall k :: 0 <= k < |Fetch(reset, db, 0, last).value| && k <= last ==>
              r.modelData[k] == NormalizedRow(Fetch(reset, db, 0, last).value[k], ColumnCount(reset)))
  {
    var reset := ResetForQuery(queryBase, db);
    assert reset.dataWindow.beginningIndex == 0;
    FirstWindowFetch(queryBase, db);
    if Fetch(reset, db, 0, reset.dataWindow.endingIndex).Some? {
      LoadKeepsOneWindow(reset, db, 0, reset.dataWindow.endingIndex);
    }
  }

  /**
   * The first window's fetch asks for the first `min(300, rows)` rows from
   * offset 0 of `SELECT * <query>`, with the text built by chained `arg` calls.
   */
  lemma FirstWindowFetch(queryBase: string, db: Database)
    ensures var reset := ResetForQuery(queryBase, db);
      var rows := db.count("SELECT COUNT(*) " + queryBase).GetOr(0);
      && reset.dataWindow.endingIndex == Min(300, rows) - 1
      && Fetch(reset, db, 0, reset.dataWindow.endingIndex)
        == if db.isOpen then db.select(FetchQueryAsWritten("SELECT * " + queryBase, Min(300, rows), 0)) else None
  {
    var reset := ResetForQuery(queryBase, db);
    var last := reset.dataWindow.endingIndex;
    assert LastRow(reset, last) == last;
    FetchFromTop(reset, db, last);
  }

  /** A load from row 0 to a counted row `last` fetches `last + 1` rows at offset 0. */
  lemma FetchFromTop(m: TableModel, db: Database, last: int)
    requires |m.baseQuery| > 0 && LastRow(m, last) == last
    ensures Fetch(m, db, 0, last) == if db.isOpen then db.select(FetchQueryAsWritten(m.baseQuery, last + 1, 0)) else None
  {
    assert FirstRow(0) == 0;
  }

  /** After `clear` there is no base query, so a load does nothing and no cell can be read. */
  lemma ClearThenLoadIsNoOp(m: TableModel, db: Database, start: int, end: int, index: ModelIndex, role: Role)
    ensures var c := Clear(m);
      && LoadInBounds(c, db, start, end)
      && LoadRowsSpec(c, db, start, end) == c
      && Data(c, index, role).None?
  {
  }
}

=== FILE: Sequences.dfy ===
/** Sequence helpers shared by the query builder: dropping absent slots and joining strings. */
module Sequences {
  import opened Wrappers

  /** Keeps the present values of `os`, in order (a list built by conditional appends). */
  function Compact<T(!new)>(os: seq<Option<T>>): (r: seq<T>)
    ensures |r| <= |os|
    ensures forall x :: x in r <==> Some(x) in os
  {
    if |os| == 0 then []
    else
      var rest := Compact(os[1..]);
      assert forall x :: Some(x) in os <==> os[0] == Some(x) || Some(x) in os[1..];
      if os[0].Some? then [os[0].value] + rest else rest
  }

  /** Number of present slots. */
  function CountSome<T(!new)>(os: seq<Option<T>>): nat {
    if |os| == 0 then 0 else (if os[0].Some? then 1 else 0) + CountSome(os[1..])
  }

  /** Compacting keeps exactly one value per present slot. */
  lemma {:induction false} CompactLength<T(!new)>(os: seq<Option<T>>)
    ensures |Compact(os)| == CountSome(os)
  {
    if |os| > 0 {
      CompactLength(os[1..]);
    }
  }

  /** Absent leading slots contribute nothing. */
  lemma {:induction false} CompactSkipsNone<T(!new)>(os: seq<Option<T>>, k: nat)
    requires k <= |os|
    requires forall i :: 0 <= i < k ==> os[i].None?
    ensures Compact(os) == Compact(os[k..])
  {
    if k > 0 {
      assert os[1..][k - 1..] == os[k..];
      CompactSkipsNone(os[1..], k - 1);
    }
  }

  /** `QStringList::join`: the parts separated by `sep`. */
  function Join(parts: seq<string>, sep: string): string {
    if |parts| == 0 then ""
    else if |parts| == 1 then parts[0]
    else parts[0] + sep + Join(parts[1..], sep)
  }

  /** Joining two parts puts one separator between them. */
  lemma JoinPair(a: string, b: string, sep: string)
    ensures Join([a, b], sep) == a + sep + b
  {
    assert [a, b][1..] == [b];
  }

  /** Joining splits at the first part. */
  lemma JoinCons(a: string, rest: seq<string>, sep: string)
    requires |rest| > 0
    ensures Join([a] + rest, sep) == a + sep + Join(rest, sep)
  {
    assert ([a] + rest)[1..] == rest;
  }

  /** Joining a non-empty list starts with its first part and ends with its last part. */
  lemma {:induction false} JoinEnds(parts: seq<string>, sep: string)
    requires |parts| > 0
    ensures Join(parts, sep)[..|parts[0]|] == parts[0]
    ensures |Join(parts, sep)| >= |parts[|parts| - 1]|
    ensures Join(parts, sep)[|Join(parts, sep)| - |parts[|parts| - 1]|..] == parts[|parts| - 1]
  {
    if |parts| > 1 {
      JoinEnds(parts[1..], sep);
      var tail := Join(parts[1..], sep);
      assert Join(parts, sep) == parts[0] + sep + tail;
      assert parts[1..][|parts[1..]| - 1] == parts[|parts| - 1];
    }
  }

  /** A sequence without repetitions has as many distinct elements as it has positions. */
  lemma {:induction false} DistinctElementsCard<T>(s: seq<T>)
    requires forall i, j :: 0 <= i < j < |s| ==> s[i] != s[j]
    ensures |set x | x in s| == |s|
  {
    if |s| > 0 {
      DistinctElementsCard(s[1..]);
      assert (set x | x in s) == {s[0]} + (set x | x in s[1..]);
    }
  }

  /** Concatenation regroups freely. */
  lemma AppendAssociates<T>(a: seq<T>, b: seq<T>, c: seq<T>)
    ensures a + (b + c) == (a + b) + c
  {
  }

  /** Dropping a prefix of the left part of a concatenation. */
  lemma DropConcat<T>(x: seq<T>, y: seq<T>, n: nat)
    requires n <= |x|
    ensures (x + y)[n..] == x[n..] + y
    ensures n < |x| ==> (x + y)[n] == x[n]
  {
  }
}

=== FILE: Wrappers.dfy ===
/** Optional values, standing in for `std::optional` and for results a query may fail to produce. */
module Wrappers {

  datatype Option<+T> = None | Some(value: T) {

    /** The wrapped value, or `default` when there is none (`std::optional::value_or`). */
    function GetOr(default: T): T {
      match this
      case Some(v) => v
      case None => default
    }
  }
}
